=== FILE: README.md ===
# StudyCoach spreadsheet uploads, aggregations and route guards

A Dafny model of the core of StudyCoach, an academy-management web
application. An academy uploads students, grades and goals as spreadsheets;
the server parses the sheet, maps the Korean column names to field names,
validates every row against a schema, resolves student names to ids and
writes everything in one transaction, or refuses. Around that pipeline the
model covers the downloadable templates, the radar-chart ability scores,
the pure aggregations of the analytics and dashboard handlers, and the two
route guards.

Modules, one per part of the program:

- `Cells`: decoded cells (`Null | Str | Num`), JavaScript truthiness, the
  three upload kinds.
- `Collections`, `Sorting`, `Numeric`: the JavaScript building blocks the
  handlers lean on: `filter`, `new Set` order, grouping into an
  insertion-ordered object or `Map` (optionally capped), stable `sort`,
  `slice(0, n)`, sums and means over exact reals, `Math.round`.
- `Parser` (`lib/excel/parser.ts`): blank-row filter, header-keyed row
  objects, `validateRow`, row numbering, `COLUMN_MAPPINGS`, `mapExcelData`.
- `Validator` (`lib/excel/validator.ts`): the three zod schemas as checks
  returning a parsed record or issues, error formatting, `validateData`,
  `getSchemaByType`.
- `Mapper` (`lib/excel/mapper.ts`): name lookups over a stored-student
  sequence and the Prisma create-inputs.
- `Upload` (the three `app/api/upload/*/route.ts` handlers): the decision
  ladder no file / parse failure / preview / unknown students / persisted /
  server error.
- `Templates` (`lib/excel/templates.ts`), `Abilities`
  (`lib/ability-calculator.ts`), `Analytics` and `Dashboard` (the pure
  parts of `app/api/analytics/route.ts` and `app/api/dashboard/route.ts`),
  `RouteGuard` (`middleware.ts`, `lib/auth-middleware.ts`).

Inputs that come from outside the code are parameters: the decoded sheet
(or the codec's refusal), the stored students and the faults the database
may throw, the lists the dashboard queries return (already in the query's
order), month labels, timestamps as integers, the collation used by
`localeCompare`, and the text a score is printed as.

Places where the code behaves differently from what one might expect
from its description, and the model follows the code:

- A file the codec cannot read makes `parseExcelFile` throw; the handler's
  `catch` answers 500 with the thrown message, not 400 with parse errors
  (`Upload.Intake`).
- A student row with an empty name is already refused by `validateRow`, so
  the upload answers 400 with one parse error for row 2 and never reaches
  the schema preview (`Upload.EmptyNameRowFailsParsing`).
- A grade whose subject is `constructor`, `toString` or another name
  `Object.prototype` defines makes the subject grouping in the analytics
  handler throw, so the whole analytics request answers 500
  (`Analytics.SubjectPerformance`).
- The length limits count UTF-16 code units, as JavaScript's `.length`
  does, so a character beyond U+FFFF counts twice
  (`Validator.AstralNameTooLong`).

## Model

| member | source | states |
|---|---|---|
| Cells.JsLength | studycoach/src/lib/excel/validator.ts:16 | A string's JavaScript length counts one unit per character up to U+FFFF and two beyond, so it lies between the character count and twice that |
| Cells.JsLengthBasic | studycoach/src/lib/excel/validator.ts:16 | For text within the Basic Multilingual Plane the JavaScript length is the character count |
| Cells.JsLengthAppend | studycoach/src/lib/excel/validator.ts:16 | The JavaScript length of two texts joined is the sum of their lengths |
| Cells.JsLengthMixed | studycoach/src/lib/excel/validator.ts:16 | Basic-plane text followed by astral text counts one unit per character of the first part and two per character of the second |
| Cells.JsLengthAstral | studycoach/src/lib/excel/validator.ts:16 | For text made only of characters beyond U+FFFF the JavaScript length is twice the character count |
| Parser.BuildObject | studycoach/src/lib/excel/parser.ts:47-55 | The row object has a key for exactly the truthy headers; under each, the cell of that header's rightmost column, and null past the end of a short row |
| Parser.NonBlankRows | studycoach/src/lib/excel/parser.ts:42-46 | The kept rows are exactly the rows below the header with at least one cell that is neither null nor "" |
| Parser.SurvivingRows | studycoach/src/lib/excel/parser.ts:45-55 | One row object per kept row, in order, each built from the header row |
| Parser.BlankRowIgnored | studycoach/src/lib/excel/parser.ts:45-46 | Inserting a blank row anywhere below the header leaves the surviving rows, and so their numbering, unchanged |
| Parser.ValidateRow | studycoach/src/lib/excel/parser.ts:88-171 | No errors exactly when the row passes the per-type checks; every error carries the row number, a checked field that fails and that field's value; every failing field has an error |
| Parser.StudentRowErrors | studycoach/src/lib/excel/parser.ts:92-110 | A student row has no errors exactly when 이름 is non-empty text and 학년 is a non-zero number; each error carries the row number and a failing field's value, and each failing field has one |
| Parser.GradeRowErrors | studycoach/src/lib/excel/parser.ts:111-137 | A grade row has no errors exactly when 학생명 and 과목 are truthy and 점수 is a number from 0 to 100; each error carries the row number and a failing field's value, and each failing field has one |
| Parser.GoalRowErrors | studycoach/src/lib/excel/parser.ts:138-167 | A goal row has no errors exactly when 학생명 and 목표제목 are truthy and 목표점수 is a number from 0 to 100; each error carries the row number and a failing field's value, and each failing field has one |
| Parser.CheckRows | studycoach/src/lib/excel/parser.ts:61-66 | Every error names a row by its position plus the first number, and that row fails the checks |
| Parser.CheckRowsData | studycoach/src/lib/excel/parser.ts:61-70 | The rows kept as data are exactly the rows that pass `validateRow`, in order |
| Parser.CheckRowsErrorsComplete | studycoach/src/lib/excel/parser.ts:61-66 | Every failing row has at least one error carrying its number |
| Parser.ParseSheet | studycoach/src/lib/excel/parser.ts:58-78 | totalRows counts the surviving rows; data is the passing rows in order with validRows its length, at most totalRows; the k-th surviving row is reported as row k+2, errors name only failing rows and every failing row is named |
| Parser.NoParseErrors | studycoach/src/lib/excel/parser.ts:61-78 | No errors exactly when every surviving row passes, and then data is all of them |
| Parser.MapRowSpec | studycoach/src/lib/excel/parser.ts:208-215 | A field is present exactly when an entry for it finds a non-null value under its Korean key, and that value is copied unchanged |
| Parser.MapExcelData | studycoach/src/lib/excel/parser.ts:205-217 | One object per row in order; its fields are exactly the canonical names whose Korean column holds a non-null value, copied unchanged; other columns vanish |
| Validator.TextField | studycoach/src/lib/excel/validator.ts:16 | Passes exactly for a string whose JavaScript length (UTF-16 code units) lies within the bounds, yielding that string |
| Validator.NumberField | studycoach/src/lib/excel/validator.ts:17-21 | Passes exactly for a number in the range, and an integer when `.int` is asked for, yielding that number |
| Validator.Nullable | studycoach/src/lib/excel/validator.ts:22-28 | Passes exactly when the value is missing or null or the inner check passes; the result is present exactly when the value was |
| Validator.PhoneField | studycoach/src/lib/excel/validator.ts:29-33 | Passes exactly for a string of the form 010-dddd-dddd |
| Validator.EnumField | studycoach/src/lib/excel/validator.ts:49-53 | Passes exactly for one of the listed strings |
| Validator.StudentSchema | studycoach/src/lib/excel/validator.ts:15-40 | Parses exactly the records with a 1..50 character name, an integer grade in 1..12 and, when given and not null, a class in 1..20, well-formed phone numbers and an address of at most 200 characters; the parsed record holds those values |
| Validator.GradeSchema | studycoach/src/lib/excel/validator.ts:45-59 | Parses exactly the records with non-empty student name, semester and exam date, a 1..50 character subject, one of the four exam types and a score in [0, 100] |
| Validator.GoalSchema | studycoach/src/lib/excel/validator.ts:64-76 | Parses exactly the records with non-empty student name and deadline, a 1..100 character title and both scores in [0, 100] |
| Validator.FormatIssue | studycoach/src/lib/excel/validator.ts:113-116 | The line ends with the message; it is the bare message exactly when the joined path is empty, and otherwise the path, ": ", then the message |
| Validator.FormatIssues | studycoach/src/lib/excel/validator.ts:113-116 | One line per issue, in order |
| Validator.ValidateFrom | studycoach/src/lib/excel/validator.ts:104-119 | Every row lands on exactly one side: the two sides' sizes add up to the rows |
| Validator.ValidValues | studycoach/src/lib/excel/validator.ts:105-108 | The valid side is the parsed records of the rows that parse, in input order |
| Validator.InvalidFaithful | studycoach/src/lib/excel/validator.ts:109-117 | Each invalid entry is numbered by its row's position plus the first number, holds that row unchanged, and its errors are the formatted issues of a rejection |
| Validator.InvalidIncreasing | studycoach/src/lib/excel/validator.ts:104-119 | Invalid entries come in increasing row order |
| Validator.InvalidCovers | studycoach/src/lib/excel/validator.ts:104-119 | Every rejected row has an invalid entry with its number |
| Validator.ValidateData | studycoach/src/lib/excel/validator.ts:95-122 | The partition of all rows with invalid rows numbered index+2, each with at least one error, the row data unchanged, in order, and covering every rejected row |
| Validator.NoInvalidIffAllParse | studycoach/src/lib/excel/validator.ts:104-119 | No invalid entries exactly when every row parses, and then the valid side is every row's record in order |
| Validator.GetSchemaByType | studycoach/src/lib/excel/validator.ts:127-138 | The selected schema reports no issue exactly on the records that satisfy the rules of the requested kind |
| Validator.ScoreAboveRangeRejected | studycoach/src/lib/excel/validator.ts:54-57 | A valid grade whose score is replaced by any number above 100 is rejected with exactly one issue, on `score`, carrying the upper-bound message |
| Validator.MixedNameTooLong | studycoach/src/lib/excel/validator.ts:16 | One Hangul character and 25 emoji make 51 UTF-16 code units, so the 50-character limit rejects a 26-character name |
| Validator.AstralNameTooLong | studycoach/src/lib/excel/validator.ts:16 | A name of 26 emoji is 52 UTF-16 code units long, so the 50-character limit rejects it and the student record does not parse |
| Mapper.FindStudentIdByName | studycoach/src/lib/excel/mapper.ts:58-72 | None exactly when no stored student has the name; otherwise the id of the first stored student with it |
| Mapper.IdMap | studycoach/src/lib/excel/mapper.ts:95-98 | Every student's name is a key, every key is a student's name, and a name maps to the id of the last student carrying it |
| Mapper.FetchByNames | studycoach/src/lib/excel/mapper.ts:83-93 | The fetched students are exactly the stored ones whose name is requested, filtering on the name only |
| Mapper.FetchKeepsLast | studycoach/src/lib/excel/mapper.ts:83-98 | For a requested name, the map built from the fetched students holds the id of the last stored student carrying it |
| Mapper.CreateStudentNameToIdMap | studycoach/src/lib/excel/mapper.ts:77-101 | Every requested name some student carries is a key; every key is requested and stored; under duplicates the last stored student's id wins |
| Mapper.ResolvedIdsAreStored | studycoach/src/lib/excel/mapper.ts:95-100 | A requested name that a stored student carries is a key, mapped to the id of the last stored student carrying it |
| Mapper.ResolutionIgnoresAcademy | studycoach/src/lib/excel/mapper.ts:83-93 | Moving every stored student to another academy does not change the map: the lookup has no academy filter |
| Mapper.CrossAcademyNameResolves | studycoach/src/lib/excel/mapper.ts:83-93 | A name only another academy's student carries is still resolved to that student's id |
| Mapper.FirstAndLastMatchDiffer | studycoach/src/lib/excel/mapper.ts:62-71 | With a duplicated name, the single lookup answers with the first student and the map with the last |
| Mapper.OrAbsent | studycoach/src/lib/excel/mapper.ts:17-20 | `?? undefined` makes both missing and null absent and keeps a given value |
| Mapper.MapStudentToPrisma | studycoach/src/lib/excel/mapper.ts:11-22 | Name and grade are copied; each optional field is present exactly when it was given, and then holds the given value |
| Mapper.StudentMappingForgetsOnlyNull | studycoach/src/lib/excel/mapper.ts:11-22 | Two students map to the same input exactly when they differ at most in missing-versus-null optionals |
| Mapper.MapGradeToPrisma | studycoach/src/lib/excel/mapper.ts:106-120 | Subject, semester, exam type, score and date are copied and exactly the given student is connected |
| Mapper.GradeMappingDropsOnlyName | studycoach/src/lib/excel/mapper.ts:106-120 | Two grade inputs agree exactly when everything but the student name agrees and the ids are equal |
| Mapper.MapGoalToPrisma | studycoach/src/lib/excel/mapper.ts:125-139 | Title, scores and deadline are copied, the given student is connected and the status is always IN_PROGRESS |
| Mapper.GoalMappingDropsOnlyName | studycoach/src/lib/excel/mapper.ts:125-139 | Two goal inputs agree exactly when everything but the student name agrees and the ids are equal |
| Mapper.MapGradeToPrismaInput | studycoach/src/lib/excel/mapper.ts:28-37 | The deferred grade input keeps the student's name |
| Mapper.GradeInputThenConnect | studycoach/src/lib/excel/mapper.ts:28-37 | Resolving the deferred input's name later gives the same input as `mapGradeToPrisma` |
| Mapper.MapGoalToPrismaInput | studycoach/src/lib/excel/mapper.ts:43-52 | The deferred goal input keeps the student's name and is IN_PROGRESS |
| Mapper.GoalInputThenConnect | studycoach/src/lib/excel/mapper.ts:43-52 | Resolving the deferred input's name later gives the same input as `mapGoalToPrisma` |
| Upload.FaultMessage | studycoach/src/app/api/upload/grades/route.ts:96-104 | An Error's message, and the fixed text for any other thrown value |
| Upload.Intake | studycoach/src/app/api/upload/grades/route.ts:9-54 | An unreadable body is a 500; a missing or empty file field is "no file" before any parsing; other text or an undecodable file makes the parser throw, a 500; otherwise parse failure, preview or validated records |
| Upload.IntakeParseFailed | studycoach/src/app/api/upload/grades/route.ts:18-29 | The upload fails parsing exactly when some surviving row fails the row checks; it then lists at least one error, each naming such a row by its number |
| Upload.IntakePreviewNumbering | studycoach/src/app/api/upload/grades/route.ts:18-54 | A preview has at least one invalid row, validRows is the valid count, the counts add up to totalRows, and each invalid row's number is the parser's number for the same surviving row, whose mapped data it holds |
| Upload.IntakeValidatedAll | studycoach/src/app/api/upload/grades/route.ts:18-54 | Past validation every surviving row parsed, and the validated records are theirs in sheet order |
| Upload.Commit | studycoach/src/app/api/upload/students/route.ts:58-76 | A failing transaction is a 500 that writes nothing; otherwise every record is written and the counts are reported |
| Upload.StudentRecords | studycoach/src/app/api/upload/students/route.ts:59-63 | One create-input per valid student, in order |
| Upload.UploadStudents | studycoach/src/app/api/upload/students/route.ts:6-87 | A persisted response reports as created the number of records it wrote |
| Upload.ResolveAndCommit | studycoach/src/app/api/upload/grades/route.ts:56-95 | A failing lookup is a 500; the upload is refused for unknown students exactly when some record names a student nobody stored |
| Upload.MissingStudentsListed | studycoach/src/app/api/upload/grades/route.ts:58-72 | The refusal lists every unknown name once, nothing else, in first-occurrence order, and writes nothing even for known students |
| Upload.PersistedLinks | studycoach/src/app/api/upload/grades/route.ts:74-95 | On success created = validRows = records = the validated records, each built with the id of the last stored student carrying its name |
| Upload.UploadGrades | studycoach/src/app/api/upload/grades/route.ts:6-106 | Name resolution and writing are reached only for uploads that got past validation |
| Upload.UploadGoals | studycoach/src/app/api/upload/goals/route.ts:6-106 | Name resolution and writing are reached only for uploads that got past validation |
| Upload.StudentsAllOrNothing | studycoach/src/app/api/upload/students/route.ts:56-76 | Every non-persisted response writes nothing; on success created = validRows = total = surviving rows, and the records are every row's mapped student in sheet order |
| Upload.GradesAllOrNothing | studycoach/src/app/api/upload/grades/route.ts:74-95 | Every non-persisted response writes nothing; on success created = validRows = total, one grade per surviving row in order, linked to the last stored student with its name |
| Upload.GoalsAllOrNothing | studycoach/src/app/api/upload/goals/route.ts:74-95 | The same for goals, every goal created IN_PROGRESS |
| Upload.GradesMissingStudents | studycoach/src/app/api/upload/grades/route.ts:56-72 | Refused for unknown students exactly when validation passed, the lookup worked and some grade names an unknown student; the names are listed once each, in first-occurrence order |
| Upload.GoalsMissingStudents | studycoach/src/app/api/upload/goals/route.ts:56-72 | Refused for unknown students exactly when some validated goal names an unknown student; each such name listed once |
| Upload.EmptyNameRowFailsParsing | studycoach/src/app/api/upload/students/route.ts:18-29 | A sheet whose only row has an empty name and grade 2 gets one parse error on row 2, not a preview |
| Templates.RowsMatchHeaderWidth | studycoach/src/lib/excel/templates.ts:10-45 | Every example row has exactly one cell per header |
| Templates.LongestInColumn | studycoach/src/lib/excel/templates.ts:67-72 | The maximum cell length of the column: no cell is longer, and some cell reaches it |
| Templates.ColumnWidths | studycoach/src/lib/excel/templates.ts:66-74 | One width per header cell, never below 10, at least every cell's length plus 2, and above 10 only as some cell's length plus 2 |
| Templates.HeaderKeys | studycoach/src/lib/excel/templates.ts:10-45 | Each template's header row is the Korean names of the same kind's column mapping, in order, and they are distinct and non-empty |
| Templates.ExamplesFit | studycoach/src/lib/excel/templates.ts:10-45 | Every example row holds, column by column, values that the row checks and the schema accept |
| Templates.ExampleRowsSurvive | studycoach/src/lib/excel/templates.ts:10-45 | Every example row survives the blank-row filter, in order |
| Templates.TemplateUploadsCleanly | studycoach/src/lib/excel/templates.ts:10-45 | An unchanged template passes the row checks on every row and, once mapped, its kind's schema on every row |
| Templates.FittingTableUploads | studycoach/src/lib/excel/parser.ts:42-78 | Any sheet headed by a kind's Korean column names whose other rows each fit their columns parses with no errors, keeps every row, and maps each row to a record the kind's schema accepts |
| Templates.GetTemplateFileName | studycoach/src/lib/excel/templates.ts:90-98 | 학생정보_템플릿.xlsx, 성적정보_템플릿.xlsx and 목표정보_템플릿.xlsx for students, grades and goals |
| Templates.FileNamesDistinct | studycoach/src/lib/excel/templates.ts:90-98 | The file names differ between kinds and all end in .xlsx |
| Templates.GetAllTemplateInfo | studycoach/src/lib/excel/templates.ts:134-141 | Three entries in the order students, grades, goals, each with the per-kind file name, description and display name |
| Abilities.GroupedScores | studycoach/src/lib/ability-calculator.ts:19-26 | The grouping map's list under a subject is that subject's scores in input order |
| Abilities.AveragedBySubject | studycoach/src/lib/ability-calculator.ts:19-38 | One point per distinct subject in first-occurrence order, scored by the rounded mean of that subject's scores, out of 100 |
| Abilities.AveragedSubjects | studycoach/src/lib/ability-calculator.ts:19-38 | The points name each graded subject exactly once |
| Abilities.Rank | studycoach/src/lib/ability-calculator.ts:41-45 | None exactly for a subject outside the fixed list; otherwise its position there |
| Abilities.CalculateSubjectAbilities | studycoach/src/lib/ability-calculator.ts:17-57 | Exactly one point per graded subject, each with fullMark 100 and the rounded mean of all that subject's scores |
| Abilities.NoGradesNoAbilities | studycoach/src/lib/ability-calculator.ts:17-57 | No grades give no points |
| Abilities.AbilityScoresInRange | studycoach/src/lib/ability-calculator.ts:31-38 | Scores in [0, 100] give points in [0, 100] |
| Abilities.AbilityBeforeStrict | studycoach/src/lib/ability-calculator.ts:43-54 | Under a strict collation the comparator is a strict order |
| Abilities.MainSubjectsFirst | studycoach/src/lib/ability-calculator.ts:41-54 | 수학, 영어, 국어, 과학, 사회 come first in that order; every other subject follows them and never precedes one it collates after |
| Abilities.RecentGroups | studycoach/src/lib/ability-calculator.ts:72-82 | One group per subject of the date-sorted grades, holding its first recentCount scores |
| Abilities.CalculateRecentAbilities | studycoach/src/lib/ability-calculator.ts:62-97 | Exactly one point per graded subject, in order of each subject's latest exam, each with fullMark 100 and the rounded mean of between 1 and recentCount of its most recent scores |
| Abilities.RecentDefaultsToThree | studycoach/src/lib/ability-calculator.ts:62-65 | Without a count the default of 3 applies, so each point averages between 1 and 3 of its subject's most recent scores |
| Abilities.RecentAreLatest | studycoach/src/lib/ability-calculator.ts:66-82 | The scores kept for a subject are its first recentCount grades latest first, and no grade left out is later than one kept |
| Abilities.InSemester | studycoach/src/lib/ability-calculator.ts:106-109 | Exactly the grades whose exam type contains the semester text; it is `Collections.Filter` under that test, so they stay in input order |
| Abilities.CalculateSemesterAbilities | studycoach/src/lib/ability-calculator.ts:102-112 | One point per subject among the selected grades, scored over the selected grades only |
| Abilities.EmptySemesterKeepsAll | studycoach/src/lib/ability-calculator.ts:106-109 | The empty semester text selects every grade |
| Analytics.AverageScoreWithin | studycoach/src/app/api/analytics/route.ts:37-40 | 0 without grades; otherwise average times count is the sum, and scores within bounds keep the average within them |
| Analytics.AllOrNonePresent | studycoach/src/app/api/analytics/route.ts:69 | The PRESENT count is at most the number of records; it is all of them exactly when every status is PRESENT, and zero exactly when none is |
| Analytics.AttendanceRate | studycoach/src/app/api/analytics/route.ts:67-72 | 0 without records, otherwise the number of PRESENT records times 100 over the number of records; always in [0, 100]; 100 exactly when every record is PRESENT, 0 exactly when none is |
| Analytics.PercentExtremes | studycoach/src/app/api/analytics/route.ts:69-71 | A share is 100 exactly when the part is the whole and 0 exactly when the part is 0 |
| Analytics.AverageByKey | studycoach/src/app/api/analytics/route.ts:98-111 | One entry per distinct key in first-occurrence order, with the mean and the number of that key's values |
| Analytics.AverageByKeyTotal | studycoach/src/app/api/analytics/route.ts:98-111 | The entries' counts add up to the number of items |
| Analytics.AverageByKeyKeys | studycoach/src/app/api/analytics/route.ts:98-111 | Each key appears once, and the keys are exactly the items' keys |
| Analytics.ByAverage | studycoach/src/app/api/analytics/route.ts:112 | Sorting keeps the entries, their keys, distinctness and count total, and orders averages non-increasingly |
| Analytics.StudentKeys | studycoach/src/app/api/analytics/route.ts:75-86 | Each graded student id once |
| Analytics.Performers | studycoach/src/app/api/analytics/route.ts:75-93 | One performer per student id, in first-grade order, with the name on its first grade and the mean of its scores |
| Analytics.PerformersIds | studycoach/src/app/api/analytics/route.ts:75-93 | At most one performer per student, and exactly the graded students |
| Analytics.TopFive | studycoach/src/app/api/analytics/route.ts:94-95 | At most 5, taken from the input, non-increasing average, distinct ids stay distinct, and nobody left out beats the fifth |
| Analytics.TopPerformers | studycoach/src/app/api/analytics/route.ts:75-95 | At most 5 performers, one per student at most, non-increasing average, and no student left out has a higher average than the fifth |
| Analytics.SubjectPerformance | studycoach/src/app/api/analytics/route.ts:98-112 | No result exactly when some subject is the name of an `Object.prototype` member, where the grouping throws; otherwise one entry per subject with its mean and count, counts adding up to the number of grades, sorted non-increasing by average |
| Analytics.ConstructorSubjectFails | studycoach/src/app/api/analytics/route.ts:98-104 | A grade whose subject is "constructor" leaves the subject statistics without a result, which the handler answers with a 500 |
| Analytics.RecentTrends | studycoach/src/app/api/analytics/route.ts:133-148 | One entry per month with a grade, holding the mean of that month's scores, in order of each month's first grade |
| Analytics.BandsCover | studycoach/src/app/api/analytics/route.ts:151-165 | Every score falls in one of the five bands |
| Analytics.BandCountsAddUp | studycoach/src/app/api/analytics/route.ts:151-165 | The five band counts add up to the number of grades |
| Analytics.Buckets | studycoach/src/app/api/analytics/route.ts:151-165 | Five buckets, high to low, each labelled and counting its band |
| Analytics.BucketsTotal | studycoach/src/app/api/analytics/route.ts:151-165 | Before filtering, the bucket counts add up to the number of grades |
| Analytics.RangesRanked | studycoach/src/app/api/analytics/route.ts:151-165 | The labels' ranks are their positions, high to low |
| Analytics.GradeDistribution | studycoach/src/app/api/analytics/route.ts:151-166 | Exactly the non-empty buckets, in the fixed high-to-low order, with counts adding up to the number of grades |
| Analytics.FilterTotal | studycoach/src/app/api/analytics/route.ts:166 | Dropping empty buckets does not change the total count |
| Analytics.MonthlyAttendance | studycoach/src/app/api/analytics/route.ts:183-201 | One entry per month with a record, in first-record order, each the month's PRESENT share, the same rate `AttendanceRate` gives for that month's records, in [0, 100] |
| Dashboard.AverageScore | studycoach/src/app/api/dashboard/route.ts:33-35 | 0 without grades; otherwise within 0.05 of the mean and a whole number of tenths |
| Dashboard.AverageScoreWithin | studycoach/src/app/api/dashboard/route.ts:33-35 | Scores within whole-number bounds keep the rounded average within them; the bounds need to contain 0 only when there are no scores |
| Dashboard.AttendanceDescription | studycoach/src/app/api/dashboard/route.ts:76 | 출석 완료 exactly for PRESENT, 지각 exactly for LATE, 결석 exactly for anything else |
| Dashboard.Merged | studycoach/src/app/api/dashboard/route.ts:38-78 | As many items as the first five grades, goals and attendances together, at most 15: the grade activities, then the goal activities, then the attendance activities, each block in its list's order |
| Dashboard.MergedCovers | studycoach/src/app/api/dashboard/route.ts:38-78 | Every one of the first five rows of each list appears in the feed as its activity |
| Dashboard.MergedFromTaken | studycoach/src/app/api/dashboard/route.ts:38-78 | Every item of the feed is built from one of the first five rows of its own list, with the matching type |
| Dashboard.MergedBlockOrder | studycoach/src/app/api/dashboard/route.ts:38-78 | Grades come before goals and goals before attendances |
| Dashboard.EqualTimesByKind | studycoach/src/app/api/dashboard/route.ts:59-79 | Among entries with the same timestamp the sorted feed keeps the merged order, so a grade comes before a goal and a goal before an attendance |
| Dashboard.Activities | studycoach/src/app/api/dashboard/route.ts:59-80 | At most 5 items, newest first, all from the merged feed, and nothing left out is newer than the fifth |
| Dashboard.Rate | studycoach/src/app/api/dashboard/route.ts:89-91 | 0 for an empty whole; otherwise the nearest integer to 100·part/whole, halves up; in [0, 100] for a part of the whole, 100 for all of it, 0 for none |
| Dashboard.DashboardMetrics | studycoach/src/app/api/dashboard/route.ts:83-112 | Each rate is the share of its records that qualify, and every rate lies in [0, 100] |
| Dashboard.AttendanceMetricIsRoundedRate | studycoach/src/app/api/dashboard/route.ts:96-101 | The dashboard's attendance rate is the analytics attendance rate of the same records, rounded to an integer |
| RouteGuard.Decide | studycoach/src/middleware.ts:12-24 | Home exactly for a signed-in visitor on a public path, login with the path as callbackUrl exactly for an anonymous visitor elsewhere, pass-through otherwise |
| RouteGuard.Middleware | studycoach/src/middleware.ts:27-29 | The decision is made exactly for paths the matcher keeps, and it is the page guard's |
| RouteGuard.PagePublicPaths | studycoach/src/middleware.ts:9-10 | Public exactly for paths starting with /login, /signup or /register |
| RouteGuard.TokenPublicPaths | studycoach/src/lib/auth-middleware.ts:13-14 | Public exactly for paths starting with /login or /signup |
| RouteGuard.ExcludedNeverDecided | studycoach/src/middleware.ts:27-29 | Paths under /api, /_next/static, /_next/image and /favicon.ico never reach the decision |
| RouteGuard.PublicByPrefix | studycoach/src/middleware.ts:10 | Any path extending a public route is public, so /login/x counts |
| RouteGuard.RegisterDiffers | studycoach/src/lib/auth-middleware.ts:13-28 | Under /register the two guards disagree in both sign-in states |
| RouteGuard.MatcherExamples | studycoach/src/middleware.ts:28 | API routes, build assets and the icon are skipped; /login and /students are matched |
| Numeric.Round | studycoach/src/lib/ability-calculator.ts:35 | `Math.round`: the integer n with n ≤ x + 0.5 < n + 1 |
| Collections.Dedupe | studycoach/src/lib/excel/mapper.ts:81 | `[...new Set(names)]`: no repeats, the same members, no longer than the input |
| Collections.DedupeFirstOccurrenceOrder | studycoach/src/lib/excel/mapper.ts:81 | The kept names are in order of first occurrence |
| Collections.GroupIntoSpec | studycoach/src/app/api/analytics/route.ts:98-104 | Each key appears once, in order of first occurrence, holding the values pushed under it in input order, cut to the first cap values when a cap is given |
| Sorting.SortBySorted | studycoach/src/lib/ability-calculator.ts:43-54 | Under a strict comparator the insertion sort's result is sorted |
| Sorting.SortDescStable | studycoach/src/app/api/dashboard/route.ts:79 | The descending sort is stable: the elements that share a key value come out in their input order |
| Sorting.SortDescTake | studycoach/src/app/api/analytics/route.ts:94-95 | The first n after a descending sort are non-increasing, drawn from the input, and nothing left out is higher than the n-th |

## Left out

- The XLSX codec (`XLSX.read`, `sheet_to_json`, `aoa_to_sheet`, `XLSX.write`): the model starts from the decoded cell array and treats an unreadable file as the codec's refusal; `createExcelTemplate` is modelled only through its column widths.
- Prisma: queries and `$transaction` are replaced by a stored-student sequence, optional lookup and commit faults, and the lists and counts the dashboard and analytics queries return.
- Booleans and dates as cells: a cell is null, text or an exact real.
- Floating point: scores, means and rates are exact reals; NaN and infinities do not occur.
- Dates, locales and collation: `new Date(...)`, `toISOString`, `toLocaleDateString` and `localeCompare(..., 'ko')` become integer timestamps, month labels and a collation relation passed in.
- The key order of `Object.entries` and `Object.values`: keys are treated as insertion-ordered; JavaScript lists integer-like keys first, which the student ids (database-generated) and the month labels (`toLocaleDateString` output) never are. Subjects can be; see Analytics.SubjectPerformance below.
- Analytics.SubjectPerformance: a subject that is an integer-like string such as "1" or "2024" is listed first by `Object.entries`, so among subjects with equal averages the stable sort may order them differently from first occurrence; the contract states the entries and the non-increasing order of averages, not the order among ties.
- Raw row objects are keyed by the header cell rather than `String(header)`: every lookup uses a text key, so the two agree wherever the pipeline looks.
- zod beyond the listed rules: the issue order is shape order with checks in declared order, a type error stops the field with the "Required" or "Expected …, received …" message; unknown keys are not reported.
- Authentication, sessions and token decoding: whether a visitor is signed in or holds a token is an input; `path-to-regexp` is reduced to the matcher's prefix tests.
- Logging (`console.log`, `console.error`) and the JSON response bodies beyond their fields.
- `createExcelTemplate`'s concrete widths per template are not computed; only the formula is stated.
- `getTemplateDescription` and the display names are modelled as the literal texts without a property of their own.
- Abilities.CalculateRecentAbilities: requires recentCount ≥ 1, because with 0 every subject's list stays empty and the mean is 0/0 (NaN).
- Dashboard.DashboardMetrics: the model assumes all of the dashboard's count queries see one consistent snapshot, so each numerator counts a subset of its denominator. The route runs them as separate, non-transactional queries (route.ts:16, :83-88, :93-98, :104-109), so a concurrent insert between two of them could push a rate outside [0, 100]; that interleaving is not modelled.
- Dashboard.Merged: the `orderBy` / `take: 5` of the three queries is not modelled; each list is given in the query's order and only its first five rows are used.
- Dashboard.GradeActivityOf: the text a score is printed as is a parameter, since number-to-string conversion is not modelled.
- Analytics.RecentTrends and Analytics.MonthlyAttendance: the six-month window and the month labels are computed outside; the model takes (month label, value) pairs in date order.
- Analytics.AverageScore: the analytics route also returns totalStudents, totalGrades and activeGoals, which are plain database counts.

=== FILE: abilities.dfy ===
/** The radar-chart abilities of `lib/ability-calculator.ts`: per-subject
    rounded means, a fixed order for the main subjects, a cap on how many
    of the latest exams count, and a filter by semester text. Exam dates are
    integer timestamps; Korean collation is a parameter. */
module Abilities {
  import opened Collections
  import opened Numeric
  import opened Sorting

  datatype GradeRecord = GradeRecord(subject: string, score: real, examType: string, examDate: int)

  /** One radar point: `{ subject, score, fullMark }`. */
  datatype Ability = Ability(subject: string, score: int, fullMark: int)

  /** The (subject, score) pairs fed into the grouping map, in input order. */
  function ScorePairs(grades: seq<GradeRecord>): (ps: seq<(string, real)>)
    ensures |ps| == |grades|
    ensures forall i :: 0 <= i < |grades| ==> ps[i] == (grades[i].subject, grades[i].score)
  {
    seq(|grades|, i requires 0 <= i < |grades| => (grades[i].subject, grades[i].score))
  }

  /** The grade is of the given subject. */
  function SubjectIs(subject: string): GradeRecord -> bool {
    (g: GradeRecord) => g.subject == subject
  }

  /** The grades of one subject, in input order. */
  function OfSubject(grades: seq<GradeRecord>, subject: string): (r: seq<GradeRecord>)
    ensures forall g :: g in r <==> g in grades && g.subject == subject
  {
    Filter(grades, SubjectIs(subject))
  }

  function Scores(grades: seq<GradeRecord>): (s: seq<real>)
    ensures |s| == |grades|
    ensures forall i :: 0 <= i < |grades| ==> s[i] == grades[i].score
  {
    seq(|grades|, i requires 0 <= i < |grades| => grades[i].score)
  }

  /** One subject's scores, in input order. */
  function ScoresOf(grades: seq<GradeRecord>, subject: string): seq<real> {
    Scores(OfSubject(grades, subject))
  }

  /** The grouping map's list under a subject is that subject's scores. */
  lemma {:induction false} GroupedScores(grades: seq<GradeRecord>, subject: string)
    ensures ValuesWithKey(ScorePairs(grades), subject) == ScoresOf(grades, subject)
    decreases |grades|
  {
    if |grades| > 0 {
      var n := |grades| - 1;
      assert ScorePairs(grades)[..n] == ScorePairs(grades[..n]);
      GroupedScores(grades[..n], subject);
      var tail := if grades[n].subject == subject then [grades[n]] else [];
      FilterSnoc(grades, SubjectIs(subject));
      assert Scores(OfSubject(grades[..n], subject) + tail) == Scores(OfSubject(grades[..n], subject)) + Scores(tail);
    }
  }

  /** The subjects that have at least one grade. */
  ghost function GradeSubjects(grades: seq<GradeRecord>): set<string> {
    set g | g in grades :: g.subject
  }

  /** The subjects that have a radar point. */
  ghost function AbilitySubjects(r: seq<Ability>): set<string> {
    set a | a in r :: a.subject
  }

  /** A subject has a grade exactly when it is one of the pairs' keys. */
  lemma SubjectKeys(grades: seq<GradeRecord>, subject: string)
    ensures subject in ItemKeys(ScorePairs(grades)) <==> subject in GradeSubjects(grades)
  {
    var ks := ItemKeys(ScorePairs(grades));
    if subject in ks {
      var i :| 0 <= i < |ks| && ks[i] == subject;
      assert grades[i] in grades;
    }
    if subject in GradeSubjects(grades) {
      var g :| g in grades && g.subject == subject;
      var i :| 0 <= i < |grades| && grades[i] == g;
      assert ks[i] == subject;
    }
  }

  /** Points listed in the order of a sequence of distinct keys name
      exactly those keys. */
  lemma KeyedSubjects(r: seq<Ability>, keys: seq<string>)
    requires |r| == |keys| && forall i :: 0 <= i < |r| ==> r[i].subject == keys[i]
    requires Distinct(keys)
    ensures DistinctSubjects(r)
    ensures forall s :: s in AbilitySubjects(r) <==> s in keys
  {
    forall s
      ensures s in AbilitySubjects(r) <==> s in keys
    {
      if s in keys {
        var i :| 0 <= i < |keys| && keys[i] == s;
        assert r[i] in r;
      }
    }
  }

  /** One radar point per group: the rounded mean out of 100. */
  function Averaged(groups: seq<Group<string, real>>): (r: seq<Ability>)
    requires forall i :: 0 <= i < |groups| ==> |groups[i].values| > 0
    ensures |r| == |groups|
    ensures forall i :: 0 <= i < |groups| ==> r[i] == Ability(groups[i].key, Round(Mean(groups[i].values)), 100)
  {
    seq(|groups|, i requires 0 <= i < |groups| => Ability(groups[i].key, Round(Mean(groups[i].values)), 100))
  }

  function AbilitySubject(a: Ability): string {
    a.subject
  }

  /** No two points share a subject. */
  ghost predicate DistinctSubjects(r: seq<Ability>) {
    DistinctBy(r, AbilitySubject)
  }

  /** Grouping by subject and averaging, before any sorting: the subjects
      in order of first occurrence, each with the rounded mean of all its
      scores. */
  function AveragedBySubject(grades: seq<GradeRecord>): (r: seq<Ability>)
    ensures |r| == |Dedupe(ItemKeys(ScorePairs(grades)))|
    ensures forall i :: 0 <= i < |r| ==> r[i].subject == Dedupe(ItemKeys(ScorePairs(grades)))[i]
    ensures forall i :: 0 <= i < |r| ==>
              && |ScoresOf(grades, r[i].subject)| > 0
              && r[i] == Ability(r[i].subject, Round(Mean(ScoresOf(grades, r[i].subject))), 100)
  {
    var items := ScorePairs(grades);
    GroupIntoSpec(items, None);
    GroupIntoNonEmpty(items, None);
    var groups := GroupBy(items);
    forall i | 0 <= i < |groups|
      ensures groups[i].values == ScoresOf(grades, groups[i].key)
    {
      GroupedScores(grades, groups[i].key);
    }
    Averaged(groups)
  }

  /** `subjectOrder`: the main subjects, listed first in this order. */
  const SubjectOrder: seq<string> := ["수학", "영어", "국어", "과학", "사회"]

  /** `subjectOrder.indexOf(subject)`, with `None` for -1. */
  function Rank(subject: string): (r: Option<nat>)
    ensures r.None? <==> subject !in SubjectOrder
    ensures r.Some? ==> r.value < |SubjectOrder| && SubjectOrder[r.value] == subject
  {
    if subject in SubjectOrder then Some(FirstIndex(SubjectOrder, subject)) else None
  }

  /** The sort's comparator is negative: two main subjects by their place
      in the list, a main subject ahead of any other, and two other
      subjects by the collation `collate` (`localeCompare(…, 'ko') < 0`). */
  predicate AbilityBefore(collate: (string, string) -> bool, a: Ability, b: Ability) {
    match (Rank(a.subject), Rank(b.subject))
    case (Some(i), Some(j)) => i < j
    case (Some(_), None) => true
    case (None, Some(_)) => false
    case (None, None) => collate(a.subject, b.subject)
  }

  /** The averaged groups name each subject of the grades exactly once. */
  lemma AveragedSubjects(grades: seq<GradeRecord>)
    ensures DistinctSubjects(AveragedBySubject(grades))
    ensures AbilitySubjects(AveragedBySubject(grades)) == GradeSubjects(grades)
  {
    var u := AveragedBySubject(grades);
    var keys := Dedupe(ItemKeys(ScorePairs(grades)));
    KeyedSubjects(u, keys);
    forall s
      ensures s in AbilitySubjects(u) <==> s in GradeSubjects(grades)
    {
      SubjectKeys(grades, s);
    }
  }

  /** The sort's comparator, as a function value. */
  function Before(collate: (string, string) -> bool): (Ability, Ability) -> bool {
    (a: Ability, b: Ability) => AbilityBefore(collate, a, b)
  }

  /** `calculateSubjectAbilities`: one point per distinct subject, scored by
      the rounded mean of all that subject's grades, out of 100. */
  function CalculateSubjectAbilities(grades: seq<GradeRecord>, collate: (string, string) -> bool): (r: seq<Ability>)
    ensures |r| <= |grades|
    ensures DistinctSubjects(r)
    ensures AbilitySubjects(r) == GradeSubjects(grades)
    ensures forall a :: a in r ==>
              && a.fullMark == 100
              && |ScoresOf(grades, a.subject)| > 0
              && a.score == Round(Mean(ScoresOf(grades, a.subject)))
  {
    var unsorted := AveragedBySubject(grades);
    AveragedSubjects(grades);
    var r := SortBy(unsorted, Before(collate));
    SortByMembers(unsorted, Before(collate));
    PermutationDistinctBy(unsorted, r, AbilitySubject);
    r
  }

  /** No grades, no points. */
  lemma NoGradesNoAbilities(collate: (string, string) -> bool)
    ensures CalculateSubjectAbilities([], collate) == []
  {
  }

  /** Scores within `[0, 100]` give points within `[0, 100]`. */
  lemma AbilityScoresInRange(grades: seq<GradeRecord>, collate: (string, string) -> bool)
    requires forall g :: g in grades ==> 0.0 <= g.score <= 100.0
    ensures forall a :: a in CalculateSubjectAbilities(grades, collate) ==> 0 <= a.score <= 100
  {
    forall a | a in CalculateSubjectAbilities(grades, collate)
      ensures 0 <= a.score <= 100
    {
      var s := ScoresOf(grades, a.subject);
      forall i | 0 <= i < |s|
        ensures 0.0 <= s[i] <= 100.0
      {
        assert OfSubject(grades, a.subject)[i] in OfSubject(grades, a.subject);
      }
      MeanBounds(s, 0.0, 100.0);
      RoundBounds(Mean(s), 0, 100);
    }
  }

  /** With a strict collation the comparator is a strict order. */
  lemma AbilityBeforeStrict(collate: (string, string) -> bool)
    requires StrictOrder(collate)
    ensures StrictOrder(Before(collate))
  {
  }

  /** In any sequence sorted by the comparator, main subjects come first in
      the fixed order and an other subject never precedes one it collates
      after. */
  lemma SortedByBefore(r: seq<Ability>, collate: (string, string) -> bool)
    requires Sorted(r, Before(collate)) && DistinctSubjects(r)
    ensures forall i, j :: 0 <= i < j < |r| ==>
              && (Rank(r[j].subject).Some? ==> Rank(r[i].subject).Some? && Rank(r[i].subject).value < Rank(r[j].subject).value)
              && (Rank(r[i].subject).None? ==> !collate(r[j].subject, r[i].subject))
  {
    forall i, j | 0 <= i < j < |r|
      ensures Rank(r[j].subject).Some? ==> Rank(r[i].subject).Some? && Rank(r[i].subject).value < Rank(r[j].subject).value
      ensures Rank(r[i].subject).None? ==> !collate(r[j].subject, r[i].subject)
    {
      assert !Before(collate)(r[j], r[i]);
      assert r[i].subject != r[j].subject;
    }
  }

  /** The points are the averaged groups put in comparator order. */
  lemma AbilitiesSorted(grades: seq<GradeRecord>, collate: (string, string) -> bool)
    requires StrictOrder(collate)
    ensures Sorted(CalculateSubjectAbilities(grades, collate), Before(collate))
  {
    AbilityBeforeStrict(collate);
    SortBySorted(AveragedBySubject(grades), Before(collate));
  }

  /** The main subjects come first, in the fixed order, and every other
      subject comes after all of them, never ahead of one it collates
      after. */
  lemma MainSubjectsFirst(grades: seq<GradeRecord>, collate: (string, string) -> bool)
    requires StrictOrder(collate)
    ensures var r := CalculateSubjectAbilities(grades, collate);
            forall i, j :: 0 <= i < j < |r| ==>
              && (Rank(r[j].subject).Some? ==> Rank(r[i].subject).Some? && Rank(r[i].subject).value < Rank(r[j].subject).value)
              && (Rank(r[i].subject).None? ==> !collate(r[j].subject, r[i].subject))
  {
    AbilitiesSorted(grades, collate);
    SortedByBefore(CalculateSubjectAbilities(grades, collate), collate);
  }

  // The latest exams only.

  /** Latest exam first: `sort((a, b) => b.examDate - a.examDate)`. */
  function ByDateDesc(grades: seq<GradeRecord>): seq<GradeRecord> {
    SortDesc(grades, (g: GradeRecord) => g.examDate as real)
  }

  /** The scores that count for a subject: its first `recentCount` grades in
      the date-descending order. */
  function RecentScores(grades: seq<GradeRecord>, subject: string, recentCount: nat): seq<real> {
    Kept(ScoresOf(ByDateDesc(grades), subject), Some(recentCount))
  }

  /** Grouping the date-sorted grades with a cap, before averaging: each
      subject once, in order of its latest exam, holding its recent
      scores. */
  function RecentGroups(grades: seq<GradeRecord>, recentCount: nat): (gs: seq<Group<string, real>>)
    requires recentCount >= 1
    ensures Keys(gs) == Dedupe(ItemKeys(ScorePairs(ByDateDesc(grades))))
    ensures forall i :: 0 <= i < |gs| ==>
              && gs[i].values == RecentScores(grades, gs[i].key, recentCount)
              && 1 <= |gs[i].values| <= recentCount
  {
    var sorted := ByDateDesc(grades);
    var items := ScorePairs(sorted);
    var cap := Some(recentCount);
    GroupIntoSpec(items, cap);
    GroupIntoNonEmpty(items, cap);
    var groups := GroupInto(items, cap);
    forall i | 0 <= i < |groups|
      ensures groups[i].values == RecentScores(grades, groups[i].key, recentCount)
    {
      GroupedScores(sorted, groups[i].key);
    }
    groups
  }

  /** The date-sorted grades have the same subjects as the grades. */
  lemma SortedSubjects(grades: seq<GradeRecord>, subject: string)
    ensures subject in Dedupe(ItemKeys(ScorePairs(ByDateDesc(grades)))) <==> subject in GradeSubjects(grades)
  {
    var sorted := ByDateDesc(grades);
    SubjectKeys(sorted, subject);
    forall t
      ensures t in GradeSubjects(sorted) <==> t in GradeSubjects(grades)
    {
      if t in GradeSubjects(sorted) {
        var g :| g in sorted && g.subject == t;
        assert g in multiset(sorted);
      }
      if t in GradeSubjects(grades) {
        var g :| g in grades && g.subject == t;
        assert g in multiset(grades);
      }
    }
  }

  /** `calculateRecentAbilities`: one point per distinct subject, in order
      of each subject's latest exam, scored by the rounded mean of at most
      `recentCount` (by default 3) of its most recent scores. */
  function CalculateRecentAbilities(grades: seq<GradeRecord>, recentCount: nat := 3): (r: seq<Ability>)
    requires recentCount >= 1
    ensures |r| == |Dedupe(ItemKeys(ScorePairs(ByDateDesc(grades))))|
    ensures forall i :: 0 <= i < |r| ==> r[i].subject == Dedupe(ItemKeys(ScorePairs(ByDateDesc(grades))))[i]
    ensures DistinctSubjects(r)
    ensures AbilitySubjects(r) == GradeSubjects(grades)
    ensures forall a :: a in r ==>
              && a.fullMark == 100
              && 1 <= |RecentScores(grades, a.subject, recentCount)| <= recentCount
              && a.score == Round(Mean(RecentScores(grades, a.subject, recentCount)))
  {
    var groups := RecentGroups(grades, recentCount);
    var keys := Keys(groups);
    var r := Averaged(groups);
    KeyedSubjects(r, keys);
    forall s
      ensures s in AbilitySubjects(r) <==> s in GradeSubjects(grades)
    {
      SortedSubjects(grades, s);
    }
    r
  }

  /** Called without a count, each point averages at most the three most
      recent scores of its subject. */
  lemma RecentDefaultsToThree(grades: seq<GradeRecord>)
    ensures CalculateRecentAbilities(grades) == CalculateRecentAbilities(grades, 3)
    ensures forall a :: a in CalculateRecentAbilities(grades) ==>
              1 <= |RecentScores(grades, a.subject, 3)| <= 3
  {
  }

  /** The scores that count for a subject are those of its first
      `recentCount` grades in date-descending order, and none of the grades
      left out is later than one that counts. */
  lemma RecentAreLatest(grades: seq<GradeRecord>, subject: string, recentCount: nat)
    ensures var s := OfSubject(ByDateDesc(grades), subject);
            && DatesDescending(s)
            && RecentScores(grades, subject, recentCount) == Scores(if |s| > recentCount then s[..recentCount] else s)
            && forall i, j :: 0 <= i < recentCount <= j < |s| ==> s[i].examDate >= s[j].examDate
  {
    SortDescSorted(grades, (g: GradeRecord) => g.examDate as real);
    var s := OfSubject(ByDateDesc(grades), subject);
    OfSubjectKeepsOrder(ByDateDesc(grades), subject);
    if |s| > recentCount {
      assert Scores(s)[..recentCount] == Scores(s[..recentCount]);
    }
  }

  ghost predicate DatesDescending(s: seq<GradeRecord>) {
    forall i, j :: 0 <= i < j < |s| ==> s[i].examDate >= s[j].examDate
  }

  /** Picking one subject's grades keeps them latest first. */
  lemma OfSubjectKeepsOrder(s: seq<GradeRecord>, subject: string)
    requires DatesDescending(s)
    ensures DatesDescending(OfSubject(s, subject))
  {
    FilterKeepsOrder(s, SubjectIs(subject), (a: GradeRecord, b: GradeRecord) => a.examDate >= b.examDate);
  }

  // One semester.

  /** `needle` occurs in `haystack` starting at index `i`. */
  predicate OccursAt(haystack: string, needle: string, i: nat) {
    i + |needle| <= |haystack| && haystack[i..i + |needle|] == needle
  }

  /** `haystack.includes(needle)`. */
  predicate Contains(haystack: string, needle: string) {
    exists i: nat :: i <= |haystack| && OccursAt(haystack, needle, i)
  }

  /** The grade's exam type mentions the semester. */
  function ExamTypeMentions(semester: string): GradeRecord -> bool {
    (g: GradeRecord) => Contains(g.examType, semester)
  }

  /** The grades whose exam type mentions the semester, in input order. */
  function InSemester(grades: seq<GradeRecord>, semester: string): (r: seq<GradeRecord>)
    ensures forall g :: g in r <==> g in grades && Contains(g.examType, semester)
  {
    Filter(grades, ExamTypeMentions(semester))
  }

  /** `calculateSemesterAbilities`: the subject abilities of the grades
      whose exam type contains the semester text. */
  function CalculateSemesterAbilities(grades: seq<GradeRecord>, semester: string, collate: (string, string) -> bool): (r: seq<Ability>)
    ensures DistinctSubjects(r)
    ensures AbilitySubjects(r) == set g | g in grades && Contains(g.examType, semester) :: g.subject
    ensures forall a :: a in r ==>
              && a.fullMark == 100
              && |ScoresOf(InSemester(grades, semester), a.subject)| > 0
              && a.score == Round(Mean(ScoresOf(InSemester(grades, semester), a.subject)))
  {
    var selected := InSemester(grades, semester);
    assert GradeSubjects(selected) == set g | g in grades && Contains(g.examType, semester) :: g.subject;
    CalculateSubjectAbilities(selected, collate)
  }

  /** The empty semester text is in every exam type, so it selects all
      grades. */
  lemma EmptySemesterKeepsAll(grades: seq<GradeRecord>)
    ensures InSemester(grades, "") == grades
  {
    forall k | 0 <= k < |grades|
      ensures ExamTypeMentions("")(grades[k])
    {
      assert OccursAt(grades[k].examType, "", 0);
    }
    FilterLength(grades, ExamTypeMentions(""));
  }
}

=== FILE: analytics.dfy ===
/** The pure aggregations of the analytics handler
    (`app/api/analytics/route.ts`): the overall average and attendance
    rate, the top five students, per-subject performance, the monthly score
    trend, the five score bands and the monthly attendance rates. The
    queries that fetch the lists are not modelled: the lists are inputs,
    in the order the database returns them, and every month label
    (`toLocaleDateString('ko-KR', …)`) arrives already computed. */
module Analytics {
  import opened Collections
  import opened Numeric
  import opened Sorting

  /** One row of `allGrades`, with the student it includes. */
  datatype Grade = Grade(studentId: string, studentName: string, subject: string, score: real)

  function Score(g: Grade): real {
    g.score
  }

  /** The scores of `allGrades`, in order. */
  function GradeScores(grades: seq<Grade>): seq<real> {
    Map(grades, Score)
  }

  // ---------------------------------------------------------------------
  // Overall average and attendance rate
  // ---------------------------------------------------------------------

  /** `averageScore`: the mean score, or 0 without grades. */
  function AverageScore(grades: seq<Grade>): real {
    if |grades| > 0 then Mean(GradeScores(grades)) else 0.0
  }

  /** Without grades the average is 0; otherwise it is sum/count, so it
      lies between the lowest and the highest score. */
  lemma AverageScoreWithin(grades: seq<Grade>, lo: real, hi: real)
    requires forall i :: 0 <= i < |grades| ==> lo <= grades[i].score <= hi
    ensures |grades| == 0 ==> AverageScore(grades) == 0.0
    ensures |grades| > 0 ==> AverageScore(grades) * |grades| as real == Sum(GradeScores(grades))
    ensures |grades| > 0 ==> lo <= AverageScore(grades) <= hi
  {
    if |grades| > 0 {
      MeanBounds(GradeScores(grades), lo, hi);
    }
  }

  const Present: string := "PRESENT"

  /** A status that counts towards attendance. */
  predicate IsPresent(status: string) {
    status == Present
  }

  /** All the statuses are `'PRESENT'` exactly when every one counts, and
      none is exactly when the count is zero. */
  lemma AllOrNonePresent(statuses: seq<string>)
    ensures Count(statuses, IsPresent) <= |statuses|
    ensures Count(statuses, IsPresent) == |statuses| <==> forall i :: 0 <= i < |statuses| ==> statuses[i] == Present
    ensures Count(statuses, IsPresent) == 0 <==> forall i :: 0 <= i < |statuses| ==> statuses[i] != Present
  {
    FilterLength(statuses, IsPresent);
    if Count(statuses, IsPresent) > 0 {
      var x := Filter(statuses, IsPresent)[0];
      assert x in statuses && IsPresent(x);
      var i :| 0 <= i < |statuses| && statuses[i] == x;
    } else {
      forall i | 0 <= i < |statuses|
        ensures statuses[i] != Present
      {
        assert statuses[i] !in Filter(statuses, IsPresent);
      }
    }
  }

  /** A rate of a non-empty whole reaches 100 exactly when the part is the
      whole and 0 exactly when the part is empty. */
  lemma PercentExtremes(part: nat, whole: nat)
    requires 0 < whole && part <= whole
    ensures Percent(part, whole) == 100.0 <==> part == whole
    ensures Percent(part, whole) == 0.0 <==> part == 0
  {
    var q := part as real / whole as real;
    assert part as real == q * whole as real;
  }

  /** `attendanceRate`: the share of `'PRESENT'` records in percent, 0
      without records. */
  function AttendanceRate(statuses: seq<string>): (r: real)
    ensures |statuses| == 0 ==> r == 0.0
    ensures |statuses| > 0 ==> r == Count(statuses, IsPresent) as real * 100.0 / |statuses| as real
    ensures 0.0 <= r <= 100.0
    ensures |statuses| > 0 ==> (r == 100.0 <==> forall i :: 0 <= i < |statuses| ==> statuses[i] == Present)
    ensures r == 0.0 <==> forall i :: 0 <= i < |statuses| ==> statuses[i] != Present
  {
    var n := Count(statuses, IsPresent);
    AllOrNonePresent(statuses);
    assert |statuses| > 0 ==> Percent(n, |statuses|) == n as real * 100.0 / |statuses| as real;
    assert |statuses| > 0 ==>
             && (Percent(n, |statuses|) == 100.0 <==> n == |statuses|)
             && (Percent(n, |statuses|) == 0.0 <==> n == 0) by {
      if |statuses| > 0 {
        PercentExtremes(n, |statuses|);
      }
    }
    Percent(n, |statuses|)
  }

  // ---------------------------------------------------------------------
  // Grouping by key and averaging
  // ---------------------------------------------------------------------

  /** A key with the mean and the number of the scores grouped under it. */
  datatype KeyAverage = KeyAverage(key: string, average: real, count: nat)

  function Counted(a: KeyAverage): nat {
    a.count
  }

  function Average(a: KeyAverage): real {
    a.average
  }

  function AverageEach(groups: seq<Group<string, real>>): (r: seq<KeyAverage>)
    requires forall i :: 0 <= i < |groups| ==> |groups[i].values| > 0
    ensures |r| == |groups|
    ensures forall i :: 0 <= i < |groups| ==>
              r[i] == KeyAverage(groups[i].key, Mean(groups[i].values), |groups[i].values|)
  {
    seq(|groups|, i requires 0 <= i < |groups| =>
      KeyAverage(groups[i].key, Mean(groups[i].values), |groups[i].values|))
  }

  /** Averaging keeps one count per group, so the counts add up to the
      groups' sizes. */
  lemma {:induction false} AverageEachTotal(groups: seq<Group<string, real>>)
    requires forall i :: 0 <= i < |groups| ==> |groups[i].values| > 0
    ensures Total(AverageEach(groups), Counted) == TotalSize(groups)
    decreases |groups|
  {
    if |groups| > 0 {
      var n := |groups| - 1;
      var p := groups[..n];
      AverageEachTotal(p);
      assert AverageEach(groups) == AverageEach(p) + [AverageEach(groups)[n]];
      TotalAppend(AverageEach(p), [AverageEach(groups)[n]], Counted);
    }
  }

  /** `reduce` into an object of score lists followed by `Object.entries`
      and a mean per entry: every key once, in order of first occurrence,
      with the mean and the number of the scores pushed under it. */
  function AverageByKey(items: seq<(string, real)>): (r: seq<KeyAverage>)
    ensures |r| == |Dedupe(ItemKeys(items))|
    ensures forall i :: 0 <= i < |r| ==> r[i].key == Dedupe(ItemKeys(items))[i]
    ensures forall i :: 0 <= i < |r| ==>
              && |ValuesWithKey(items, r[i].key)| > 0
              && r[i].average == Mean(ValuesWithKey(items, r[i].key))
              && r[i].count == |ValuesWithKey(items, r[i].key)|
  {
    GroupIntoSpec(items, None);
    GroupIntoNonEmpty(items, None);
    AverageEach(GroupBy(items))
  }

  /** Every item is counted under exactly one key. */
  lemma AverageByKeyTotal(items: seq<(string, real)>)
    ensures Total(AverageByKey(items), Counted) == |items|
  {
    GroupIntoNonEmpty(items, None);
    GroupBySize(items);
    AverageEachTotal(GroupBy(items));
  }

  /** The keys of some averages. */
  ghost function AverageKeys(r: seq<KeyAverage>): set<string> {
    set a | a in r :: a.key
  }

  /** The keys of some items. */
  ghost function ItemKeySet(items: seq<(string, real)>): set<string> {
    set x | x in items :: x.0
  }

  function AverageKey(a: KeyAverage): string {
    a.key
  }

  /** No two averages share a key. */
  ghost predicate DistinctKeys(r: seq<KeyAverage>) {
    DistinctBy(r, AverageKey)
  }

  /** A key is in the set of item keys exactly when it is in their list. */
  lemma ItemKeySetIsKeys(items: seq<(string, real)>)
    ensures forall k :: k in ItemKeySet(items) <==> k in ItemKeys(items)
  {
    forall k
      ensures k in ItemKeySet(items) <==> k in ItemKeys(items)
    {
      if k in ItemKeys(items) {
        var j :| 0 <= j < |items| && ItemKeys(items)[j] == k;
        assert items[j] in items;
      }
    }
  }

  /** Averages listed in the order of a sequence of distinct keys name
      exactly those keys. */
  lemma KeyedAverages(r: seq<KeyAverage>, keys: seq<string>)
    requires |r| == |keys| && forall i :: 0 <= i < |r| ==> r[i].key == keys[i]
    requires Distinct(keys)
    ensures DistinctKeys(r)
    ensures forall k :: k in AverageKeys(r) <==> k in keys
  {
    forall k
      ensures k in AverageKeys(r) <==> k in keys
    {
      if k in keys {
        var i :| 0 <= i < |keys| && keys[i] == k;
        assert r[i] in r;
      }
    }
  }

  /** Averaging by key names every key of the items exactly once. */
  lemma AverageByKeyKeys(items: seq<(string, real)>)
    ensures DistinctKeys(AverageByKey(items))
    ensures AverageKeys(AverageByKey(items)) == ItemKeySet(items)
  {
    var keys := Dedupe(ItemKeys(items));
    KeyedAverages(AverageByKey(items), keys);
    ItemKeySetIsKeys(items);
  }

  /** Every average names a key of the items, with the mean and number of
      the scores pushed under it. */
  lemma AverageByKeyEntries(items: seq<(string, real)>)
    ensures forall a :: a in AverageByKey(items) ==>
              && |ValuesWithKey(items, a.key)| > 0
              && a.average == Mean(ValuesWithKey(items, a.key))
              && a.count == |ValuesWithKey(items, a.key)|
  {
  }

  /** `.sort((a, b) => b.averageScore - a.averageScore)` on averages:
      highest first, the same entries and so the same keys and the same
      total count. */
  function ByAverage(u: seq<KeyAverage>): (r: seq<KeyAverage>)
    ensures forall a :: a in r <==> a in u
    ensures AverageKeys(r) == AverageKeys(u)
    ensures DistinctKeys(u) ==> DistinctKeys(r)
    ensures Total(r, Counted) == Total(u, Counted)
    ensures forall i, j :: 0 <= i < j < |r| ==> r[i].average >= r[j].average
  {
    SortDescSorted(u, Average);
    SortDescTotal(u, Average, Counted);
    PermutationDistinctBy(u, SortDesc(u, Average), AverageKey);
    SortDesc(u, Average)
  }

  // ---------------------------------------------------------------------
  // Top performers
  // ---------------------------------------------------------------------

  /** One entry of `topPerformers`. */
  datatype Performer = Performer(id: string, name: string, averageScore: real)

  function PerformerAverage(p: Performer): real {
    p.averageScore
  }

  /** The (student id, score) pairs the `studentScores` reduce pushes. */
  function IdScores(grades: seq<Grade>): (ps: seq<(string, real)>)
    ensures |ps| == |grades|
    ensures forall i :: 0 <= i < |grades| ==> ps[i] == (grades[i].studentId, grades[i].score)
  {
    seq(|grades|, i requires 0 <= i < |grades| => (grades[i].studentId, grades[i].score))
  }

  /** One student's scores, in input order. */
  function StudentScores(grades: seq<Grade>, id: string): seq<real> {
    ValuesWithKey(IdScores(grades), id)
  }

  /** The name stored with a student's entry: the one on the student's
      first grade, since the entry is created there and never renamed. */
  function FirstName(grades: seq<Grade>, id: string): string
    requires id in ItemKeys(IdScores(grades))
  {
    grades[FirstIndex(ItemKeys(IdScores(grades)), id)].studentName
  }

  ghost function StudentIds(grades: seq<Grade>): set<string> {
    set g | g in grades :: g.studentId
  }

  ghost function PerformerIds(r: seq<Performer>): set<string> {
    set p | p in r :: p.id
  }

  function PerformerId(p: Performer): string {
    p.id
  }

  /** No two performers share a student id. */
  ghost predicate DistinctIds(r: seq<Performer>) {
    DistinctBy(r, PerformerId)
  }

  /** The students in order of their first grade. */
  function StudentKeys(grades: seq<Grade>): (ks: seq<string>)
    ensures Distinct(ks)
    ensures forall k :: k in ks <==> k in ItemKeys(IdScores(grades))
  {
    Dedupe(ItemKeys(IdScores(grades)))
  }

  /** `Object.values(studentScores).map(...)`: one entry per student, in
      order of the student's first grade, with the mean of the student's
      scores and the name on the first grade. */
  function Performers(grades: seq<Grade>): (r: seq<Performer>)
    ensures |r| == |StudentKeys(grades)|
    ensures forall i :: 0 <= i < |r| ==>
              && r[i].id == StudentKeys(grades)[i]
              && |StudentScores(grades, r[i].id)| > 0
              && r[i].averageScore == Mean(StudentScores(grades, r[i].id))
              && r[i].name == FirstName(grades, r[i].id)
  {
    var items := IdScores(grades);
    var u := AverageByKey(items);
    var keys := StudentKeys(grades);
    assert forall i :: 0 <= i < |u| ==> u[i].key in ItemKeys(items) by {
      forall i | 0 <= i < |u| ensures u[i].key in ItemKeys(items) {
        assert u[i].key == keys[i] && keys[i] in keys;
      }
    }
    seq(|u|, i requires 0 <= i < |u| => Performer(u[i].key, FirstName(grades, u[i].key), u[i].average))
  }

  /** A student has a grade exactly when the student's id is pushed. */
  lemma StudentIdsAreKeys(grades: seq<Grade>)
    ensures forall k :: k in StudentIds(grades) <==> k in ItemKeys(IdScores(grades))
  {
    var ks := ItemKeys(IdScores(grades));
    forall k
      ensures k in StudentIds(grades) <==> k in ks
    {
      if k in ks {
        var j :| 0 <= j < |ks| && ks[j] == k;
        assert grades[j] in grades;
      }
      if k in StudentIds(grades) {
        var g :| g in grades && g.studentId == k;
        var j :| 0 <= j < |grades| && grades[j] == g;
        assert ks[j] == k;
      }
    }
  }

  /** Every student with a grade has exactly one entry. */
  lemma PerformersIds(grades: seq<Grade>)
    ensures DistinctIds(Performers(grades))
    ensures PerformerIds(Performers(grades)) == StudentIds(grades)
  {
    var r := Performers(grades);
    var keys := StudentKeys(grades);
    StudentIdsAreKeys(grades);
    forall k
      ensures k in PerformerIds(r) <==> k in StudentIds(grades)
    {
      if k in keys {
        var i :| 0 <= i < |keys| && keys[i] == k;
        assert r[i] in r;
      }
    }
  }

  /** `.sort((a, b) => b.averageScore - a.averageScore).slice(0, 5)`: at
      most five entries, highest average first, every one taken from the
      input, and every entry left out no higher than the fifth. */
  function TopFive(u: seq<Performer>): (r: seq<Performer>)
    ensures |r| <= 5
    ensures DistinctIds(u) ==> DistinctIds(r)
    ensures forall i, j :: 0 <= i < j < |r| ==> r[i].averageScore >= r[j].averageScore
    ensures forall p :: p in r ==> p in u
    ensures forall p :: p in u ==> p in r || (|r| == 5 && p.averageScore <= r[4].averageScore)
  {
    SortDescTake(u, PerformerAverage, 5);
    var t := SortDesc(u, PerformerAverage);
    PermutationDistinctBy(u, t, PerformerId);
    Take(t, 5)
  }

  /** `topPerformers`: at most five students, each at most once, highest
      average first; no student left out averages more than the fifth. */
  function TopPerformers(grades: seq<Grade>): (r: seq<Performer>)
    ensures |r| <= 5
    ensures DistinctIds(r)
    ensures forall i, j :: 0 <= i < j < |r| ==> r[i].averageScore >= r[j].averageScore
    ensures forall p :: p in r ==> p in Performers(grades)
    ensures forall p :: p in Performers(grades) ==>
              p in r || (|r| == 5 && p.averageScore <= r[4].averageScore)
  {
    PerformersIds(grades);
    TopFive(Performers(grades))
  }

  // ---------------------------------------------------------------------
  // Subject performance and the monthly trend
  // ---------------------------------------------------------------------

  /** The (subject, score) pairs the `subjectScores` reduce pushes. */
  function SubjectScore(g: Grade): (string, real) {
    (g.subject, g.score)
  }

  function SubjectScores(grades: seq<Grade>): seq<(string, real)> {
    Map(grades, SubjectScore)
  }

  ghost function Subjects(grades: seq<Grade>): set<string> {
    set g | g in grades :: g.subject
  }

  /** A subject has a grade exactly when it is one of the pushed keys. */
  lemma SubjectsAreKeys(grades: seq<Grade>)
    ensures Subjects(grades) == ItemKeySet(SubjectScores(grades))
  {
    var items := SubjectScores(grades);
    forall s
      ensures s in ItemKeySet(items) <==> s in Subjects(grades)
    {
      if s in ItemKeySet(items) {
        var x :| x in items && x.0 == s;
        var j :| 0 <= j < |items| && items[j] == x;
        assert grades[j] in grades;
      }
      if s in Subjects(grades) {
        var g :| g in grades && g.subject == s;
        var j :| 0 <= j < |grades| && grades[j] == g;
        assert items[j] in items;
      }
    }
  }

  /** The names `Object.prototype` defines. An object literal used as a map
      already answers them: `!acc[name]` is false, and what `acc[name]`
      holds (a function, or the prototype itself) has no `push`, so a
      reduce of the form `if (!acc[k]) acc[k] = []; acc[k].push(…)` throws
      a `TypeError` on such a key. */
  const PrototypeNames: set<string> := {
    "constructor", "__proto__", "hasOwnProperty", "isPrototypeOf", "propertyIsEnumerable",
    "toString", "toLocaleString", "valueOf",
    "__defineGetter__", "__defineSetter__", "__lookupGetter__", "__lookupSetter__"
  }

  /** Some grade's subject is one of the names `Object.prototype` defines. */
  predicate SubjectClashes(grades: seq<Grade>) {
    exists i :: 0 <= i < |grades| && grades[i].subject in PrototypeNames
  }

  /** `subjectPerformance`: `{ subject, averageScore, count }` per subject
      (here `key`, `average`, `count`): every subject once, with the mean
      and number of its scores, the counts adding up to the number of
      grades, highest average first. `None` when the `subjectScores` reduce
      throws on a subject named like an `Object.prototype` member; the
      handler's `catch` then answers 500. */
  function SubjectPerformance(grades: seq<Grade>): (r: Option<seq<KeyAverage>>)
    ensures r.None? <==> SubjectClashes(grades)
    ensures r.Some? ==> DistinctKeys(r.value)
    ensures r.Some? ==> AverageKeys(r.value) == Subjects(grades)
    ensures r.Some? ==> forall a :: a in r.value ==>
              && |ValuesWithKey(SubjectScores(grades), a.key)| > 0
              && a.average == Mean(ValuesWithKey(SubjectScores(grades), a.key))
              && a.count == |ValuesWithKey(SubjectScores(grades), a.key)|
    ensures r.Some? ==> Total(r.value, Counted) == |grades|
    ensures r.Some? ==> forall i, j :: 0 <= i < j < |r.value| ==> r.value[i].average >= r.value[j].average
  {
    if SubjectClashes(grades) then None
    else
      var items := SubjectScores(grades);
      AverageByKeyKeys(items);
      AverageByKeyEntries(items);
      AverageByKeyTotal(items);
      SubjectsAreKeys(grades);
      Some(ByAverage(AverageByKey(items)))
  }

  /** A grade whose subject is `constructor` (which the grade schema
      accepts: any text of 1 to 50 characters) makes the subject
      aggregation fail. */
  lemma ConstructorSubjectFails(grades: seq<Grade>, i: nat)
    requires i < |grades| && grades[i].subject == "constructor"
    ensures SubjectPerformance(grades) == None
  {
  }

  /** `recentTrends`: from (month label, score) pairs of the grades in
      exam-date order, one `{ month, averageScore }` per month that has a
      grade (here `key` and `average`), in order of the month's first
      grade. */
  function RecentTrends(recent: seq<(string, real)>): (r: seq<KeyAverage>)
    ensures DistinctKeys(r)
    ensures AverageKeys(r) == ItemKeySet(recent)
    ensures forall i :: 0 <= i < |r| ==>
              && r[i].key in ItemKeys(recent)
              && |ValuesWithKey(recent, r[i].key)| > 0
              && r[i].average == Mean(ValuesWithKey(recent, r[i].key))
    ensures forall i, j :: 0 <= i < j < |r| ==>
              FirstIndex(ItemKeys(recent), r[i].key) < FirstIndex(ItemKeys(recent), r[j].key)
  {
    AverageByKeyKeys(recent);
    DedupeFirstOccurrenceOrder(ItemKeys(recent));
    AverageByKey(recent)
  }

  // ---------------------------------------------------------------------
  // Grade distribution
  // ---------------------------------------------------------------------

  /** One entry of `gradeDistribution`. */
  datatype Bucket = Bucket(range: string, count: nat)

  /** The range labels, high to low. */
  const Ranges: seq<string> := ["90-100점", "80-89점", "70-79점", "60-69점", "60점 미만"]

  /** Whether a score falls in band `band` (0 is the highest). */
  predicate InBand(band: nat, score: real) {
    if band == 0 then score >= 90.0
    else if band == 1 then score >= 80.0 && score < 90.0
    else if band == 2 then score >= 70.0 && score < 80.0
    else if band == 3 then score >= 60.0 && score < 70.0
    else if band == 4 then score < 60.0
    else false
  }

  /** No score falls in two bands. */
  lemma BandsDisjoint(score: real, j: nat, k: nat)
    requires InBand(j, score) && InBand(k, score)
    ensures j == k
  {
  }

  /** Every score falls in one of the five bands. */
  lemma BandsCover(score: real)
    ensures exists k: nat :: k < 5 && InBand(k, score)
  {
    if score >= 90.0 {
      assert InBand(0, score);
    } else if score >= 80.0 {
      assert InBand(1, score);
    } else if score >= 70.0 {
      assert InBand(2, score);
    } else if score >= 60.0 {
      assert InBand(3, score);
    } else {
      assert InBand(4, score);
    }
  }

  /** `allGrades.filter(...).length` for one band. */
  function BandCount(scores: seq<real>, band: nat): nat {
    Count(scores, s => InBand(band, s))
  }

  /** The five counts before empty bands are dropped. */
  function Buckets(scores: seq<real>): (r: seq<Bucket>)
    ensures |r| == 5
    ensures forall k :: 0 <= k < 5 ==> r[k] == Bucket(Ranges[k], BandCount(scores, k))
  {
    seq(5, k requires 0 <= k < 5 => Bucket(Ranges[k], BandCount(scores, k)))
  }

  function BucketCount(b: Bucket): nat {
    b.count
  }

  /** Since every score falls in exactly one band, the five counts add up
      to the number of scores. */
  lemma {:induction false} BandCountsAddUp(scores: seq<real>)
    ensures BandCount(scores, 0) + BandCount(scores, 1) + BandCount(scores, 2)
            + BandCount(scores, 3) + BandCount(scores, 4) == |scores|
    decreases |scores|
  {
    if |scores| > 0 {
      var x := scores[0];
      BandCountsAddUp(scores[1..]);
      BandsCover(x);
      var k: nat :| k < 5 && InBand(k, x);
      forall j: nat | j < 5
        ensures BandCount(scores, j) == BandCount(scores[1..], j) + (if j == k then 1 else 0)
      {
        if InBand(j, x) {
          BandsDisjoint(x, j, k);
        }
      }
    }
  }

  /** Before filtering, the bucket counts add up to `totalGrades`. */
  lemma BucketsTotal(scores: seq<real>)
    ensures Total(Buckets(scores), BucketCount) == |scores|
  {
    var b := Buckets(scores);
    BandCountsAddUp(scores);
    assert Total(b[4..], BucketCount) == b[4].count by {
      assert b[4..][1..] == [];
    }
    assert Total(b[3..], BucketCount) == b[3].count + Total(b[4..], BucketCount) by {
      assert b[3..][1..] == b[4..];
    }
    assert Total(b[2..], BucketCount) == b[2].count + Total(b[3..], BucketCount) by {
      assert b[2..][1..] == b[3..];
    }
    assert Total(b[1..], BucketCount) == b[1].count + Total(b[2..], BucketCount) by {
      assert b[1..][1..] == b[2..];
    }
  }

  function NonEmpty(b: Bucket): bool {
    b.count > 0
  }

  /** A bucket's place in the fixed high-to-low order. */
  function RangeRank(range: string): nat {
    if range == Ranges[0] then 0
    else if range == Ranges[1] then 1
    else if range == Ranges[2] then 2
    else if range == Ranges[3] then 3
    else if range == Ranges[4] then 4
    else 5
  }

  predicate Higher(a: Bucket, b: Bucket) {
    RangeRank(a.range) < RangeRank(b.range)
  }

  lemma RangesRanked()
    ensures forall k :: 0 <= k < 5 ==> RangeRank(Ranges[k]) == k
  {
    assert RangeRank(Ranges[1]) == 1 by {
      assert Ranges[1][0] != Ranges[0][0];
    }
    assert RangeRank(Ranges[2]) == 2 by {
      assert Ranges[2][0] != Ranges[0][0] && Ranges[2][0] != Ranges[1][0];
    }
    assert RangeRank(Ranges[3]) == 3 by {
      assert Ranges[3][0] != Ranges[0][0] && Ranges[3][0] != Ranges[1][0] && Ranges[3][0] != Ranges[2][0];
    }
    assert RangeRank(Ranges[4]) == 4 by {
      assert Ranges[4][0] != Ranges[0][0] && Ranges[4][0] != Ranges[1][0] && Ranges[4][0] != Ranges[2][0];
      assert Ranges[4][2] != Ranges[3][2];
    }
  }

  /** `gradeDistribution`: the non-empty buckets, still high to low; no
      grade is lost by dropping the empty ones. */
  function GradeDistribution(scores: seq<real>): (r: seq<Bucket>)
    ensures forall b :: b in r <==> b in Buckets(scores) && b.count > 0
    ensures forall i, j :: 0 <= i < j < |r| ==> RangeRank(r[i].range) < RangeRank(r[j].range)
    ensures Total(r, BucketCount) == |scores|
  {
    var b := Buckets(scores);
    RangesRanked();
    FilterKeepsOrder(b, NonEmpty, Higher);
    BucketsTotal(scores);
    FilterTotal(b);
    Filter(b, NonEmpty)
  }

  /** Dropping the empty buckets leaves the total unchanged. */
  lemma {:induction false} FilterTotal(bs: seq<Bucket>)
    ensures Total(Filter(bs, NonEmpty), BucketCount) == Total(bs, BucketCount)
    decreases |bs|
  {
    if |bs| > 0 {
      FilterTotal(bs[1..]);
    }
  }

  // ---------------------------------------------------------------------
  // Monthly attendance
  // ---------------------------------------------------------------------

  /** One entry of `monthlyAttendance`. */
  datatype MonthRate = MonthRate(month: string, attendanceRate: real)

  function MonthKeys(records: seq<(string, string)>): seq<string> {
    ItemKeys(records)
  }

  function RatesOf(groups: seq<Group<string, string>>): (r: seq<MonthRate>)
    ensures |r| == |groups|
    ensures forall i :: 0 <= i < |groups| ==>
              r[i] == MonthRate(groups[i].key, Percent(Count(groups[i].values, IsPresent), |groups[i].values|))
  {
    seq(|groups|, i requires 0 <= i < |groups| =>
      MonthRate(groups[i].key, Percent(Count(groups[i].values, IsPresent), |groups[i].values|)))
  }

  /** `monthlyAttendance`: from (month label, status) pairs in date order,
      one rate per month that has a record, in order of the month's first
      record; the rate is the month's share of `'PRESENT'` records, in
      [0, 100]. */
  function MonthlyAttendance(records: seq<(string, string)>): (r: seq<MonthRate>)
    ensures |r| == |Dedupe(MonthKeys(records))|
    ensures forall i :: 0 <= i < |r| ==> r[i].month == Dedupe(MonthKeys(records))[i]
    ensures forall m :: m in Dedupe(MonthKeys(records)) <==> m in MonthKeys(records)
    ensures forall i :: 0 <= i < |r| ==>
              && |ValuesWithKey(records, r[i].month)| > 0
              && r[i].attendanceRate == Percent(Count(ValuesWithKey(records, r[i].month), IsPresent),
                                                 |ValuesWithKey(records, r[i].month)|)
              && r[i].attendanceRate == AttendanceRate(ValuesWithKey(records, r[i].month))
              && 0.0 <= r[i].attendanceRate <= 100.0
  {
    GroupIntoSpec(records, None);
    GroupIntoNonEmpty(records, None);
    RatesOf(GroupBy(records))
  }
}

=== FILE: cells.dfy ===
/** The values a spreadsheet upload works with: the cells of the 2-D array
    that `sheet_to_json(sheet, { header: 1, defval: null })` returns, the
    JavaScript truthiness tests the parser applies to them, and the three
    record types an upload can carry. */
module Cells {

  /** A decoded cell: an empty cell is `Null`; text and numbers keep their
      JavaScript type. Numbers are exact reals (no NaN, no infinities). */
  datatype Cell = Null | Str(text: string) | Num(number: real)

  /** JavaScript truthiness: `null`, `""` and `0` are falsy. */
  predicate Truthy(c: Cell) {
    match c
    case Null => false
    case Str(s) => s != ""
    case Num(x) => x != 0.0
  }

  /** `cell !== null && cell !== ''`, the test that keeps a row from being
      blank. A `0` counts as filled here although it is falsy. */
  predicate Filled(c: Cell) {
    c != Null && c != Str("")
  }

  /** `s.length` in JavaScript: the number of UTF-16 code units, so a
      character beyond U+FFFF counts twice. */
  function JsLength(s: string): (n: nat)
    ensures |s| <= n <= 2 * |s|
    decreases |s|
  {
    if |s| == 0 then 0 else (if s[0] as int > 0xFFFF then 2 else 1) + JsLength(s[1..])
  }

  /** Text within the Basic Multilingual Plane has one code unit per
      character. */
  lemma {:induction false} JsLengthBasic(s: string)
    requires forall i :: 0 <= i < |s| ==> s[i] as int <= 0xFFFF
    ensures JsLength(s) == |s|
    decreases |s|
  {
    if |s| > 0 {
      JsLengthBasic(s[1..]);
    }
  }

  /** Text made only of characters beyond U+FFFF has two code units per
      character. */
  lemma {:induction false} JsLengthAstral(s: string)
    requires forall i :: 0 <= i < |s| ==> s[i] as int > 0xFFFF
    ensures JsLength(s) == 2 * |s|
    decreases |s|
  {
    if |s| > 0 {
      JsLengthAstral(s[1..]);
    }
  }

  /** The length of a concatenation is the sum of the lengths, so each
      character contributes its own units wherever it stands. */
  lemma {:induction false} JsLengthAppend(a: string, b: string)
    ensures JsLength(a + b) == JsLength(a) + JsLength(b)
    decreases |a|
  {
    if |a| == 0 {
      assert a + b == b;
    } else {
      assert (a + b)[0] == a[0];
      assert (a + b)[1..] == a[1..] + b;
      JsLengthAppend(a[1..], b);
    }
  }

  /** Basic-plane text followed by astral text counts one unit for each
      character of the first part and two for each of the second. */
  lemma JsLengthMixed(basic: string, astral: string)
    requires forall i :: 0 <= i < |basic| ==> basic[i] as int <= 0xFFFF
    requires forall i :: 0 <= i < |astral| ==> astral[i] as int > 0xFFFF
    ensures JsLength(basic + astral) == |basic| + 2 * |astral|
  {
    JsLengthAppend(basic, astral);
    JsLengthBasic(basic);
    JsLengthAstral(astral);
  }

  /** The upload category: `'students' | 'grades' | 'goals'`. */
  datatype Kind = Students | Grades | Goals
}

=== FILE: collections.dfy ===
/** Sequence helpers shared by the model: options, de-duplication in
    first-occurrence order (`[...new Set(xs)]`), filtering, counting, and the
    insertion-ordered grouping that a JavaScript `Map` or object literal
    performs when values are pushed under a key. */
module Collections {

  datatype Option<+T> = None | Some(value: T)

  /** No element occurs twice. */
  predicate Distinct<T(==,!new)>(s: seq<T>) {
    forall i, j :: 0 <= i < j < |s| ==> s[i] != s[j]
  }

  /** In a sequence without repeats every element occurs once. */
  lemma {:induction false} DistinctOccursOnce<T(!new)>(s: seq<T>, x: T)
    requires Distinct(s)
    ensures multiset(s)[x] <= 1
    decreases |s|
  {
    if |s| > 0 {
      var n := |s| - 1;
      assert s == s[..n] + [s[n]];
      DistinctOccursOnce(s[..n], x);
      if s[n] == x {
        assert x !in s[..n];
      }
    }
  }

  /** Rearranging a sequence without repeats leaves it without repeats. */
  lemma PermutationDistinct<T(!new)>(a: seq<T>, b: seq<T>)
    requires multiset(a) == multiset(b) && Distinct(a)
    ensures Distinct(b)
  {
    forall i, j | 0 <= i < j < |b|
      ensures b[i] != b[j]
    {
      if b[i] == b[j] {
        assert b == b[..j] + [b[j]] + b[j + 1..];
        assert b[i] in b[..j];
        assert multiset(b)[b[j]] >= 2;
        DistinctOccursOnce(a, b[j]);
      }
    }
  }

  /** No two elements share a key. */
  ghost predicate DistinctBy<T, K>(s: seq<T>, key: T -> K) {
    forall i, j :: 0 <= i < j < |s| ==> key(s[i]) != key(s[j])
  }

  /** Rearranging a sequence keeps its elements, and keeps pairwise
      different keys pairwise different. */
  lemma PermutationDistinctBy<T(!new), K>(u: seq<T>, r: seq<T>, key: T -> K)
    requires multiset(u) == multiset(r)
    ensures forall x :: x in r <==> x in u
    ensures DistinctBy(u, key) ==> DistinctBy(r, key)
  {
    forall x
      ensures x in r <==> x in u
    {
      assert x in r <==> x in multiset(r);
      assert x in u <==> x in multiset(u);
    }
    if DistinctBy(u, key) {
      assert Distinct(u);
      PermutationDistinct(u, r);
      forall i, j | 0 <= i < j < |r|
        ensures key(r[i]) != key(r[j])
      {
        assert r[i] in u && r[j] in u;
        var p :| 0 <= p < |u| && u[p] == r[i];
        var q :| 0 <= q < |u| && u[q] == r[j];
      }
    }
  }

  /** Index of the first occurrence of `x` in `s`. */
  function FirstIndex<T(==,!new)>(s: seq<T>, x: T): (i: nat)
    requires x in s
    ensures i < |s| && s[i] == x
    ensures forall j :: 0 <= j < i ==> s[j] != x
  {
    if s[0] == x then 0 else 1 + FirstIndex(s[1..], x)
  }

  /** Index of the last occurrence of `x` in `s`. */
  function LastIndex<T(==,!new)>(s: seq<T>, x: T): (i: nat)
    requires x in s
    ensures i < |s| && s[i] == x
    ensures forall j :: i < j < |s| ==> s[j] != x
  {
    var n := |s| - 1;
    if s[n] == x then n
    else
      assert x in s[..n] by {
        var k :| 0 <= k < |s| && s[k] == x;
        assert s[..n][k] == x;
      }
      LastIndex(s[..n], x)
  }

  lemma FirstIndexPrefix<T(!new)>(s: seq<T>, n: nat, x: T)
    requires n <= |s| && x in s[..n]
    ensures x in s && FirstIndex(s, x) == FirstIndex(s[..n], x)
  {
    var i := FirstIndex(s[..n], x);
    assert s[i] == x;
    assert forall j :: 0 <= j < i ==> s[..n][j] == s[j];
  }

  /** `[...new Set(s)]`: each element once, in order of first occurrence.
      Built the way a `Set` is filled, one element at a time from the left. */
  function Dedupe<T(==,!new)>(s: seq<T>): (r: seq<T>)
    ensures Distinct(r)
    ensures forall x :: x in r <==> x in s
    ensures |r| <= |s|
    decreases |s|
  {
    if |s| == 0 then []
    else
      var d := Dedupe(s[..|s| - 1]);
      var x := s[|s| - 1];
      assert forall y :: y in s <==> y in s[..|s| - 1] || y == x by {
        assert s == s[..|s| - 1] + [x];
      }
      if x in d then d else d + [x]
  }

  /** The de-duplicated sequence lists elements in the order in which they
      first occur in the input. */
  lemma {:induction false} DedupeFirstOccurrenceOrder<T(!new)>(s: seq<T>)
    ensures forall i, j :: 0 <= i < j < |Dedupe(s)| ==>
              FirstIndex(s, Dedupe(s)[i]) < FirstIndex(s, Dedupe(s)[j])
    decreases |s|
  {
    if |s| > 0 {
      var p := s[..|s| - 1];
      var x := s[|s| - 1];
      var d := Dedupe(p);
      var r := Dedupe(s);
      DedupeFirstOccurrenceOrder(p);
      forall y | y in p
        ensures FirstIndex(s, y) == FirstIndex(p, y)
      {
        assert p == s[..|s| - 1];
        FirstIndexPrefix(s, |s| - 1, y);
      }
      forall i, j | 0 <= i < j < |r|
        ensures FirstIndex(s, r[i]) < FirstIndex(s, r[j])
      {
        if x in d {
          assert r == d;
        } else {
          assert r == d + [x];
          assert r[i] == d[i] && r[i] in p;
          if j < |d| {
            assert r[j] == d[j];
          } else {
            assert r[j] == x && x !in p;
            assert FirstIndex(s, r[i]) < |p|;
            assert FirstIndex(s, x) == |p|;
          }
        }
      }
    }
  }

  /** The elements of `s` that satisfy `p`, in order. */
  function Filter<T(!new)>(s: seq<T>, p: T -> bool): (r: seq<T>)
    ensures forall x :: x in r <==> x in s && p(x)
    ensures |r| <= |s|
    decreases |s|
  {
    if |s| == 0 then []
    else
      var rest := Filter(s[1..], p);
      assert forall y :: y in s <==> y == s[0] || y in s[1..];
      if p(s[0]) then [s[0]] + rest else rest
  }

  lemma FilterAppend<T(!new)>(a: seq<T>, b: seq<T>, p: T -> bool)
    ensures Filter(a + b, p) == Filter(a, p) + Filter(b, p)
    decreases |a|
  {
    if |a| > 0 {
      assert (a + b)[1..] == a[1..] + b;
      FilterAppend(a[1..], b, p);
    } else {
      assert a + b == b;
    }
  }

  /** Filtering a sequence with one more element at the end appends that
      element exactly when it passes. */
  lemma FilterSnoc<T(!new)>(s: seq<T>, p: T -> bool)
    requires |s| > 0
    ensures Filter(s, p) == Filter(s[..|s| - 1], p) + (if p(s[|s| - 1]) then [s[|s| - 1]] else [])
  {
    var n := |s| - 1;
    assert s == s[..n] + [s[n]];
    FilterAppend(s[..n], [s[n]], p);
    assert [s[n]][1..] == [];
    assert Filter([s[n]], p) == if p(s[n]) then [s[n]] else [];
  }

  /** Nothing passes, so nothing is kept. */
  lemma FilterNone<T(!new)>(s: seq<T>, p: T -> bool)
    requires forall x :: x in s ==> !p(x)
    ensures Filter(s, p) == []
  {
  }

  /** Filtering keeps any pairwise order the input has. */
  lemma {:induction false} FilterKeepsOrder<T(!new)>(s: seq<T>, p: T -> bool, before: (T, T) -> bool)
    requires forall i, j :: 0 <= i < j < |s| ==> before(s[i], s[j])
    ensures forall i, j :: 0 <= i < j < |Filter(s, p)| ==> before(Filter(s, p)[i], Filter(s, p)[j])
    decreases |s|
  {
    if |s| > 0 {
      var t := s[1..];
      assert forall i, j :: 0 <= i < j < |t| ==> t[i] == s[i + 1] && t[j] == s[j + 1];
      FilterKeepsOrder(t, p, before);
      var rest := Filter(t, p);
      if p(s[0]) {
        var r := Filter(s, p);
        assert r == [s[0]] + rest;
        forall j | 0 < j < |r|
          ensures before(r[0], r[j])
        {
          assert r[j] == rest[j - 1] && rest[j - 1] in t;
          var k :| 0 <= k < |t| && t[k] == r[j];
          assert s[k + 1] == r[j];
        }
        assert forall i, j :: 0 < i < j < |r| ==> r[i] == rest[i - 1] && r[j] == rest[j - 1];
      }
    }
  }

  /** Filtering keeps the whole sequence exactly when every element passes. */
  lemma {:induction false} FilterLength<T(!new)>(s: seq<T>, p: T -> bool)
    ensures |Filter(s, p)| == |s| <==> forall k :: 0 <= k < |s| ==> p(s[k])
    ensures (forall k :: 0 <= k < |s| ==> p(s[k])) ==> Filter(s, p) == s
    decreases |s|
  {
    if |s| > 0 {
      FilterLength(s[1..], p);
      assert forall k :: 1 <= k < |s| ==> s[k] == s[1..][k - 1];
      assert s == [s[0]] + s[1..];
    }
  }

  /** Number of elements of `s` that satisfy `p`. */
  function Count<T(!new)>(s: seq<T>, p: T -> bool): nat {
    |Filter(s, p)|
  }

  /** Counting under two predicates that never hold together adds up to the
      count under their disjunction. */
  lemma {:induction false} CountDisjoint<T(!new)>(s: seq<T>, p: T -> bool, q: T -> bool)
    requires forall x :: x in s ==> !(p(x) && q(x))
    ensures Count(s, p) + Count(s, q) == Count(s, x => p(x) || q(x))
    decreases |s|
  {
    if |s| > 0 {
      CountDisjoint(s[1..], p, q);
    }
  }

  /** Counting under a predicate is at most the length. */
  lemma CountBound<T(!new)>(s: seq<T>, p: T -> bool)
    ensures Count(s, p) <= |s|
  {
  }

  /** Under a predicate that holds of every element, the count is the length. */
  lemma {:induction false} CountAll<T(!new)>(s: seq<T>, p: T -> bool)
    requires forall x :: x in s ==> p(x)
    ensures Count(s, p) == |s|
    decreases |s|
  {
    if |s| > 0 {
      CountAll(s[1..], p);
    }
  }

  /** Keys in first-insertion order, each paired with the values pushed
      under it in input order. */
  datatype Group<K, V> = Group(key: K, values: seq<V>)

  function Keys<K(!new), V>(gs: seq<Group<K, V>>): (ks: seq<K>)
    ensures |ks| == |gs|
    ensures forall i :: 0 <= i < |gs| ==> ks[i] == gs[i].key
  {
    seq(|gs|, i requires 0 <= i < |gs| => gs[i].key)
  }

  function ItemKeys<K(!new), V>(items: seq<(K, V)>): (ks: seq<K>)
    ensures |ks| == |items|
    ensures forall i :: 0 <= i < |items| ==> ks[i] == items[i].0
  {
    seq(|items|, i requires 0 <= i < |items| => items[i].0)
  }

  /** The values pushed under key `k`, in input order. */
  function ValuesWithKey<K(==,!new), V>(items: seq<(K, V)>, k: K): seq<V>
    decreases |items|
  {
    if |items| == 0 then []
    else
      var last := items[|items| - 1];
      ValuesWithKey(items[..|items| - 1], k) + (if last.0 == k then [last.1] else [])
  }

  lemma {:induction false} ValuesWithKeyEmpty<K(!new), V>(items: seq<(K, V)>, k: K)
    ensures k !in ItemKeys(items) <==> ValuesWithKey(items, k) == []
    decreases |items|
  {
    if |items| > 0 {
      var p := items[..|items| - 1];
      ValuesWithKeyEmpty(p, k);
      assert ItemKeys(items) == ItemKeys(p) + [items[|items| - 1].0];
    }
  }

  /** The list under a key after one more push: unchanged once it already
      holds `cap` values, extended by `v` otherwise. */
  function Pushed<V>(vs: seq<V>, v: V, cap: Option<nat>): seq<V> {
    if cap.Some? && |vs| >= cap.value then vs else vs + [v]
  }

  /** One push into an insertion-ordered map of lists: `if (!m.has(k))
      m.set(k, []); m.get(k).push(v)`, the push skipped once the list holds
      `cap` values. */
  function Push<K(==,!new), V>(gs: seq<Group<K, V>>, k: K, v: V, cap: Option<nat>): seq<Group<K, V>>
    decreases |gs|
  {
    if |gs| == 0 then [Group(k, Pushed([], v, cap))]
    else if gs[0].key == k then [Group(k, Pushed(gs[0].values, v, cap))] + gs[1..]
    else [gs[0]] + Push(gs[1..], k, v, cap)
  }

  /** Feeds every item, left to right, through `Push`. */
  function GroupInto<K(==,!new), V>(items: seq<(K, V)>, cap: Option<nat>): seq<Group<K, V>>
    decreases |items|
  {
    if |items| == 0 then []
    else
      var last := items[|items| - 1];
      Push(GroupInto(items[..|items| - 1], cap), last.0, last.1, cap)
  }

  /** Grouping with no cap, as the handlers' `reduce` into an object does. */
  function GroupBy<K(==,!new), V>(items: seq<(K, V)>): seq<Group<K, V>> {
    GroupInto(items, None)
  }

  /** The list kept under a key: every value, or only the first `cap`. */
  function Kept<V>(vs: seq<V>, cap: Option<nat>): seq<V> {
    if cap.Some? && |vs| > cap.value then vs[..cap.value] else vs
  }

  lemma KeysCons<K(!new), V>(g: Group<K, V>, gs: seq<Group<K, V>>)
    ensures Keys([g] + gs) == [g.key] + Keys(gs)
  {
  }

  lemma KeysReplaceHead<K(!new), V>(gs: seq<Group<K, V>>, g: Group<K, V>)
    requires |gs| > 0 && g.key == gs[0].key
    ensures Keys([g] + gs[1..]) == Keys(gs)
  {
  }

  lemma {:induction false} PushKeys<K(!new), V>(gs: seq<Group<K, V>>, k: K, v: V, cap: Option<nat>)
    ensures Keys(Push(gs, k, v, cap)) == if k in Keys(gs) then Keys(gs) else Keys(gs) + [k]
    decreases |gs|
  {
    if |gs| > 0 {
      assert Keys(gs) == [gs[0].key] + Keys(gs[1..]) by {
        assert gs == [gs[0]] + gs[1..];
        KeysCons(gs[0], gs[1..]);
      }
      if gs[0].key == k {
        KeysReplaceHead(gs, Group(k, Pushed(gs[0].values, v, cap)));
      } else {
        PushKeys(gs[1..], k, v, cap);
        KeysCons(gs[0], Push(gs[1..], k, v, cap));
      }
    }
  }

  lemma {:induction false} PushEntry<K(!new), V>(gs: seq<Group<K, V>>, k: K, v: V, cap: Option<nat>, i: nat)
    requires Distinct(Keys(gs))
    requires i < |Push(gs, k, v, cap)|
    ensures var r := Push(gs, k, v, cap);
            if r[i].key == k then
              || (i < |gs| && gs[i].key == k && r[i].values == Pushed(gs[i].values, v, cap))
              || (i == |gs| && k !in Keys(gs) && r[i].values == Pushed([], v, cap))
            else i < |gs| && r[i] == gs[i]
    decreases |gs|
  {
    if |gs| > 0 {
      var r := Push(gs, k, v, cap);
      if gs[0].key == k && i > 0 {
        assert r[i] == gs[i];
        assert gs[i].key != k by {
          assert Keys(gs)[0] == k && Keys(gs)[i] == gs[i].key;
        }
      } else if gs[0].key != k && i > 0 {
        assert r[i] == Push(gs[1..], k, v, cap)[i - 1];
        assert Keys(gs) == [gs[0].key] + Keys(gs[1..]);
        assert Distinct(Keys(gs[1..])) by {
          assert Keys(gs[1..]) == Keys(gs)[1..];
        }
        PushEntry(gs[1..], k, v, cap, i - 1);
      }
    }
  }

  lemma KeptPushed<V>(vs: seq<V>, v: V, cap: Option<nat>)
    ensures Kept(vs + [v], cap) == Pushed(Kept(vs, cap), v, cap)
  {
    if cap.Some? && |vs| >= cap.value {
      assert (vs + [v])[..cap.value] == vs[..cap.value];
    }
  }

  /** Grouping lists every key once, in order of first occurrence, and keeps
      under each key the values pushed under it, in order (only the first
      `cap` of them when a cap is given). */
  lemma {:induction false} GroupIntoSpec<K(!new), V>(items: seq<(K, V)>, cap: Option<nat>)
    ensures Keys(GroupInto(items, cap)) == Dedupe(ItemKeys(items))
    ensures forall i :: 0 <= i < |GroupInto(items, cap)| ==>
              GroupInto(items, cap)[i].values == Kept(ValuesWithKey(items, GroupInto(items, cap)[i].key), cap)
  {
    GroupIntoKeys(items, cap);
    GroupIntoValues(items, cap);
  }

  lemma {:induction false} GroupIntoKeys<K(!new), V>(items: seq<(K, V)>, cap: Option<nat>)
    ensures Keys(GroupInto(items, cap)) == Dedupe(ItemKeys(items))
    decreases |items|
  {
    if |items| > 0 {
      var p := items[..|items| - 1];
      var (k, v) := items[|items| - 1];
      GroupIntoKeys(p, cap);
      assert ItemKeys(items)[..|items| - 1] == ItemKeys(p);
      assert ItemKeys(items)[|items| - 1] == k;
      PushKeys(GroupInto(p, cap), k, v, cap);
    }
  }

  lemma {:induction false} GroupIntoValues<K(!new), V>(items: seq<(K, V)>, cap: Option<nat>)
    ensures forall i :: 0 <= i < |GroupInto(items, cap)| ==>
              GroupInto(items, cap)[i].values == Kept(ValuesWithKey(items, GroupInto(items, cap)[i].key), cap)
    decreases |items|
  {
    if |items| > 0 {
      var p := items[..|items| - 1];
      GroupIntoKeys(p, cap);
      GroupIntoValues(p, cap);
      var r := GroupInto(items, cap);
      forall i | 0 <= i < |r|
        ensures r[i].values == Kept(ValuesWithKey(items, r[i].key), cap)
      {
        GroupIntoEntry(items, cap, i);
      }
    }
  }

  /** The inductive step of `GroupIntoValues` for one group, given the
      property for all but the last item. */
  lemma GroupIntoEntry<K(!new), V>(items: seq<(K, V)>, cap: Option<nat>, i: nat)
    requires |items| > 0
    requires var p := items[..|items| - 1];
             && Keys(GroupInto(p, cap)) == Dedupe(ItemKeys(p))
             && forall j :: 0 <= j < |GroupInto(p, cap)| ==>
                  GroupInto(p, cap)[j].values == Kept(ValuesWithKey(p, GroupInto(p, cap)[j].key), cap)
    requires i < |GroupInto(items, cap)|
    ensures GroupInto(items, cap)[i].values == Kept(ValuesWithKey(items, GroupInto(items, cap)[i].key), cap)
  {
    var p := items[..|items| - 1];
    var (k, v) := items[|items| - 1];
    var g := GroupInto(p, cap);
    var r := GroupInto(items, cap);
    PushEntry(g, k, v, cap, i);
    if r[i].key == k {
      KeptPushed(ValuesWithKey(p, k), v, cap);
      if i == |g| {
        ValuesWithKeyEmpty(p, k);
        assert ValuesWithKey(items, k) == [] + [v];
      }
    }
  }

  /** Every item lands in exactly one group: without a cap, the group sizes
      add up to the number of items. */
  function TotalSize<K(!new), V>(gs: seq<Group<K, V>>): nat
    decreases |gs|
  {
    if |gs| == 0 then 0 else TotalSize(gs[..|gs| - 1]) + |gs[|gs| - 1].values|
  }

  lemma TotalSizeCons<K(!new), V>(g: Group<K, V>, gs: seq<Group<K, V>>)
    ensures TotalSize([g] + gs) == |g.values| + TotalSize(gs)
    decreases |gs|
  {
    if |gs| > 0 {
      assert ([g] + gs)[..|gs|] == [g] + gs[..|gs| - 1];
      TotalSizeCons(g, gs[..|gs| - 1]);
    }
  }

  lemma {:induction false} PushSize<K(!new), V>(gs: seq<Group<K, V>>, k: K, v: V)
    ensures TotalSize(Push(gs, k, v, None)) == TotalSize(gs) + 1
    decreases |gs|
  {
    if |gs| == 0 {
      assert TotalSize([Group(k, [v])]) == TotalSize([Group(k, [v])][..0]) + 1;
    } else {
      assert gs == [gs[0]] + gs[1..];
      TotalSizeCons(gs[0], gs[1..]);
      if gs[0].key == k {
        TotalSizeCons(Group(k, gs[0].values + [v]), gs[1..]);
      } else {
        PushSize(gs[1..], k, v);
        TotalSizeCons(gs[0], Push(gs[1..], k, v, None));
      }
    }
  }

  lemma {:induction false} GroupBySize<K(!new), V>(items: seq<(K, V)>)
    ensures TotalSize(GroupBy(items)) == |items|
    decreases |items|
  {
    if |items| > 0 {
      var p := items[..|items| - 1];
      GroupBySize(p);
      PushSize(GroupBy(p), items[|items| - 1].0, items[|items| - 1].1);
    }
  }

  /** No group is ever empty without a cap of zero. */
  lemma {:induction false} GroupIntoNonEmpty<K(!new), V>(items: seq<(K, V)>, cap: Option<nat>)
    requires cap != Some(0)
    ensures forall i :: 0 <= i < |GroupInto(items, cap)| ==> |GroupInto(items, cap)[i].values| > 0
  {
    GroupIntoSpec(items, cap);
    var r := GroupInto(items, cap);
    forall i | 0 <= i < |r|
      ensures |r[i].values| > 0
    {
      var k := r[i].key;
      assert k in Keys(r);
      ValuesWithKeyEmpty(items, k);
    }
  }

  /** `s.slice(0, n)`: the first `n` elements, or all of them when there
      are fewer. */
  function Take<T>(s: seq<T>, n: nat): (r: seq<T>)
    ensures |r| <= n && |r| <= |s|
    ensures |r| == n || |r| == |s|
    ensures r == s[..|r|]
  {
    if |s| <= n then s else s[..n]
  }

  /** `s.map(f)`: `f` applied to every element, in order. */
  function Map<T, U>(s: seq<T>, f: T -> U): (r: seq<U>)
    ensures |r| == |s|
    ensures forall i :: 0 <= i < |s| ==> r[i] == f(s[i])
    decreases |s|
  {
    if |s| == 0 then [] else [f(s[0])] + Map(s[1..], f)
  }
}

=== FILE: dashboard.dfy ===
/** The pure parts of the dashboard handler (`app/api/dashboard/route.ts`):
    the average rounded to one decimal, the merged feed of recent
    activities, and the three percentage metrics. The database counts and
    lists are inputs; timestamps are integer milliseconds, and the text of
    a score in a description is a parameter. */
module Dashboard {
  import opened Collections
  import opened Numeric
  import opened Sorting
  import Analytics

  // ---------------------------------------------------------------------
  // Average score
  // ---------------------------------------------------------------------

  /** `Math.round(mean * 10) / 10`, or 0 without grades. */
  function AverageScore(scores: seq<real>): (r: real)
    ensures |scores| == 0 ==> r == 0.0
    ensures |scores| > 0 ==> Mean(scores) - 0.05 < r <= Mean(scores) + 0.05
    ensures (r * 10.0).Floor as real == r * 10.0
  {
    if |scores| > 0 then Round(Mean(scores) * 10.0) as real / 10.0 else 0.0
  }

  /** Scores within [lo, hi] keep the rounded average within them, for
      whole-number bounds; without scores the average is 0, so the bounds
      must then contain 0. */
  lemma AverageScoreWithin(scores: seq<real>, lo: int, hi: int)
    requires forall i :: 0 <= i < |scores| ==> lo as real <= scores[i] <= hi as real
    requires |scores| > 0 || lo <= 0 <= hi
    ensures lo as real <= AverageScore(scores) <= hi as real
  {
    if |scores| > 0 {
      MeanBounds(scores, lo as real, hi as real);
      RoundBounds(Mean(scores) * 10.0, lo * 10, hi * 10);
    }
  }

  // ---------------------------------------------------------------------
  // Recent activities
  // ---------------------------------------------------------------------

  /** A grade row of `recentGrades`, with its student's name. */
  datatype RecentGrade = RecentGrade(studentName: string, examName: string, subject: string, score: real, createdAt: int)

  /** A goal row of `recentGoals` (achieved goals, latest update first). */
  datatype AchievedGoal = AchievedGoal(studentName: string, title: string, updatedAt: int)

  /** An attendance row of `recentAttendances`. */
  datatype RecentAttendance = RecentAttendance(studentName: string, status: string, createdAt: int)

  datatype ActivityKind = GradeActivity | GoalActivity | AttendanceActivity

  /** One entry of `activities`: `{ type, title, description, createdAt }`. */
  datatype Activity = Activity(kind: ActivityKind, title: string, description: string, createdAt: int)

  const Late: string := "LATE"

  /** The attendance line: 출석 완료 for `'PRESENT'`, 지각 for `'LATE'`,
      결석 for any other status. */
  function AttendanceDescription(status: string): (d: string)
    ensures d == "출석 완료" <==> status == Analytics.Present
    ensures d == "지각" <==> status == Late
    ensures d == "결석" <==> status != Analytics.Present && status != Late
  {
    if status == Analytics.Present then "출석 완료" else if status == Late then "지각" else "결석"
  }

  function GradeActivityOf(g: RecentGrade, show: real -> string): Activity {
    Activity(GradeActivity, g.studentName + " 학생 성적 입력",
             g.examName + " - " + g.subject + " " + show(g.score) + "점", g.createdAt)
  }

  function GoalActivityOf(g: AchievedGoal): Activity {
    Activity(GoalActivity, g.studentName + " 목표 달성", g.title, g.updatedAt)
  }

  function AttendanceActivityOf(a: RecentAttendance): Activity {
    Activity(AttendanceActivity, a.studentName + " 출석 체크", AttendanceDescription(a.status), a.createdAt)
  }

  function GradeActivities(grades: seq<RecentGrade>, show: real -> string): (r: seq<Activity>)
    ensures |r| == |grades|
    ensures forall i :: 0 <= i < |grades| ==> r[i] == GradeActivityOf(grades[i], show)
  {
    seq(|grades|, i requires 0 <= i < |grades| => GradeActivityOf(grades[i], show))
  }

  function GoalActivities(goals: seq<AchievedGoal>): (r: seq<Activity>)
    ensures |r| == |goals|
    ensures forall i :: 0 <= i < |goals| ==> r[i] == GoalActivityOf(goals[i])
  {
    seq(|goals|, i requires 0 <= i < |goals| => GoalActivityOf(goals[i]))
  }

  function AttendanceActivities(attendances: seq<RecentAttendance>): (r: seq<Activity>)
    ensures |r| == |attendances|
    ensures forall i :: 0 <= i < |attendances| ==> r[i] == AttendanceActivityOf(attendances[i])
  {
    seq(|attendances|, i requires 0 <= i < |attendances| => AttendanceActivityOf(attendances[i]))
  }

  /** The feed before sorting: each list cut to its first five rows
      (`take: 5` on the query's order), mapped, and spread in the order
      grades, goals, attendances, every taken row at its place in its
      block. */
  function Merged(grades: seq<RecentGrade>, goals: seq<AchievedGoal>,
                  attendances: seq<RecentAttendance>, show: real -> string): (r: seq<Activity>)
    ensures |r| == |Take(grades, 5)| + |Take(goals, 5)| + |Take(attendances, 5)| <= 15
    ensures r[..|Take(grades, 5)|] == GradeActivities(Take(grades, 5), show)
    ensures r[|Take(grades, 5)|..|Take(grades, 5)| + |Take(goals, 5)|] == GoalActivities(Take(goals, 5))
    ensures r[|Take(grades, 5)| + |Take(goals, 5)|..] == AttendanceActivities(Take(attendances, 5))
  {
    GradeActivities(Take(grades, 5), show) + GoalActivities(Take(goals, 5))
      + AttendanceActivities(Take(attendances, 5))
  }

  /** Every taken row of each list appears in the feed. */
  lemma MergedCovers(grades: seq<RecentGrade>, goals: seq<AchievedGoal>,
                     attendances: seq<RecentAttendance>, show: real -> string)
    ensures var r := Merged(grades, goals, attendances, show);
            && (forall g :: g in Take(grades, 5) ==> GradeActivityOf(g, show) in r)
            && (forall g :: g in Take(goals, 5) ==> GoalActivityOf(g) in r)
            && (forall t :: t in Take(attendances, 5) ==> AttendanceActivityOf(t) in r)
  {
    var r := Merged(grades, goals, attendances, show);
    var n, m := |Take(grades, 5)|, |Take(goals, 5)|;
    forall g | g in Take(grades, 5)
      ensures GradeActivityOf(g, show) in r
    {
      var i :| 0 <= i < n && Take(grades, 5)[i] == g;
      assert r[..n][i] == GradeActivityOf(g, show);
    }
    forall g | g in Take(goals, 5)
      ensures GoalActivityOf(g) in r
    {
      var i :| 0 <= i < m && Take(goals, 5)[i] == g;
      assert r[n..n + m][i] == GoalActivityOf(g);
    }
    forall t | t in Take(attendances, 5)
      ensures AttendanceActivityOf(t) in r
    {
      var i :| 0 <= i < |Take(attendances, 5)| && Take(attendances, 5)[i] == t;
      assert r[n + m..][i] == AttendanceActivityOf(t);
    }
  }

  /** Built from a taken row of the list of its own kind. */
  ghost predicate FromTaken(a: Activity, grades: seq<RecentGrade>, goals: seq<AchievedGoal>,
                            attendances: seq<RecentAttendance>, show: real -> string) {
    || (a.kind == GradeActivity && exists g :: g in Take(grades, 5) && a == GradeActivityOf(g, show))
    || (a.kind == GoalActivity && exists g :: g in Take(goals, 5) && a == GoalActivityOf(g))
    || (a.kind == AttendanceActivity && exists t :: t in Take(attendances, 5) && a == AttendanceActivityOf(t))
  }

  lemma MergedEntryFromTaken(grades: seq<RecentGrade>, goals: seq<AchievedGoal>,
                             attendances: seq<RecentAttendance>, show: real -> string, k: nat)
    requires k < |Merged(grades, goals, attendances, show)|
    ensures FromTaken(Merged(grades, goals, attendances, show)[k], grades, goals, attendances, show)
  {
    var r := Merged(grades, goals, attendances, show);
    var n, m := |Take(grades, 5)|, |Take(goals, 5)|;
    if k < n {
      var g := Take(grades, 5)[k];
      assert r[k] == GradeActivityOf(g, show) by {
        assert r[k] == r[..n][k];
      }
      assert g in Take(grades, 5);
    } else if k < n + m {
      var g := Take(goals, 5)[k - n];
      assert r[k] == GoalActivityOf(g) by {
        assert r[k] == r[n..n + m][k - n];
      }
      assert g in Take(goals, 5);
    } else {
      var t := Take(attendances, 5)[k - n - m];
      assert r[k] == AttendanceActivityOf(t) by {
        assert r[k] == r[n + m..][k - n - m];
      }
      assert t in Take(attendances, 5);
    }
  }

  /** Every entry of the feed is built from a taken row of the list of its
      own kind. */
  lemma MergedFromTaken(grades: seq<RecentGrade>, goals: seq<AchievedGoal>,
                        attendances: seq<RecentAttendance>, show: real -> string)
    ensures forall a :: a in Merged(grades, goals, attendances, show) ==>
              || (a.kind == GradeActivity && exists g :: g in Take(grades, 5) && a == GradeActivityOf(g, show))
              || (a.kind == GoalActivity && exists g :: g in Take(goals, 5) && a == GoalActivityOf(g))
              || (a.kind == AttendanceActivity && exists t :: t in Take(attendances, 5) && a == AttendanceActivityOf(t))
  {
    var r := Merged(grades, goals, attendances, show);
    forall a | a in r
      ensures FromTaken(a, grades, goals, attendances, show)
    {
      var k :| 0 <= k < |r| && r[k] == a;
      MergedEntryFromTaken(grades, goals, attendances, show, k);
    }
  }

  /** The position of each kind's block in the merged feed. */
  function KindRank(k: ActivityKind): nat {
    match k
    case GradeActivity => 0
    case GoalActivity => 1
    case AttendanceActivity => 2
  }

  /** The kind of the entry at position `i` is given by the block `i`
      falls in. */
  lemma MergedRankAt(grades: seq<RecentGrade>, goals: seq<AchievedGoal>,
                     attendances: seq<RecentAttendance>, show: real -> string, i: nat)
    requires i < |Merged(grades, goals, attendances, show)|
    ensures KindRank(Merged(grades, goals, attendances, show)[i].kind) ==
              if i < |Take(grades, 5)| then 0
              else if i < |Take(grades, 5)| + |Take(goals, 5)| then 1
              else 2
  {
    var r := Merged(grades, goals, attendances, show);
    var n, m := |Take(grades, 5)|, |Take(goals, 5)|;
    if i >= n + m {
      assert r[i] == r[n + m..][i - n - m];
    } else if i >= n {
      assert r[i] == r[n..n + m][i - n];
    } else {
      assert r[i] == r[..n][i];
    }
  }

  /** Grades come before goals, and goals before attendances. The later
      sort is stable, so this order decides which of two equally recent
      entries comes first (`EqualTimesByKind`). */
  lemma MergedBlockOrder(grades: seq<RecentGrade>, goals: seq<AchievedGoal>,
                         attendances: seq<RecentAttendance>, show: real -> string)
    ensures var r := Merged(grades, goals, attendances, show);
            forall i, j :: 0 <= i < j < |r| ==> KindRank(r[i].kind) <= KindRank(r[j].kind)
  {
    var r := Merged(grades, goals, attendances, show);
    forall i, j | 0 <= i < j < |r|
      ensures KindRank(r[i].kind) <= KindRank(r[j].kind)
    {
      MergedRankAt(grades, goals, attendances, show, i);
      MergedRankAt(grades, goals, attendances, show, j);
    }
  }

  function Time(a: Activity): real {
    a.createdAt as real
  }

  /** `activities`: the merged feed sorted newest first, then the first
      five; nothing left out is newer than the fifth entry. */
  function Activities(grades: seq<RecentGrade>, goals: seq<AchievedGoal>,
                      attendances: seq<RecentAttendance>, show: real -> string): (r: seq<Activity>)
    ensures |r| <= 5
    ensures forall i, j :: 0 <= i < j < |r| ==> r[i].createdAt >= r[j].createdAt
    ensures forall a :: a in r ==> a in Merged(grades, goals, attendances, show)
    ensures forall a :: a in Merged(grades, goals, attendances, show) ==>
              a in r || (|r| == 5 && a.createdAt <= r[4].createdAt)
  {
    var m := Merged(grades, goals, attendances, show);
    SortDescTake(m, Time, 5);
    Take(SortDesc(m, Time), 5)
  }

  /** Among entries with the same timestamp the sorted feed keeps the merged
      order, so a grade comes before a goal and a goal before an
      attendance. */
  lemma EqualTimesByKind(grades: seq<RecentGrade>, goals: seq<AchievedGoal>,
                         attendances: seq<RecentAttendance>, show: real -> string, t: real)
    ensures var m := Merged(grades, goals, attendances, show);
            Filter(SortDesc(m, Time), KeyIs(Time, t)) == Filter(m, KeyIs(Time, t))
    ensures var e := Filter(SortDesc(Merged(grades, goals, attendances, show), Time), KeyIs(Time, t));
            forall i, j :: 0 <= i < j < |e| ==> KindRank(e[i].kind) <= KindRank(e[j].kind)
  {
    var m := Merged(grades, goals, attendances, show);
    SortDescStable(m, Time, t);
    MergedBlockOrder(grades, goals, attendances, show);
    FilterKeepsOrder(m, KeyIs(Time, t), (a: Activity, b: Activity) => KindRank(a.kind) <= KindRank(b.kind));
  }

  // ---------------------------------------------------------------------
  // Percentage metrics
  // ---------------------------------------------------------------------

  /** `whole > 0 ? Math.round((part / whole) * 100) : 0`. */
  function Rate(part: nat, whole: nat): (r: int)
    ensures whole == 0 ==> r == 0
    ensures whole > 0 ==> -0.5 < r as real - part as real * 100.0 / whole as real <= 0.5
    ensures part <= whole ==> 0 <= r <= 100
    ensures 0 < whole && part == whole ==> r == 100
    ensures part == 0 ==> r == 0
  {
    if whole > 0 then
      assert part <= whole ==> 0 <= Round(Percent(part, whole)) <= 100 by {
        if part <= whole {
          RoundBounds(Percent(part, whole), 0, 100);
        }
      }
      assert Percent(part, whole) == part as real * 100.0 / whole as real;
      Round(Percent(part, whole))
    else 0
  }

  const Achieved: string := "ACHIEVED"

  function IsAchieved(status: string): bool {
    status == Achieved
  }

  function HasGrades(gradeCount: nat): bool {
    gradeCount > 0
  }

  /** `{ gradeInputRate, attendanceRate, goalAchievementRate }`. */
  datatype Metrics = Metrics(gradeInputRate: int, attendanceRate: int, goalAchievementRate: int)

  /** The three rates from the academy's goals (their statuses), its
      attendance records (their statuses) and its students (how many grades
      each has): each numerator counts a subset of its denominator, so
      every rate lies in [0, 100]. */
  function DashboardMetrics(goalStatuses: seq<string>, attendanceStatuses: seq<string>,
                            gradesPerStudent: seq<nat>): (m: Metrics)
    ensures m.goalAchievementRate == Rate(Count(goalStatuses, IsAchieved), |goalStatuses|)
    ensures m.attendanceRate == Rate(Count(attendanceStatuses, Analytics.IsPresent), |attendanceStatuses|)
    ensures m.gradeInputRate == Rate(Count(gradesPerStudent, HasGrades), |gradesPerStudent|)
    ensures 0 <= m.goalAchievementRate <= 100
    ensures 0 <= m.attendanceRate <= 100
    ensures 0 <= m.gradeInputRate <= 100
  {
    CountBound(goalStatuses, IsAchieved);
    CountBound(attendanceStatuses, Analytics.IsPresent);
    CountBound(gradesPerStudent, HasGrades);
    Metrics(Rate(Count(gradesPerStudent, HasGrades), |gradesPerStudent|),
            Rate(Count(attendanceStatuses, Analytics.IsPresent), |attendanceStatuses|),
            Rate(Count(goalStatuses, IsAchieved), |goalStatuses|))
  }

  /** The dashboard's attendance rate is the analytics page's rate, rounded:
      both count the same `'PRESENT'` records over the same whole. */
  lemma AttendanceMetricIsRoundedRate(goalStatuses: seq<string>, attendanceStatuses: seq<string>,
                                      gradesPerStudent: seq<nat>)
    ensures DashboardMetrics(goalStatuses, attendanceStatuses, gradesPerStudent).attendanceRate
            == Round(Analytics.AttendanceRate(attendanceStatuses))
  {
  }
}

=== FILE: mapper.dfy ===
/** Turning validated records into database create-inputs, and resolving
    student names to ids against the stored students. The store is the
    sequence of students in the order the database returns them; the
    lookups filter by name only. */
module Mapper {
  import opened Collections
  import opened Validator

  /** A stored student as the lookups see it. */
  datatype StoredStudent = StoredStudent(id: string, name: string, academyId: string)

  /** `findStudentIdByName`: the id of the first stored student with exactly
      this name, `None` for `null`. */
  function FindStudentIdByName(store: seq<StoredStudent>, name: string): (r: Option<string>)
    ensures r.None? <==> forall s :: s in store ==> s.name != name
    ensures r.Some? ==> exists i :: 0 <= i < |store| && store[i].name == name && store[i].id == r.value &&
                          forall j :: 0 <= j < i ==> store[j].name != name
    decreases |store|
  {
    if |store| == 0 then None
    else if store[0].name == name then Some(store[0].id)
    else
      var r := FindStudentIdByName(store[1..], name);
      assert forall s :: s in store <==> s == store[0] || s in store[1..];
      assert r.Some? ==> exists i :: 1 <= i < |store| && store[i].name == name && store[i].id == r.value &&
                           forall j :: 0 <= j < i ==> store[j].name != name by {
        if r.Some? {
          var i :| 0 <= i < |store[1..]| && store[1..][i].name == name && store[1..][i].id == r.value &&
                   forall j :: 0 <= j < i ==> store[1..][j].name != name;
          assert store[i + 1] == store[1..][i];
          assert forall j :: 1 <= j < i + 1 ==> store[j] == store[1..][j - 1];
        }
      }
      r
  }

  /** Index `i` holds the last student in `s` with its name. */
  ghost predicate LastWithName(s: seq<StoredStudent>, i: int)
    requires 0 <= i < |s|
  {
    forall j :: i < j < |s| ==> s[j].name != s[i].name
  }

  /** Every name of `s` is a key of `m`. */
  ghost predicate NamesAreKeys(s: seq<StoredStudent>, m: map<string, string>) {
    forall i :: 0 <= i < |s| ==> s[i].name in m
  }

  /** Every key of `m` is a name of `s`. */
  ghost predicate KeysAreNames(s: seq<StoredStudent>, m: map<string, string>) {
    forall n :: n in m ==> exists i :: 0 <= i < |s| && s[i].name == n
  }

  /** A name maps to the id of the last student of `s` carrying it. */
  ghost predicate LastWins(s: seq<StoredStudent>, m: map<string, string>) {
    forall i :: 0 <= i < |s| && LastWithName(s, i) ==> s[i].name in m && m[s[i].name] == s[i].id
  }

  /** Dropping the final student keeps an earlier last occurrence last. */
  lemma LastWithNamePrefix(s: seq<StoredStudent>, i: nat)
    requires i < |s| - 1 && LastWithName(s, i)
    ensures LastWithName(s[..|s| - 1], i) && s[..|s| - 1][i] == s[i] && s[i].name != s[|s| - 1].name
  {
    var p := s[..|s| - 1];
    forall j | i < j < |p|
      ensures p[j].name != p[i].name
    {
      assert s[j] == p[j];
    }
  }

  // One `map.set` keeps each fact for the extended sequence.

  lemma NamesAreKeysStep(s: seq<StoredStudent>, d: map<string, string>)
    requires |s| > 0 && NamesAreKeys(s[..|s| - 1], d)
    ensures NamesAreKeys(s, d[s[|s| - 1].name := s[|s| - 1].id])
  {
    assert forall i :: 0 <= i < |s| - 1 ==> s[i] == s[..|s| - 1][i];
  }

  lemma KeysAreNamesStep(s: seq<StoredStudent>, d: map<string, string>)
    requires |s| > 0 && KeysAreNames(s[..|s| - 1], d)
    ensures KeysAreNames(s, d[s[|s| - 1].name := s[|s| - 1].id])
  {
    var p := s[..|s| - 1];
    var x := s[|s| - 1];
    var m := d[x.name := x.id];
    forall n | n in m
      ensures exists i :: 0 <= i < |s| && s[i].name == n
    {
      if n == x.name {
        assert s[|p|].name == n;
      } else {
        var i :| 0 <= i < |p| && p[i].name == n;
        assert s[i] == p[i];
      }
    }
  }

  lemma LastWinsStep(s: seq<StoredStudent>, d: map<string, string>)
    requires |s| > 0 && LastWins(s[..|s| - 1], d)
    ensures LastWins(s, d[s[|s| - 1].name := s[|s| - 1].id])
  {
    var p := s[..|s| - 1];
    var x := s[|s| - 1];
    var m := d[x.name := x.id];
    forall i | 0 <= i < |s| && LastWithName(s, i)
      ensures s[i].name in m && m[s[i].name] == s[i].id
    {
      if i < |p| {
        LastWithNamePrefix(s, i);
      }
    }
  }

  /** `students.forEach(s => map.set(s.name, s.id))`: every name of `s` is a
      key, every key is a name of `s`, and a name holds the id of the last
      student carrying it. */
  function IdMap(s: seq<StoredStudent>): (m: map<string, string>)
    ensures NamesAreKeys(s, m) && KeysAreNames(s, m) && LastWins(s, m)
    decreases |s|
  {
    if |s| == 0 then map[]
    else
      NamesAreKeysStep(s, IdMap(s[..|s| - 1]));
      KeysAreNamesStep(s, IdMap(s[..|s| - 1]));
      LastWinsStep(s, IdMap(s[..|s| - 1]));
      IdMap(s[..|s| - 1])[s[|s| - 1].name := s[|s| - 1].id]
  }

  /** `findMany({ where: { name: { in: names } } })`: the stored students
      whose name is requested, in store order. */
  function FetchByNames(store: seq<StoredStudent>, names: seq<string>): (r: seq<StoredStudent>)
    ensures forall x :: x in r <==> x in store && x.name in names
    decreases |store|
  {
    if |store| == 0 then []
    else
      var p := store[..|store| - 1];
      var x := store[|store| - 1];
      assert forall y :: y in store <==> y in p || y == x by {
        assert store == p + [x];
      }
      FetchByNames(p, names) + if x.name in names then [x] else []
  }

  /** Fetching only the students whose name is requested keeps, for a
      requested name, the last stored student carrying it. */
  lemma {:induction false} FetchKeepsLast(s: seq<StoredStudent>, names: seq<string>, i: nat)
    requires i < |s| && s[i].name in names && LastWithName(s, i)
    ensures s[i].name in IdMap(FetchByNames(s, names)) && IdMap(FetchByNames(s, names))[s[i].name] == s[i].id
    decreases |s|
  {
    var p := s[..|s| - 1];
    var x := s[|s| - 1];
    var fp := FetchByNames(p, names);
    var fs := FetchByNames(s, names);
    FetchLast(s, names);
    if i < |s| - 1 {
      LastWithNamePrefix(s, i);
      FetchKeepsLast(p, names, i);
      assert x.name != s[i].name;
      if x.name in names {
        IdMapAppend(fp, x);
      } else {
        assert fs == fp;
      }
    } else {
      assert x == s[i];
      IdMapAppend(fp, x);
    }
  }

  /** Setting one more student into the map overwrites its name's entry. */
  lemma IdMapAppend(p: seq<StoredStudent>, x: StoredStudent)
    ensures IdMap(p + [x]) == IdMap(p)[x.name := x.id]
  {
    assert (p + [x])[..|p|] == p;
  }

  /** `createStudentNameToIdMap`: the requested names are de-duplicated, the
      students whose name is among them are fetched, and each is set into the
      map in turn. Only requested names that some stored student carries are
      keys, whatever academy that student belongs to; duplicated names map to
      the last such student. */
  function CreateStudentNameToIdMap(store: seq<StoredStudent>, names: seq<string>): (m: map<string, string>)
    ensures forall i :: 0 <= i < |store| && store[i].name in names ==> store[i].name in m
    ensures forall n :: n in m ==> n in names && exists i :: 0 <= i < |store| && store[i].name == n
    ensures forall i :: 0 <= i < |store| && store[i].name in names && LastWithName(store, i) ==>
              store[i].name in m && m[store[i].name] == store[i].id
  {
    var unique := Dedupe(names);
    var fetched := FetchByNames(store, unique);
    forall i | 0 <= i < |store| && store[i].name in names && LastWithName(store, i)
      ensures store[i].name in IdMap(fetched) && IdMap(fetched)[store[i].name] == store[i].id
    {
      FetchKeepsLast(store, unique, i);
    }
    IdMap(fetched)
  }

  /** A requested name that some stored student carries is a key, and it
      maps to the id of the last stored student carrying it. */
  lemma ResolvedIdsAreStored(store: seq<StoredStudent>, names: seq<string>, n: string, k: nat)
    requires n in names && k < |store| && store[k].name == n
    ensures n in CreateStudentNameToIdMap(store, names)
    ensures exists i :: 0 <= i < |store| && store[i].name == n && LastWithName(store, i) &&
                        store[i].id == CreateStudentNameToIdMap(store, names)[n]
  {
    var i := LastIndexOfName(store, n, k);
  }

  /** Some student at or after `k` carries the last occurrence of the name. */
  lemma LastIndexOfName(s: seq<StoredStudent>, n: string, k: nat) returns (i: nat)
    requires k < |s| && s[k].name == n
    ensures k <= i < |s| && s[i].name == n && LastWithName(s, i)
    decreases |s| - k
  {
    if exists j :: k < j < |s| && s[j].name == n {
      var j :| k < j < |s| && s[j].name == n;
      i := LastIndexOfName(s, n, j);
    } else {
      i := k;
    }
  }

  /** The store with every student moved to academy `a`. */
  function Relabel(store: seq<StoredStudent>, a: string): (r: seq<StoredStudent>)
    ensures |r| == |store|
    ensures forall i :: 0 <= i < |r| ==> r[i] == store[i].(academyId := a)
  {
    seq(|store|, i requires 0 <= i < |store| => store[i].(academyId := a))
  }

  /** Fetching a non-empty store fetches the students before the last one,
      then the last one if its name is requested. */
  lemma FetchLast(s: seq<StoredStudent>, names: seq<string>)
    requires |s| > 0
    ensures FetchByNames(s, names) ==
            FetchByNames(s[..|s| - 1], names) + if s[|s| - 1].name in names then [s[|s| - 1]] else []
  {}

  /** Relabelling distributes over concatenation. */
  lemma RelabelAppend(x: seq<StoredStudent>, y: seq<StoredStudent>, a: string)
    ensures Relabel(x + y, a) == Relabel(x, a) + Relabel(y, a)
  {}

  lemma {:induction false} FetchRelabel(s: seq<StoredStudent>, names: seq<string>, a: string)
    ensures FetchByNames(Relabel(s, a), names) == Relabel(FetchByNames(s, names), a)
    decreases |s|
  {
    if |s| > 0 {
      var t := Relabel(s, a);
      var p := s[..|s| - 1];
      var x := s[|s| - 1];
      assert t[..|t| - 1] == Relabel(p, a);
      assert t[|t| - 1] == x.(academyId := a);
      FetchRelabel(p, names, a);
      var tail := if x.name in names then [x] else [];
      FetchLast(t, names);
      FetchLast(s, names);
      RelabelAppend(FetchByNames(p, names), tail, a);
      assert Relabel(tail, a) == if x.name in names then [x.(academyId := a)] else [];
    }
  }

  lemma {:induction false} IdMapRelabel(s: seq<StoredStudent>, a: string)
    ensures IdMap(Relabel(s, a)) == IdMap(s)
    decreases |s|
  {
    if |s| > 0 {
      var t := Relabel(s, a);
      var p := s[..|s| - 1];
      assert t[..|t| - 1] == Relabel(p, a);
      IdMapRelabel(p, a);
      var x := s[|s| - 1];
      assert t[|t| - 1].name == x.name && t[|t| - 1].id == x.id;
      calc {
        IdMap(t);
        IdMap(Relabel(p, a))[x.name := x.id];
        IdMap(p)[x.name := x.id];
        IdMap(s);
      }
    }
  }

  /** The name-to-id map does not depend on which academy the stored students
      belong to: the lookup filters by name only. */
  lemma ResolutionIgnoresAcademy(store: seq<StoredStudent>, names: seq<string>, a: string)
    ensures CreateStudentNameToIdMap(Relabel(store, a), names) == CreateStudentNameToIdMap(store, names)
  {
    FetchRelabel(store, Dedupe(names), a);
    IdMapRelabel(FetchByNames(store, Dedupe(names)), a);
  }

  /** A request from one academy resolves a name that only a student of
      another academy carries. */
  lemma CrossAcademyNameResolves()
    ensures var store := [StoredStudent("s-1", "김민수", "academy-B")];
            CreateStudentNameToIdMap(store, ["김민수"]) == map["김민수" := "s-1"]
  {
    var store := [StoredStudent("s-1", "김민수", "academy-B")];
    var m := CreateStudentNameToIdMap(store, ["김민수"]);
    assert LastWithName(store, 0);
    assert m.Keys == {"김민수"};
  }

  /** With a duplicated name, `findStudentIdByName` answers with the first
      student while the batch map holds the last one. */
  lemma FirstAndLastMatchDiffer()
    ensures var store := [StoredStudent("s-1", "이지은", "a"), StoredStudent("s-2", "이지은", "a")];
            && FindStudentIdByName(store, "이지은") == Some("s-1")
            && CreateStudentNameToIdMap(store, ["이지은"])["이지은"] == "s-2"
  {
    var store := [StoredStudent("s-1", "이지은", "a"), StoredStudent("s-2", "이지은", "a")];
    assert LastWithName(store, 1);
  }

  // Database create-inputs.

  /** `StudentCreateInput`; an absent optional is `None`. */
  datatype StudentCreate = StudentCreate(
    name: string, grade: real, classNo: Option<real>,
    phone: Option<string>, parentPhone: Option<string>, address: Option<string>)

  /** `value ?? undefined`: both a missing and a `null` field become absent. */
  function OrAbsent<T>(v: Optional<T>): (r: Option<T>)
    ensures r.None? <==> !v.Has?
    ensures r.Some? ==> r.value == v.value
  {
    match v
    case Has(x) => Some(x)
    case _ => None
  }

  /** Two optional fields that differ at most in missing-versus-null. */
  predicate SameUpToNull<T(==)>(a: Optional<T>, b: Optional<T>) {
    a == b || (!a.Has? && !b.Has?)
  }

  /** `mapStudentToPrisma`. */
  function MapStudentToPrisma(d: StudentData): (c: StudentCreate)
    ensures c.name == d.name && c.grade == d.grade
    ensures c.classNo.Some? <==> d.classNo.Has?
    ensures c.phone.Some? <==> d.phone.Has?
    ensures c.parentPhone.Some? <==> d.parentPhone.Has?
    ensures c.address.Some? <==> d.address.Has?
    ensures d.classNo.Has? ==> c.classNo == Some(d.classNo.value)
    ensures d.phone.Has? ==> c.phone == Some(d.phone.value)
    ensures d.parentPhone.Has? ==> c.parentPhone == Some(d.parentPhone.value)
    ensures d.address.Has? ==> c.address == Some(d.address.value)
  {
    StudentCreate(d.name, d.grade, OrAbsent(d.classNo), OrAbsent(d.phone), OrAbsent(d.parentPhone), OrAbsent(d.address))
  }

  /** The student mapping forgets exactly the difference between a missing
      and a `null` optional field, and nothing else. */
  lemma StudentMappingForgetsOnlyNull(a: StudentData, b: StudentData)
    ensures MapStudentToPrisma(a) == MapStudentToPrisma(b) <==>
            && a.name == b.name && a.grade == b.grade
            && SameUpToNull(a.classNo, b.classNo) && SameUpToNull(a.phone, b.phone)
            && SameUpToNull(a.parentPhone, b.parentPhone) && SameUpToNull(a.address, b.address)
  {
    if MapStudentToPrisma(a) == MapStudentToPrisma(b) {
      OrAbsentInjective(a.classNo, b.classNo);
      OrAbsentInjective(a.phone, b.phone);
      OrAbsentInjective(a.parentPhone, b.parentPhone);
      OrAbsentInjective(a.address, b.address);
    }
  }

  lemma OrAbsentInjective<T>(a: Optional<T>, b: Optional<T>)
    requires OrAbsent(a) == OrAbsent(b)
    ensures SameUpToNull(a, b)
  {
  }

  /** `GradeCreateInput`; `examDate` is kept as the text the date is built from. */
  datatype GradeCreate = GradeCreate(
    subject: string, semester: string, examType: string, score: real, examDate: string, studentId: string)

  /** `mapGradeToPrisma`: connects exactly the given student. */
  function MapGradeToPrisma(d: GradeData, studentId: string): (c: GradeCreate)
    ensures c.studentId == studentId
    ensures c.subject == d.subject && c.semester == d.semester && c.examType == d.examType && c.score == d.score
    ensures c.examDate == d.examDate
  {
    GradeCreate(d.subject, d.semester, d.examType, d.score, d.examDate, studentId)
  }

  /** The grade mapping drops the student's name and keeps every other field
      and the id: two grades map alike exactly when they differ at most in
      the name. */
  lemma GradeMappingDropsOnlyName(a: GradeData, b: GradeData, idA: string, idB: string)
    ensures MapGradeToPrisma(a, idA) == MapGradeToPrisma(b, idB) <==>
            a.(studentName := b.studentName) == b && idA == idB
  {
  }

  /** `GoalStatus`; uploads only ever create `IN_PROGRESS` goals. */
  datatype GoalStatus = InProgress | Achieved | Failed

  /** `GoalCreateInput`; `deadline` is kept as the text the date is built from. */
  datatype GoalCreate = GoalCreate(
    title: string, currentScore: real, targetScore: real, deadline: string, status: GoalStatus, studentId: string)

  /** `mapGoalToPrisma`: connects exactly the given student, always in
      progress. */
  function MapGoalToPrisma(d: GoalData, studentId: string): (c: GoalCreate)
    ensures c.studentId == studentId && c.status == InProgress
    ensures c.title == d.title && c.currentScore == d.currentScore && c.targetScore == d.targetScore
    ensures c.deadline == d.deadline
  {
    GoalCreate(d.title, d.currentScore, d.targetScore, d.deadline, InProgress, studentId)
  }

  lemma GoalMappingDropsOnlyName(a: GoalData, b: GoalData, idA: string, idB: string)
    ensures MapGoalToPrisma(a, idA) == MapGoalToPrisma(b, idB) <==>
            a.(studentName := b.studentName) == b && idA == idB
  {
  }

  /** `mapGradeToPrismaInput`: the grade with its student still named, to be
      resolved later. */
  datatype GradeInput = GradeInput(
    subject: string, semester: string, examType: string, score: real, examDate: string, studentName: string)

  function MapGradeToPrismaInput(d: GradeData): (c: GradeInput)
    ensures c.studentName == d.studentName
  {
    GradeInput(d.subject, d.semester, d.examType, d.score, d.examDate, d.studentName)
  }

  /** Replacing the name by an id. */
  function ConnectGrade(g: GradeInput, studentId: string): GradeCreate {
    GradeCreate(g.subject, g.semester, g.examType, g.score, g.examDate, studentId)
  }

  /** Resolving the name of the deferred input later gives the direct
      mapping. */
  lemma GradeInputThenConnect(d: GradeData, studentId: string)
    ensures ConnectGrade(MapGradeToPrismaInput(d), studentId) == MapGradeToPrisma(d, studentId)
  {
  }

  /** `mapGoalToPrismaInput`. */
  datatype GoalInput = GoalInput(
    title: string, currentScore: real, targetScore: real, deadline: string, status: GoalStatus, studentName: string)

  function MapGoalToPrismaInput(d: GoalData): (c: GoalInput)
    ensures c.studentName == d.studentName && c.status == InProgress
  {
    GoalInput(d.title, d.currentScore, d.targetScore, d.deadline, InProgress, d.studentName)
  }

  function ConnectGoal(g: GoalInput, studentId: string): GoalCreate {
    GoalCreate(g.title, g.currentScore, g.targetScore, g.deadline, g.status, studentId)
  }

  lemma GoalInputThenConnect(d: GoalData, studentId: string)
    ensures ConnectGoal(MapGoalToPrismaInput(d), studentId) == MapGoalToPrisma(d, studentId)
  {
  }
}

=== FILE: numeric.dfy ===
/** Arithmetic on scores: sums and means over `real`, JavaScript's
    `Math.round`, and the percentage rates the dashboards report. Floating
    point is not modelled: scores are exact reals. */
module Numeric {

  function Sum(s: seq<real>): real
    decreases |s|
  {
    if |s| == 0 then 0.0 else Sum(s[..|s| - 1]) + s[|s| - 1]
  }

  /** `scores.reduce((sum, x) => sum + x, 0) / scores.length`. */
  function Mean(s: seq<real>): real
    requires |s| > 0
  {
    Sum(s) / |s| as real
  }

  /** `Math.round`: the nearest integer, halves rounded up. */
  function Round(x: real): (n: int)
    ensures n as real <= x + 0.5 < n as real + 1.0
  {
    (x + 0.5).Floor
  }

  /** Every value in `[lo, hi]` keeps the sum within `|s|` times the bounds. */
  lemma {:induction false} SumBounds(s: seq<real>, lo: real, hi: real)
    requires forall i :: 0 <= i < |s| ==> lo <= s[i] <= hi
    ensures |s| as real * lo <= Sum(s) <= |s| as real * hi
    decreases |s|
  {
    if |s| > 0 {
      SumBounds(s[..|s| - 1], lo, hi);
      assert (|s| - 1) as real * lo + lo == |s| as real * lo;
      assert (|s| - 1) as real * hi + hi == |s| as real * hi;
    }
  }

  /** The mean of values in `[lo, hi]` is in `[lo, hi]`. */
  lemma MeanBounds(s: seq<real>, lo: real, hi: real)
    requires |s| > 0
    requires forall i :: 0 <= i < |s| ==> lo <= s[i] <= hi
    ensures lo <= Mean(s) <= hi
  {
    SumBounds(s, lo, hi);
    var n := |s| as real;
    assert n * lo <= Sum(s) <= n * hi;
    assert lo == (n * lo) / n && hi == (n * hi) / n;
  }

  /** Rounding keeps a value that lies between two integers between them. */
  lemma RoundBounds(x: real, lo: int, hi: int)
    requires lo as real <= x <= hi as real
    ensures lo <= Round(x) <= hi
  {
  }

  /** `part / whole * 100`, or 0 when `whole` is 0. */
  function Percent(part: nat, whole: nat): (r: real)
    ensures whole == 0 ==> r == 0.0
    ensures part <= whole ==> 0.0 <= r <= 100.0
    ensures whole > 0 && part == whole ==> r == 100.0
  {
    if whole == 0 then 0.0 else part as real / whole as real * 100.0
  }
}

=== FILE: parser.dfy ===
/** The row parser of `lib/excel/parser.ts`: from the decoded cell array to
    header-keyed row objects, numbered and partitioned by the per-type
    presence checks of `validateRow`; then the column-name mapping of
    `mapExcelData`. The binary workbook decoding before it is not part of
    this model. */
module Parser {
  import opened Collections
  import opened Cells

  /** A row object. JavaScript keys it by `String(header)`; here the key is
      the header cell itself. Every lookup the pipeline makes uses a text
      key, so the two agree wherever the pipeline looks. */
  type RawRow = map<Cell, Cell>

  /** `row[index] ?? null`: a cell past the end of a short row is null. */
  function CellAt(row: seq<Cell>, i: nat): Cell {
    if i < |row| then row[i] else Null
  }

  /** One row object: a key for each truthy header, holding the cell in
      that header's column; under a header that appears twice the rightmost
      column wins, because `forEach` assigns the columns from left to
      right. */
  function BuildObject(headers: seq<Cell>, row: seq<Cell>): (obj: RawRow)
    ensures forall h :: h in obj <==> h in headers && Truthy(h)
    ensures forall h :: h in obj ==> h in headers && obj[h] == CellAt(row, LastIndex(headers, h))
    decreases |headers|
  {
    if |headers| == 0 then map[]
    else
      var n := |headers| - 1;
      var o := BuildObject(headers[..n], row);
      assert forall h :: h in headers <==> h in headers[..n] || h == headers[n] by {
        assert headers == headers[..n] + [headers[n]];
      }
      if Truthy(headers[n]) then o[headers[n] := CellAt(row, n)] else o
  }

  /** `row.some(cell => cell !== null && cell !== '')`. */
  predicate NonBlank(row: seq<Cell>) {
    exists i :: 0 <= i < |row| && Filled(row[i])
  }

  /** The header row: the first row of the array, none for an empty sheet. */
  function Headers(sheet: seq<seq<Cell>>): seq<Cell> {
    if |sheet| == 0 then [] else sheet[0]
  }

  /** The data rows below the header that hold at least one filled cell. */
  function NonBlankRows(sheet: seq<seq<Cell>>): (kept: seq<seq<Cell>>)
    ensures forall r :: r in kept <==> (|sheet| > 0 && r in sheet[1..] && NonBlank(r))
  {
    Filter(if |sheet| == 0 then [] else sheet[1..], NonBlank)
  }

  /** The data rows that survive the blank-row filter, as row objects. The
      k-th of them (from 0) is the one reported as row k + 2. */
  function SurvivingRows(sheet: seq<seq<Cell>>): (rows: seq<RawRow>)
    ensures |rows| == |NonBlankRows(sheet)|
    ensures forall k :: 0 <= k < |rows| ==> rows[k] == BuildObject(Headers(sheet), NonBlankRows(sheet)[k])
  {
    var kept := NonBlankRows(sheet);
    seq(|kept|, i requires 0 <= i < |kept| => BuildObject(Headers(sheet), kept[i]))
  }

  /** A blank data row, wherever it sits below the header, changes neither
      the surviving rows nor their numbering. */
  lemma BlankRowIgnored(sheet: seq<seq<Cell>>, i: nat, blank: seq<Cell>)
    requires 1 <= i <= |sheet| && !NonBlank(blank)
    ensures SurvivingRows(sheet[..i] + [blank] + sheet[i..]) == SurvivingRows(sheet)
  {
    var grown := sheet[..i] + [blank] + sheet[i..];
    assert grown[0] == sheet[0];
    assert grown[1..] == sheet[1..i] + [blank] + sheet[i..];
    assert sheet[1..] == sheet[1..i] + sheet[i..];
    FilterAppend(sheet[1..i] + [blank], sheet[i..], NonBlank);
    FilterAppend(sheet[1..i], [blank], NonBlank);
    FilterAppend(sheet[1..i], sheet[i..], NonBlank);
    assert Filter([blank], NonBlank) == [];
    assert NonBlankRows(grown) == NonBlankRows(sheet);
  }

  /** A per-row problem: `{ row, field, message, value }`, where `value` is
      `None` when the row object has no such key (`undefined`). */
  datatype ParseError = ParseError(row: int, field: string, message: string, value: Option<Cell>)

  /** `row[key]`. */
  function Lookup(row: RawRow, key: string): Option<Cell> {
    if Str(key) in row then Some(row[Str(key)]) else None
  }

  /** `!!row[key]`. */
  predicate Present(row: RawRow, key: string) {
    Lookup(row, key).Some? && Truthy(Lookup(row, key).value)
  }

  /** A non-empty string. */
  predicate IsNonEmptyText(v: Option<Cell>) {
    v.Some? && v.value.Str? && v.value.text != ""
  }

  /** A number other than 0. */
  predicate IsNonZeroNumber(v: Option<Cell>) {
    v.Some? && v.value.Num? && v.value.number != 0.0
  }

  /** A number in `[0, 100]`. */
  predicate IsPercentNumber(v: Option<Cell>) {
    v.Some? && v.value.Num? && 0.0 <= v.value.number <= 100.0
  }

  /** The fields `validateRow` checks for each record type, with the check
      each one must pass. */
  predicate FieldOk(row: RawRow, kind: Kind, field: string) {
    match kind
    case Students =>
      (field == "이름" ==> IsNonEmptyText(Lookup(row, field))) &&
      (field == "학년" ==> IsNonZeroNumber(Lookup(row, field)))
    case Grades =>
      (field == "학생명" || field == "과목" ==> Present(row, field)) &&
      (field == "점수" ==> IsPercentNumber(Lookup(row, field)))
    case Goals =>
      (field == "학생명" || field == "목표제목" ==> Present(row, field)) &&
      (field == "목표점수" ==> IsPercentNumber(Lookup(row, field)))
  }

  function CheckedFields(kind: Kind): seq<string> {
    match kind
    case Students => ["이름", "학년"]
    case Grades => ["학생명", "과목", "점수"]
    case Goals => ["학생명", "목표제목", "목표점수"]
  }

  /** A row passes `validateRow` when every checked field passes. */
  predicate Acceptable(row: RawRow, kind: Kind) {
    match kind
    case Students => IsNonEmptyText(Lookup(row, "이름")) && IsNonZeroNumber(Lookup(row, "학년"))
    case Grades => Present(row, "학생명") && Present(row, "과목") && IsPercentNumber(Lookup(row, "점수"))
    case Goals => Present(row, "학생명") && Present(row, "목표제목") && IsPercentNumber(Lookup(row, "목표점수"))
  }

  function ErrorIf(bad: bool, row: RawRow, rowNumber: int, field: string, message: string): (r: seq<ParseError>)
    ensures r == [] <==> !bad
    ensures forall e :: e in r ==> e.row == rowNumber && e.field == field && e.value == Lookup(row, field)
    ensures bad ==> exists e :: e in r && e.field == field
  {
    if bad then [ParseError(rowNumber, field, message, Lookup(row, field))] else []
  }

  /** `validateRow`: one error per failing field, in field order, each
      stamped with the row number and carrying the offending value. */
  function ValidateRow(row: RawRow, kind: Kind, rowNumber: int): (errors: seq<ParseError>)
    ensures errors == [] <==> Acceptable(row, kind)
    ensures forall e :: e in errors ==>
              && e.row == rowNumber
              && e.field in CheckedFields(kind)
              && !FieldOk(row, kind, e.field)
              && e.value == Lookup(row, e.field)
    ensures forall f :: f in CheckedFields(kind) && !FieldOk(row, kind, f) ==>
              exists e :: e in errors && e.field == f
  {
    match kind
    case Students => StudentRowErrors(row, rowNumber)
    case Grades => GradeRowErrors(row, rowNumber)
    case Goals => GoalRowErrors(row, rowNumber)
  }

  /** The `'students'` branch of `validateRow`. */
  function StudentRowErrors(row: RawRow, rowNumber: int): (errors: seq<ParseError>)
    ensures errors == [] <==> Acceptable(row, Students)
    ensures forall e :: e in errors ==>
              && e.row == rowNumber
              && e.field in CheckedFields(Students)
              && !FieldOk(row, Students, e.field)
              && e.value == Lookup(row, e.field)
    ensures forall f :: f in CheckedFields(Students) && !FieldOk(row, Students, f) ==>
              exists e :: e in errors && e.field == f
  {
    ErrorIf(!IsNonEmptyText(Lookup(row, "이름")), row, rowNumber, "이름", "이름은 필수 항목입니다")
    + ErrorIf(!IsNonZeroNumber(Lookup(row, "학년")), row, rowNumber, "학년", "학년은 숫자로 입력해야 합니다")
  }

  /** The `'grades'` branch of `validateRow`. */
  function GradeRowErrors(row: RawRow, rowNumber: int): (errors: seq<ParseError>)
    ensures errors == [] <==> Acceptable(row, Grades)
    ensures forall e :: e in errors ==>
              && e.row == rowNumber
              && e.field in CheckedFields(Grades)
              && !FieldOk(row, Grades, e.field)
              && e.value == Lookup(row, e.field)
    ensures forall f :: f in CheckedFields(Grades) && !FieldOk(row, Grades, f) ==>
              exists e :: e in errors && e.field == f
  {
    ErrorIf(!Present(row, "학생명"), row, rowNumber, "학생명", "학생명은 필수 항목입니다")
    + ErrorIf(!Present(row, "과목"), row, rowNumber, "과목", "과목은 필수 항목입니다")
    + ErrorIf(!IsPercentNumber(Lookup(row, "점수")), row, rowNumber, "점수", "점수는 0~100 사이의 숫자여야 합니다")
  }

  /** The `'goals'` branch of `validateRow`. */
  function GoalRowErrors(row: RawRow, rowNumber: int): (errors: seq<ParseError>)
    ensures errors == [] <==> Acceptable(row, Goals)
    ensures forall e :: e in errors ==>
              && e.row == rowNumber
              && e.field in CheckedFields(Goals)
              && !FieldOk(row, Goals, e.field)
              && e.value == Lookup(row, e.field)
    ensures forall f :: f in CheckedFields(Goals) && !FieldOk(row, Goals, f) ==>
              exists e :: e in errors && e.field == f
  {
    ErrorIf(!Present(row, "학생명"), row, rowNumber, "학생명", "학생명은 필수 항목입니다")
    + ErrorIf(!Present(row, "목표제목"), row, rowNumber, "목표제목", "목표제목은 필수 항목입니다")
    + ErrorIf(!IsPercentNumber(Lookup(row, "목표점수")), row, rowNumber, "목표점수", "목표점수는 0~100 사이의 숫자여야 합니다")
  }

  /** The `forEach` over the surviving rows, the first of them numbered
      `first`: passing rows go to the data, failing rows give their errors. */
  function CheckRows(rows: seq<RawRow>, kind: Kind, first: int): (r: (seq<RawRow>, seq<ParseError>))
    ensures ErrorsName(r.1, rows, kind, first)
    decreases |rows|
  {
    if |rows| == 0 then ([], [])
    else
      var errs := ValidateRow(rows[0], kind, first);
      var rest := CheckRows(rows[1..], kind, first + 1);
      ErrorsShift(rest.1, rows, kind, first);
      assert ErrorsName(errs, rows, kind, first) by {
        forall e | e in errs
          ensures first <= e.row < first + |rows| && !Acceptable(rows[e.row - first], kind)
        {
          RowErrorSound(rows[0], kind, first, e);
        }
      }
      if |errs| > 0 then (rest.0, errs + rest.1) else ([rows[0]] + rest.0, rest.1)
  }

  /** Every error names one of the rows by its position plus `first`, and
      that row fails the checks. */
  ghost predicate ErrorsName(errors: seq<ParseError>, rows: seq<RawRow>, kind: Kind, first: int) {
    forall e :: e in errors ==> first <= e.row < first + |rows| && !Acceptable(rows[e.row - first], kind)
  }

  /** Errors naming rows of the tail name the same rows of the whole. */
  lemma ErrorsShift(errors: seq<ParseError>, rows: seq<RawRow>, kind: Kind, first: int)
    requires |rows| > 0 && ErrorsName(errors, rows[1..], kind, first + 1)
    ensures ErrorsName(errors, rows, kind, first)
  {
    forall e | e in errors
      ensures first <= e.row < first + |rows| && !Acceptable(rows[e.row - first], kind)
    {
      assert rows[e.row - first] == rows[1..][e.row - (first + 1)];
    }
  }

  /** The rows kept as data are exactly the rows that pass `validateRow`,
      in order. */
  lemma {:induction false} CheckRowsData(rows: seq<RawRow>, kind: Kind, first: int)
    ensures CheckRows(rows, kind, first).0 == Filter(rows, (x: RawRow) => Acceptable(x, kind))
    decreases |rows|
  {
    if |rows| > 0 {
      CheckRowsData(rows[1..], kind, first + 1);
    }
  }

  /** One step of the `forEach`: a failing head row contributes its errors
      in front of the rest. */
  lemma CheckRowsStep(rows: seq<RawRow>, kind: Kind, first: int)
    requires |rows| > 0
    ensures var errs := ValidateRow(rows[0], kind, first);
            CheckRows(rows, kind, first).1 == errs + CheckRows(rows[1..], kind, first + 1).1
  {
  }

  /** An error of `validateRow` carries the row's number, and the row fails. */
  lemma RowErrorSound(row: RawRow, kind: Kind, rowNumber: int, e: ParseError)
    requires e in ValidateRow(row, kind, rowNumber)
    ensures e.row == rowNumber && !Acceptable(row, kind)
  {
  }

  /** Every failing row has at least one error carrying its position plus
      `first`. */
  ghost predicate ErrorsCover(errors: seq<ParseError>, rows: seq<RawRow>, kind: Kind, first: int) {
    forall k :: 0 <= k < |rows| && !Acceptable(rows[k], kind) ==> exists e :: e in errors && e.row == first + k
  }

  /** The first row's errors followed by errors covering the tail cover the
      whole. */
  lemma ErrorsCoverStep(errs: seq<ParseError>, rest: seq<ParseError>, rows: seq<RawRow>, kind: Kind, first: int)
    requires |rows| > 0 && ErrorsCover(rest, rows[1..], kind, first + 1)
    requires !Acceptable(rows[0], kind) ==> |errs| > 0 && errs[0].row == first
    ensures ErrorsCover(errs + rest, rows, kind, first)
  {
    var all := errs + rest;
    forall k | 0 <= k < |rows| && !Acceptable(rows[k], kind)
      ensures exists e :: e in all && e.row == first + k
    {
      if k == 0 {
        assert errs[0] in all;
      } else {
        assert rows[k] == rows[1..][k - 1];
        var e :| e in rest && e.row == first + 1 + (k - 1);
        assert e in all;
      }
    }
  }

  /** Every failing row has at least one error with its number. */
  lemma {:induction false} CheckRowsErrorsComplete(rows: seq<RawRow>, kind: Kind, first: int)
    ensures forall k :: 0 <= k < |rows| && !Acceptable(rows[k], kind) ==>
              exists e :: e in CheckRows(rows, kind, first).1 && e.row == first + k
    decreases |rows|
  {
    if |rows| > 0 {
      CheckRowsErrorsComplete(rows[1..], kind, first + 1);
      CheckRowsStep(rows, kind, first);
      var errs := ValidateRow(rows[0], kind, first);
      assert !Acceptable(rows[0], kind) ==> |errs| > 0 && errs[0].row == first by {
        if !Acceptable(rows[0], kind) {
          assert errs[0] in errs;
        }
      }
      ErrorsCoverStep(errs, CheckRows(rows[1..], kind, first + 1).1, rows, kind, first);
    }
  }


  /** `ExcelParseResult` without its always-empty `warnings`. */
  datatype ParseResult = ParseResult(data: seq<RawRow>, errors: seq<ParseError>, totalRows: nat, validRows: nat)

  /** `parseExcelFile` after the workbook has been decoded. */
  function ParseSheet(sheet: seq<seq<Cell>>, kind: Kind): (r: ParseResult)
    ensures r.totalRows == |SurvivingRows(sheet)|
    ensures r.validRows == |r.data| <= r.totalRows
    ensures r.data == Filter(SurvivingRows(sheet), (x: RawRow) => Acceptable(x, kind))
    ensures forall e :: e in r.errors ==>
              2 <= e.row < r.totalRows + 2 && !Acceptable(SurvivingRows(sheet)[e.row - 2], kind)
    ensures forall k :: 0 <= k < r.totalRows && !Acceptable(SurvivingRows(sheet)[k], kind) ==>
              exists e :: e in r.errors && e.row == k + 2
  {
    var rows := SurvivingRows(sheet);
    var (data, errors) := CheckRows(rows, kind, 2);
    CheckRowsData(rows, kind, 2);
    CheckRowsErrorsComplete(rows, kind, 2);
    ParseResult(data, errors, |rows|, |data|)
  }

  /** The errors are empty exactly when every surviving row passes, and then
      the data is every surviving row. */
  lemma NoParseErrors(sheet: seq<seq<Cell>>, kind: Kind)
    ensures ParseSheet(sheet, kind).errors == [] <==>
            forall k :: 0 <= k < |SurvivingRows(sheet)| ==> Acceptable(SurvivingRows(sheet)[k], kind)
    ensures ParseSheet(sheet, kind).errors == [] ==> ParseSheet(sheet, kind).data == SurvivingRows(sheet)
  {
    var rows := SurvivingRows(sheet);
    var r := ParseSheet(sheet, kind);
    if r.errors == [] {
      FilterLength(rows, (x: RawRow) => Acceptable(x, kind));
    } else {
      var e := r.errors[0];
      assert e in r.errors;
    }
  }

  /** `COLUMN_MAPPINGS`: localized header to canonical field, in
      declaration order. */
  function ColumnMapping(kind: Kind): seq<(string, string)> {
    match kind
    case Students =>
      [("이름", "name"), ("학년", "grade"), ("반", "class"), ("연락처", "phone"),
       ("부모연락처", "parentPhone"), ("주소", "address")]
    case Grades =>
      [("학생명", "studentName"), ("과목", "subject"), ("학기", "semester"),
       ("시험종류", "examType"), ("점수", "score"), ("시험일자", "examDate")]
    case Goals =>
      [("학생명", "studentName"), ("목표제목", "title"), ("현재점수", "currentScore"),
       ("목표점수", "targetScore"), ("마감일", "deadline")]
  }

  /** An object with canonical field names, the shape the schemas check. */
  type Record = map<string, Cell>

  /** `row[koreanKey] !== undefined && row[koreanKey] !== null`. */
  predicate Defined(row: RawRow, key: string) {
    Str(key) in row && row[Str(key)] != Null
  }

  /** `mapExcelData` for one row: the mapping's entries, left to right. */
  function MapRow(row: RawRow, mapping: seq<(string, string)>): Record
    decreases |mapping|
  {
    if |mapping| == 0 then map[]
    else
      var (k, e) := mapping[|mapping| - 1];
      var m := MapRow(row, mapping[..|mapping| - 1]);
      if Defined(row, k) then m[e := row[Str(k)]] else m
  }

  /** A canonical field is present exactly when some entry for it finds a
      non-null value, and with one entry per canonical field that value is
      copied unchanged. */
  lemma {:induction false} MapRowSpec(row: RawRow, mapping: seq<(string, string)>)
    requires Distinct(Canonical(mapping))
    ensures forall f :: f in MapRow(row, mapping) <==>
              exists i :: 0 <= i < |mapping| && mapping[i].1 == f && Defined(row, mapping[i].0)
    ensures forall i :: 0 <= i < |mapping| && Defined(row, mapping[i].0) ==>
              mapping[i].1 in MapRow(row, mapping) && MapRow(row, mapping)[mapping[i].1] == row[Str(mapping[i].0)]
    decreases |mapping|
  {
    if |mapping| > 0 {
      var n := |mapping| - 1;
      var p := mapping[..n];
      assert Canonical(p) == Canonical(mapping)[..n];
      MapRowSpec(row, p);
      assert forall i :: 0 <= i < n ==> mapping[i].1 != mapping[n].1 by {
        assert forall i :: 0 <= i < n ==> Canonical(mapping)[i] == mapping[i].1;
      }
      assert forall i :: 0 <= i < n ==> p[i] == mapping[i];
    }
  }

  function Canonical(mapping: seq<(string, string)>): (fs: seq<string>)
    ensures |fs| == |mapping|
    ensures forall i :: 0 <= i < |mapping| ==> fs[i] == mapping[i].1
  {
    seq(|mapping|, i requires 0 <= i < |mapping| => mapping[i].1)
  }

  lemma MappingsDistinct(kind: Kind)
    ensures Distinct(Canonical(ColumnMapping(kind)))
  {
  }

  /** `mapExcelData`: one canonical object per row, in order. A canonical
      field is present exactly when its localized column holds a non-null
      value, which is copied unchanged; columns outside the table vanish. */
  function MapExcelData(rows: seq<RawRow>, kind: Kind): (out: seq<Record>)
    ensures |out| == |rows|
    ensures forall i, f :: 0 <= i < |rows| ==>
              (f in out[i] <==> exists k :: (k, f) in ColumnMapping(kind) && Defined(rows[i], k))
    ensures forall i, k, f :: 0 <= i < |rows| && (k, f) in ColumnMapping(kind) && Defined(rows[i], k) ==>
              out[i][f] == rows[i][Str(k)]
  {
    var mapping := ColumnMapping(kind);
    MappingsDistinct(kind);
    forall row | row in rows {
      MapRowSpec(row, mapping);
    }
    seq(|rows|, i requires 0 <= i < |rows| => MapRow(rows[i], mapping))
  }

  /** The i-th mapped object is the i-th row pushed through the table. */
  lemma MapExcelDataAt(rows: seq<RawRow>, kind: Kind, i: nat)
    requires i < |rows|
    ensures MapExcelData(rows, kind)[i] == MapRow(rows[i], ColumnMapping(kind))
  {
  }
}

=== FILE: routeguard.dfy ===
/** The route guards: the page middleware (`middleware.ts`) and the
    token-based guard (`lib/auth-middleware.ts`). Both make the same
    four-way decision from whether the visitor is signed in and whether
    the path is public; they differ only in their public prefixes. Whether
    a session or token exists is an input. */
module RouteGuard {
  import opened Collections

  /** What the guard answers: `NextResponse.redirect(new URL('/', …))`,
      a redirect to `/login?callbackUrl=…`, or `NextResponse.next()`. */
  datatype Decision = RedirectHome | RedirectLogin(callbackUrl: string) | PassThrough

  /** `pathname.startsWith(route)`. */
  predicate StartsWith(path: string, prefix: string) {
    |prefix| <= |path| && path[..|prefix|] == prefix
  }

  /** `publicRoutes.some((route) => pathname.startsWith(route))`. */
  predicate IsPublic(routes: seq<string>, path: string) {
    exists i :: 0 <= i < |routes| && StartsWith(path, routes[i])
  }

  /** The public prefixes of the page middleware. */
  const PagePublicRoutes: seq<string> := ["/login", "/signup", "/register"]

  /** The public prefixes of the token guard: `/register` is not one. */
  const TokenPublicRoutes: seq<string> := ["/login", "/signup"]

  /** The decision both guards make: a signed-in visitor on a public path
      goes home, an anonymous visitor on any other path goes to the login
      page with the path as `callbackUrl`, and everything else passes. */
  function Decide(routes: seq<string>, signedIn: bool, path: string): (d: Decision)
    ensures d == RedirectHome <==> signedIn && IsPublic(routes, path)
    ensures d.RedirectLogin? <==> !signedIn && !IsPublic(routes, path)
    ensures d.RedirectLogin? ==> d.callbackUrl == path
    ensures d == PassThrough <==> (signedIn <==> !IsPublic(routes, path))
  {
    var isPublic := IsPublic(routes, path);
    if signedIn && isPublic then RedirectHome
    else if !signedIn && !isPublic then RedirectLogin(path)
    else PassThrough
  }

  /** The page middleware's decision for a path it runs on. */
  function PageGuard(signedIn: bool, path: string): Decision {
    Decide(PagePublicRoutes, signedIn, path)
  }

  /** The token guard's decision (`auth(request)`). */
  function TokenGuard(hasToken: bool, path: string): Decision {
    Decide(TokenPublicRoutes, hasToken, path)
  }

  /** The matcher `/((?!api|_next/static|_next/image|favicon.ico).*)`: the
      middleware runs on a path unless what follows its first `/` starts
      with `api`, `_next/static`, `_next/image`, or `favicon`, any one
      character, `ico` (the `.` of the pattern). */
  predicate Excluded(rest: string) {
    || StartsWith(rest, "api")
    || StartsWith(rest, "_next/static")
    || StartsWith(rest, "_next/image")
    || (|rest| >= 11 && rest[..7] == "favicon" && rest[8..11] == "ico")
  }

  predicate Matched(path: string) {
    |path| > 0 && path[0] == '/' && !Excluded(path[1..])
  }

  /** The page middleware as deployed: `None` when the matcher skips the
      path and the request never reaches the decision. */
  function Middleware(signedIn: bool, path: string): (d: Option<Decision>)
    ensures d.None? <==> !Matched(path)
    ensures d.Some? ==> d.value == PageGuard(signedIn, path)
  {
    if Matched(path) then Some(PageGuard(signedIn, path)) else None
  }

  /** The page middleware's public paths are exactly those starting with
      `/login`, `/signup` or `/register`. */
  lemma PagePublicPaths(path: string)
    ensures IsPublic(PagePublicRoutes, path) <==>
              StartsWith(path, "/login") || StartsWith(path, "/signup") || StartsWith(path, "/register")
  {
    if StartsWith(path, "/login") {
      assert StartsWith(path, PagePublicRoutes[0]);
    }
    if StartsWith(path, "/signup") {
      assert StartsWith(path, PagePublicRoutes[1]);
    }
    if StartsWith(path, "/register") {
      assert StartsWith(path, PagePublicRoutes[2]);
    }
  }

  /** The token guard's public paths are exactly those starting with
      `/login` or `/signup`. */
  lemma TokenPublicPaths(path: string)
    ensures IsPublic(TokenPublicRoutes, path) <==> StartsWith(path, "/login") || StartsWith(path, "/signup")
  {
    if StartsWith(path, "/login") {
      assert StartsWith(path, TokenPublicRoutes[0]);
    }
    if StartsWith(path, "/signup") {
      assert StartsWith(path, TokenPublicRoutes[1]);
    }
  }

  /** A path under `/api`, `/_next/static`, `/_next/image` or `/favicon.ico`
      never reaches the decision. */
  lemma ExcludedNeverDecided(signedIn: bool, path: string)
    requires || StartsWith(path, "/api") || StartsWith(path, "/_next/static")
             || StartsWith(path, "/_next/image") || StartsWith(path, "/favicon.ico")
    ensures Middleware(signedIn, path) == None
  {
    var rest := path[1..];
    if StartsWith(path, "/api") {
      assert rest[..3] == path[1..4];
    } else if StartsWith(path, "/_next/static") {
      assert rest[..12] == path[1..13];
    } else if StartsWith(path, "/_next/image") {
      assert rest[..11] == path[1..12];
    } else {
      var icon := "/favicon.ico";
      assert path[..12] == icon;
      assert forall k :: 0 <= k < 11 ==> rest[k] == icon[k + 1];
      assert rest[..7] == "favicon";
      assert rest[8..11] == "ico";
    }
  }

  /** A path under a public prefix is public: the test is on prefixes, so
      `/login/x` (and even `/loginx`) counts as public. */
  lemma PublicByPrefix(routes: seq<string>, route: string, path: string, rest: string)
    requires route in routes && path == route + rest
    ensures IsPublic(routes, path)
  {
    var i :| 0 <= i < |routes| && routes[i] == route;
    assert path[..|route|] == route;
  }

  /** Under `/register` the guards disagree: the page middleware treats
      the path as public, the token guard does not, so an anonymous visitor
      passes one and is sent to the login page by the other, and a signed-in
      visitor is sent home by one and passes the other. */
  lemma RegisterDiffers(path: string)
    requires StartsWith(path, "/register")
    ensures PageGuard(false, path) == PassThrough
    ensures TokenGuard(false, path) == RedirectLogin(path)
    ensures PageGuard(true, path) == RedirectHome
    ensures TokenGuard(true, path) == PassThrough
  {
    PagePublicPaths(path);
    TokenPublicPaths(path);
    assert path[1] == 'r';
  }

  /** The matcher keeps API routes, build assets and the icon away from the
      decision, and lets pages through. */
  lemma MatcherExamples()
    ensures !Matched("/api/upload/students")
    ensures !Matched("/_next/static/chunk.js")
    ensures !Matched("/_next/image")
    ensures !Matched("/favicon.ico")
    ensures Matched("/login")
    ensures Matched("/students")
  {
    assert StartsWith("api/upload/students", "api");
    assert StartsWith("_next/static/chunk.js", "_next/static");
    assert StartsWith("_next/image", "_next/image");
    var f := "favicon.ico";
    assert f[..7] == "favicon" && f[8..11] == "ico";
    var l := "login";
    assert !StartsWith(l, "api") by { assert l[0] != 'a'; }
    assert !StartsWith(l, "_next/static") && !StartsWith(l, "_next/image") by { assert l[0] != '_'; }
    var s := "students";
    assert !StartsWith(s, "api") by { assert s[0] != 'a'; }
    assert !StartsWith(s, "_next/static") && !StartsWith(s, "_next/image") by { assert s[0] != '_'; }
  }
}

=== FILE: sorting.dfy ===
/** Stable insertion sort under a comparator, standing for
    `Array.prototype.sort` (which is stable). `before(a, b)` holds when the
    comparator puts `a` strictly ahead of `b`; elements the comparator ties
    keep their input order. */
module Sorting {
  import opened Collections

  /** `before` is a strict order: asymmetric and transitive. */
  ghost predicate StrictOrder<T(!new)>(before: (T, T) -> bool) {
    && (forall a, b :: before(a, b) ==> !before(b, a))
    && (forall a, b, c :: before(a, b) && before(b, c) ==> before(a, c))
  }

  /** No element is put strictly ahead of one that precedes it. */
  ghost predicate Sorted<T>(s: seq<T>, before: (T, T) -> bool) {
    forall i, j :: 0 <= i < j < |s| ==> !before(s[j], s[i])
  }

  /** Puts `x` after every element it does not strictly precede. */
  function Insert<T>(x: T, s: seq<T>, before: (T, T) -> bool): (r: seq<T>)
    ensures multiset(r) == multiset(s) + multiset{x}
    ensures |r| == |s| + 1
    decreases |s|
  {
    if |s| == 0 then [x]
    else if before(x, s[0]) then [x] + s
    else
      assert s == [s[0]] + s[1..];
      [s[0]] + Insert(x, s[1..], before)
  }

  /** Inserts the elements one by one from the left, so later elements go
      after earlier ones they tie with. */
  function SortBy<T>(s: seq<T>, before: (T, T) -> bool): (r: seq<T>)
    ensures multiset(r) == multiset(s)
    ensures |r| == |s|
    decreases |s|
  {
    if |s| == 0 then []
    else
      assert s == s[..|s| - 1] + [s[|s| - 1]];
      Insert(s[|s| - 1], SortBy(s[..|s| - 1], before), before)
  }

  /** Sorting keeps exactly the elements it is given. */
  lemma SortByMembers<T>(s: seq<T>, before: (T, T) -> bool)
    ensures forall x :: x in SortBy(s, before) <==> x in s
  {
    var r := SortBy(s, before);
    forall x
      ensures x in r <==> x in s
    {
      assert x in r <==> x in multiset(r);
      assert x in s <==> x in multiset(s);
    }
  }

  lemma {:induction false} InsertSorted<T(!new)>(x: T, s: seq<T>, before: (T, T) -> bool)
    requires StrictOrder(before)
    requires Sorted(s, before)
    ensures Sorted(Insert(x, s, before), before)
    decreases |s|
  {
    if |s| > 0 && !before(x, s[0]) {
      var t := Insert(x, s[1..], before);
      InsertSorted(x, s[1..], before);
      forall j | 0 <= j < |t|
        ensures !before(t[j], s[0])
      {
        assert t[j] in multiset(t);
        assert t[j] == x || t[j] in s[1..];
      }
    }
  }

  /** Under a strict order the result is sorted. */
  lemma {:induction false} SortBySorted<T(!new)>(s: seq<T>, before: (T, T) -> bool)
    requires StrictOrder(before)
    ensures Sorted(SortBy(s, before), before)
    decreases |s|
  {
    if |s| > 0 {
      SortBySorted(s[..|s| - 1], before);
      InsertSorted(s[|s| - 1], SortBy(s[..|s| - 1], before), before);
    }
  }

  /** The comparator `(a, b) => key(b) - key(a)`: `a` goes strictly ahead
      of `b` when its key is higher. */
  function Desc<T>(key: T -> real): (T, T) -> bool {
    (a: T, b: T) => key(a) > key(b)
  }

  /** Descending by a numeric key: `sort((a, b) => key(b) - key(a))`. */
  function SortDesc<T>(s: seq<T>, key: T -> real): (r: seq<T>)
    ensures multiset(r) == multiset(s) && |r| == |s|
  {
    SortBy(s, Desc(key))
  }

  lemma SortDescSorted<T(!new)>(s: seq<T>, key: T -> real)
    ensures var r := SortDesc(s, key);
            forall i, j :: 0 <= i < j < |r| ==> key(r[i]) >= key(r[j])
  {
    SortBySorted(s, Desc(key));
  }

  lemma SortDescMembers<T>(s: seq<T>, key: T -> real)
    ensures forall x :: x in SortDesc(s, key) <==> x in s
  {
    SortByMembers(s, Desc(key));
  }

  /** `sort(...).slice(0, n)` by a numeric key: at most `n` elements, highest
      first, all taken from the input, and every element left out is no
      higher than the last one kept. */
  lemma SortDescTake<T(!new)>(s: seq<T>, key: T -> real, n: nat)
    requires n > 0
    ensures var r := Take(SortDesc(s, key), n);
            && (forall i, j :: 0 <= i < j < |r| ==> key(r[i]) >= key(r[j]))
            && (forall x :: x in r ==> x in s)
            && (forall x :: x in s ==> x in r || (|r| == n && key(x) <= key(r[n - 1])))
  {
    var t := SortDesc(s, key);
    var r := Take(t, n);
    SortDescSorted(s, key);
    SortDescMembers(s, key);
    forall x | x in s
      ensures x in r || (|r| == n && key(x) <= key(r[n - 1]))
    {
      var k :| 0 <= k < |t| && t[k] == x;
      if k < |r| {
        assert r[k] == x;
      } else {
        assert key(t[n - 1]) >= key(t[k]);
      }
    }
  }

  /** Sum of a natural-valued measure over a sequence. */
  function Total<T>(s: seq<T>, f: T -> nat): nat
    decreases |s|
  {
    if |s| == 0 then 0 else f(s[0]) + Total(s[1..], f)
  }

  lemma {:induction false} InsertTotal<T>(x: T, s: seq<T>, before: (T, T) -> bool, f: T -> nat)
    ensures Total(Insert(x, s, before), f) == f(x) + Total(s, f)
    decreases |s|
  {
    if |s| > 0 && !before(x, s[0]) {
      InsertTotal(x, s[1..], before, f);
      assert Insert(x, s, before)[1..] == Insert(x, s[1..], before);
    } else if |s| > 0 {
      assert Insert(x, s, before)[1..] == s;
    }
  }

  lemma TotalAppend<T>(a: seq<T>, b: seq<T>, f: T -> nat)
    ensures Total(a + b, f) == Total(a, f) + Total(b, f)
    decreases |a|
  {
    if |a| > 0 {
      assert (a + b)[1..] == a[1..] + b;
      TotalAppend(a[1..], b, f);
    } else {
      assert a + b == b;
    }
  }

  /** The last element of a non-empty sequence adds its measure last. */
  lemma TotalSnoc<T>(s: seq<T>, f: T -> nat)
    requires |s| > 0
    ensures Total(s, f) == Total(s[..|s| - 1], f) + f(s[|s| - 1])
  {
    var p, x := s[..|s| - 1], s[|s| - 1];
    assert s == p + [x];
    TotalAppend(p, [x], f);
    assert [x][1..] == [];
  }

  /** One step of the sort: the last element is inserted into the sorted
      prefix. */
  lemma SortByStep<T>(s: seq<T>, before: (T, T) -> bool)
    requires |s| > 0
    ensures SortBy(s, before) == Insert(s[|s| - 1], SortBy(s[..|s| - 1], before), before)
  {
  }

  /** Sorting does not change the total of any measure. */
  lemma {:induction false} SortByTotal<T>(s: seq<T>, before: (T, T) -> bool, f: T -> nat)
    ensures Total(SortBy(s, before), f) == Total(s, f)
    decreases |s|
  {
    if |s| > 0 {
      var p := s[..|s| - 1];
      var x := s[|s| - 1];
      SortByStep(s, before);
      InsertTotal(x, SortBy(p, before), before, f);
      SortByTotal(p, before, f);
      TotalSnoc(s, f);
    }
  }

  lemma SortDescTotal<T>(s: seq<T>, key: T -> real, f: T -> nat)
    ensures Total(SortDesc(s, key), f) == Total(s, f)
  {
    SortByTotal(s, Desc(key), f);
  }

  /** The element has the key value `t`. */
  function KeyIs<T>(key: T -> real, t: real): T -> bool {
    (x: T) => key(x) == t
  }

  /** Inserting into a sequence sorted by descending key puts the new
      element after every element with the same key. */
  lemma {:induction false} InsertKeepsTies<T(!new)>(x: T, s: seq<T>, key: T -> real, t: real)
    requires forall i, j :: 0 <= i < j < |s| ==> key(s[i]) >= key(s[j])
    ensures Filter(Insert(x, s, Desc(key)), KeyIs(key, t))
            == Filter(s, KeyIs(key, t)) + (if key(x) == t then [x] else [])
    decreases |s|
  {
    var q := KeyIs(key, t);
    var r := Insert(x, s, Desc(key));
    if |s| == 0 {
      assert r == [x] && r[1..] == [];
    } else if key(x) > key(s[0]) {
      assert r == [x] + s && r[1..] == s;
      if key(x) == t {
        forall y | y in s
          ensures !q(y)
        {
          var k :| 0 <= k < |s| && s[k] == y;
          assert key(s[0]) >= key(s[k]);
        }
        FilterNone(s, q);
      }
    } else {
      InsertKeepsTies(x, s[1..], key, t);
      assert r[0] == s[0] && r[1..] == Insert(x, s[1..], Desc(key));
    }
  }

  /** The sort is stable: the elements that share a key value come out in
      their input order. */
  lemma {:induction false} SortDescStable<T(!new)>(s: seq<T>, key: T -> real, t: real)
    ensures Filter(SortDesc(s, key), KeyIs(key, t)) == Filter(s, KeyIs(key, t))
    decreases |s|
  {
    if |s| > 0 {
      var p, x := s[..|s| - 1], s[|s| - 1];
      SortByStep(s, Desc(key));
      SortDescStable(p, key, t);
      SortDescSorted(p, key);
      InsertKeepsTies(x, SortDesc(p, key), key, t);
      FilterSnoc(s, KeyIs(key, t));
    }
  }
}

=== FILE: templates.dfy ===
/** The downloadable upload templates: the example tables, their column
    widths, file names and descriptions. The workbook writer is left out;
    a table is what it is given. */
module Templates {
  import opened Collections
  import opened Cells
  import opened Parser
  import opened Validator

  /** A template cell: text, or a whole number. */
  datatype TemplateCell = Word(text: string) | Whole(n: nat)

  /** How the cell reads back: text as text, a number as a number. */
  function AsCell(c: TemplateCell): Cell {
    match c
    case Word(t) => Str(t)
    case Whole(n) => Num(n as real)
  }

  function AsRow(row: seq<TemplateCell>): (r: seq<Cell>)
    ensures |r| == |row| && forall j :: 0 <= j < |row| ==> r[j] == AsCell(row[j])
  {
    seq(|row|, j requires 0 <= j < |row| => AsCell(row[j]))
  }

  function AsSheet(table: seq<seq<TemplateCell>>): (sheet: seq<seq<Cell>>)
    ensures |sheet| == |table| && forall i :: 0 <= i < |table| ==> sheet[i] == AsRow(table[i])
  {
    seq(|table|, i requires 0 <= i < |table| => AsRow(table[i]))
  }

  function Words(ws: seq<string>): (r: seq<TemplateCell>)
    ensures |r| == |ws| && forall j :: 0 <= j < |ws| ==> r[j] == Word(ws[j])
  {
    seq(|ws|, j requires 0 <= j < |ws| => Word(ws[j]))
  }

  /** `STUDENT_TEMPLATE`, `GRADE_TEMPLATE`, `GOAL_TEMPLATE`: a header row
      and example rows. */
  function Template(kind: Kind): seq<seq<TemplateCell>> {
    match kind
    case Students => StudentTemplate()
    case Grades => GradeTemplate()
    case Goals => GoalTemplate()
  }

  function StudentTemplate(): seq<seq<TemplateCell>> {
    [
      Words(["이름", "학년", "반", "연락처", "부모연락처", "주소"]),
      [Word("김철수"), Whole(3), Whole(1), Word("010-1234-5678"), Word("010-9876-5432"), Word("서울시 강남구 테헤란로 123")],
      [Word("이영희"), Whole(2), Whole(2), Word("010-2345-6789"), Word("010-8765-4321"), Word("서울시 서초구 서초대로 456")],
      [Word("박민수"), Whole(1), Whole(1), Word("010-3456-7890"), Word("010-7654-3210"), Word("경기도 성남시 분당구 판교역로 789")]
    ]
  }

  function GradeTemplate(): seq<seq<TemplateCell>> {
    [
      Words(["학생명", "과목", "학기", "시험종류", "점수", "시험일자"]),
      [Word("김철수"), Word("수학"), Word("2025-1학기"), Word("중간고사"), Whole(85), Word("2025-05-15")],
      [Word("김철수"), Word("영어"), Word("2025-1학기"), Word("중간고사"), Whole(90), Word("2025-05-15")],
      [Word("김철수"), Word("국어"), Word("2025-1학기"), Word("중간고사"), Whole(88), Word("2025-05-15")],
      [Word("이영희"), Word("수학"), Word("2025-1학기"), Word("중간고사"), Whole(92), Word("2025-05-15")],
      [Word("이영희"), Word("영어"), Word("2025-1학기"), Word("중간고사"), Whole(87), Word("2025-05-15")],
      [Word("박민수"), Word("과학"), Word("2025-1학기"), Word("중간고사"), Whole(78), Word("2025-05-15")]
    ]
  }

  function GoalTemplate(): seq<seq<TemplateCell>> {
    [
      Words(["학생명", "목표제목", "현재점수", "목표점수", "마감일"]),
      [Word("김철수"), Word("수학 성적 90점 달성"), Whole(75), Whole(90), Word("2025-06-30")],
      [Word("이영희"), Word("영어 성적 95점 이상 유지"), Whole(87), Whole(95), Word("2025-07-15")],
      [Word("박민수"), Word("과학 성적 80점 이상"), Whole(65), Whole(80), Word("2025-08-31")]
    ]
  }

  /** Every example row has exactly one cell per header. */
  lemma RowsMatchHeaderWidth(kind: Kind)
    ensures forall i :: 0 <= i < |Template(kind)| ==> |Template(kind)[i]| == |Template(kind)[0]|
  {
  }

  // Column widths.

  /** Number of decimal digits of `n`, the length of `String(n)`. */
  function Digits(n: nat): (d: nat)
    ensures d >= 1
  {
    if n < 10 then 1 else 1 + Digits(n / 10)
  }

  /** `cell ? String(cell).length : 0`; a missing cell counts as 0. */
  function CellLength(row: seq<TemplateCell>, col: nat): nat {
    if col >= |row| then 0
    else match row[col]
      case Word(t) => JsLength(t)
      case Whole(n) => if n == 0 then 0 else Digits(n)
  }

  /** `Math.max(...)` of the cell lengths in column `col`. */
  function LongestInColumn(table: seq<seq<TemplateCell>>, col: nat): (m: nat)
    ensures forall i :: 0 <= i < |table| ==> CellLength(table[i], col) <= m
    ensures |table| == 0 ==> m == 0
    ensures |table| > 0 ==> exists i :: 0 <= i < |table| && CellLength(table[i], col) == m
    decreases |table|
  {
    if |table| == 0 then 0
    else
      var rest := LongestInColumn(table[1..], col);
      assert forall i :: 1 <= i < |table| ==> table[i] == table[1..][i - 1];
      var here := CellLength(table[0], col);
      if here >= rest then here else rest
  }

  /** The column widths set on the sheet: one per header cell, the longest
      cell of the column plus 2, and never below 10. */
  function ColumnWidths(table: seq<seq<TemplateCell>>): (ws: seq<nat>)
    requires |table| > 0
    ensures |ws| == |table[0]|
    ensures forall c :: 0 <= c < |ws| ==> ws[c] >= 10
    ensures forall c, i :: 0 <= c < |ws| && 0 <= i < |table| ==> ws[c] >= CellLength(table[i], c) + 2
    ensures forall c :: 0 <= c < |ws| && ws[c] > 10 ==>
              exists i :: 0 <= i < |table| && ws[c] == CellLength(table[i], c) + 2
  {
    seq(|table[0]|, c requires 0 <= c < |table[0]| =>
      var longest := LongestInColumn(table, c);
      if longest + 2 >= 10 then longest + 2 else 10)
  }

  // Uploading a template.

  /** What each column of a filled-in row must hold for the row to pass both
      the row checks and the type's schema, stated on the template cells. */
  predicate ColumnsFit(kind: Kind, row: seq<TemplateCell>) {
    match kind
    case Students =>
      && |row| == 6
      && row[0].Word? && 1 <= JsLength(row[0].text) <= 50
      && row[1].Whole? && 1 <= row[1].n <= 12
      && row[2].Whole? && 1 <= row[2].n <= 20
      && row[3].Word? && PhonePattern(row[3].text)
      && row[4].Word? && PhonePattern(row[4].text)
      && row[5].Word? && JsLength(row[5].text) <= 200
    case Grades =>
      && |row| == 6
      && row[0].Word? && row[0].text != ""
      && row[1].Word? && 1 <= JsLength(row[1].text) <= 50
      && row[2].Word? && row[2].text != ""
      && row[3].Word? && row[3].text in ExamTypes
      && row[4].Whole? && row[4].n <= 100
      && row[5].Word? && row[5].text != ""
    case Goals =>
      && |row| == 5
      && row[0].Word? && row[0].text != ""
      && row[1].Word? && 1 <= JsLength(row[1].text) <= 100
      && row[2].Whole? && row[2].n <= 100
      && row[3].Whole? && row[3].n <= 100
      && row[4].Word? && row[4].text != ""
  }

  /** The header row a mapping table calls for: its localized names. */
  function HeaderRow(mapping: seq<(string, string)>): (hs: seq<Cell>)
    ensures |hs| == |mapping| && forall i :: 0 <= i < |mapping| ==> hs[i] == Str(mapping[i].0)
  {
    seq(|mapping|, i requires 0 <= i < |mapping| => Str(mapping[i].0))
  }

  /** The localized names of a mapping table are distinct and non-empty. */
  predicate GoodHeaders(mapping: seq<(string, string)>) {
    && (forall i, j :: 0 <= i < j < |mapping| ==> mapping[i].0 != mapping[j].0)
    && (forall i :: 0 <= i < |mapping| ==> mapping[i].0 != "")
  }

  /** Under distinct non-empty headers, each header's key holds the cell in
      its column. */
  lemma ObjectCell(mapping: seq<(string, string)>, row: seq<Cell>, i: nat)
    requires GoodHeaders(mapping) && i < |mapping|
    ensures Lookup(BuildObject(HeaderRow(mapping), row), mapping[i].0) == Some(CellAt(row, i))
  {
    var headers := HeaderRow(mapping);
    var h := headers[i];
    assert h == Str(mapping[i].0) && Truthy(h);
    assert h in headers;
    var last := LastIndex(headers, h);
    assert last == i;
  }

  /** The record built from a row under a header that lists a mapping's
      localized names: each canonical field holds the cell of its column. */
  lemma RecordCell(mapping: seq<(string, string)>, row: seq<Cell>, i: nat)
    requires GoodHeaders(mapping) && Distinct(Canonical(mapping))
    requires i < |mapping| && i < |row| && row[i] != Null
    ensures Get(MapRow(BuildObject(HeaderRow(mapping), row), mapping), mapping[i].1) == Some(row[i])
  {
    var obj := BuildObject(HeaderRow(mapping), row);
    ObjectCell(mapping, row, i);
    assert Defined(obj, mapping[i].0);
    MapRowSpec(obj, mapping);
  }

  /** Each template's header row is the localized names of the same type's
      mapping table, in the same order, and those names are distinct and
      non-empty. */
  lemma HeaderKeys(kind: Kind)
    ensures GoodHeaders(ColumnMapping(kind))
    ensures AsRow(Template(kind)[0]) == HeaderRow(ColumnMapping(kind))
  {
    match kind
    case Students => StudentHeaderKeys();
    case Grades => GradeHeaderKeys();
    case Goals => GoalHeaderKeys();
  }

  lemma StudentHeaderKeys()
    ensures GoodHeaders(ColumnMapping(Students))
    ensures AsRow(StudentTemplate()[0]) == HeaderRow(ColumnMapping(Students))
  {
    assert StudentTemplate()[0] == Words(["이름", "학년", "반", "연락처", "부모연락처", "주소"]);
  }

  lemma GradeHeaderKeys()
    ensures GoodHeaders(ColumnMapping(Grades))
    ensures AsRow(GradeTemplate()[0]) == HeaderRow(ColumnMapping(Grades))
  {
    assert GradeTemplate()[0] == Words(["학생명", "과목", "학기", "시험종류", "점수", "시험일자"]);
  }

  lemma GoalHeaderKeys()
    ensures GoodHeaders(ColumnMapping(Goals))
    ensures AsRow(GoalTemplate()[0]) == HeaderRow(ColumnMapping(Goals))
  {
    assert GoalTemplate()[0] == Words(["학생명", "목표제목", "현재점수", "목표점수", "마감일"]);
  }

  /** Under a mapping table's header row, every column's cell is found both
      under its localized name and under its canonical field. */
  lemma ColumnValues(mapping: seq<(string, string)>, row: seq<Cell>)
    requires GoodHeaders(mapping) && Distinct(Canonical(mapping))
    requires |row| == |mapping| && forall i :: 0 <= i < |row| ==> row[i] != Null
    ensures forall i :: 0 <= i < |mapping| ==>
              && Lookup(BuildObject(HeaderRow(mapping), row), mapping[i].0) == Some(row[i])
              && Get(MapRow(BuildObject(HeaderRow(mapping), row), mapping), mapping[i].1) == Some(row[i])
  {
    forall i | 0 <= i < |mapping|
      ensures Lookup(BuildObject(HeaderRow(mapping), row), mapping[i].0) == Some(row[i])
      ensures Get(MapRow(BuildObject(HeaderRow(mapping), row), mapping), mapping[i].1) == Some(row[i])
    {
      ObjectCell(mapping, row, i);
      RecordCell(mapping, row, i);
    }
  }

  /** A row whose columns fit passes the row checks and its schema, once
      it sits under the template's header. */
  lemma FittingRowAccepted(kind: Kind, row: seq<TemplateCell>)
    requires ColumnsFit(kind, row)
    ensures Acceptable(BuildObject(AsRow(Template(kind)[0]), AsRow(row)), kind)
    ensures ValidFor(kind, MapRow(BuildObject(AsRow(Template(kind)[0]), AsRow(row)), ColumnMapping(kind)))
  {
    HeaderKeys(kind);
    FittingRowOf(kind, row);
  }

  /** `FittingRowAccepted` for one kind, with its header row resolved. */
  lemma FittingRowOf(kind: Kind, row: seq<TemplateCell>)
    requires ColumnsFit(kind, row)
    ensures Acceptable(BuildObject(HeaderRow(ColumnMapping(kind)), AsRow(row)), kind)
    ensures ValidFor(kind, MapRow(BuildObject(HeaderRow(ColumnMapping(kind)), AsRow(row)), ColumnMapping(kind)))
  {
    match kind
    case Students => StudentRowOf(row);
    case Grades => GradeRowOf(row);
    case Goals => GoalRowOf(row);
  }

  lemma StudentRowOf(row: seq<TemplateCell>)
    requires ColumnsFit(Students, row)
    ensures Acceptable(BuildObject(HeaderRow(ColumnMapping(Students)), AsRow(row)), Students)
    ensures ValidFor(Students, MapRow(BuildObject(HeaderRow(ColumnMapping(Students)), AsRow(row)), ColumnMapping(Students)))
  {
    StudentHeaderKeys();
    MappingsDistinct(Students);
    ColumnValues(ColumnMapping(Students), AsRow(row));
    FittingStudentAccepted(row);
  }

  lemma GradeRowOf(row: seq<TemplateCell>)
    requires ColumnsFit(Grades, row)
    ensures Acceptable(BuildObject(HeaderRow(ColumnMapping(Grades)), AsRow(row)), Grades)
    ensures ValidFor(Grades, MapRow(BuildObject(HeaderRow(ColumnMapping(Grades)), AsRow(row)), ColumnMapping(Grades)))
  {
    GradeHeaderKeys();
    MappingsDistinct(Grades);
    ColumnValues(ColumnMapping(Grades), AsRow(row));
    FittingGradeAccepted(row);
  }

  lemma GoalRowOf(row: seq<TemplateCell>)
    requires ColumnsFit(Goals, row)
    ensures Acceptable(BuildObject(HeaderRow(ColumnMapping(Goals)), AsRow(row)), Goals)
    ensures ValidFor(Goals, MapRow(BuildObject(HeaderRow(ColumnMapping(Goals)), AsRow(row)), ColumnMapping(Goals)))
  {
    GoalHeaderKeys();
    MappingsDistinct(Goals);
    ColumnValues(ColumnMapping(Goals), AsRow(row));
    FittingGoalAccepted(row);
  }

  lemma FittingStudentAccepted(row: seq<TemplateCell>)
    requires ColumnsFit(Students, row)
    requires var mapping := ColumnMapping(Students);
             forall i :: 0 <= i < |mapping| ==>
               && Lookup(BuildObject(HeaderRow(mapping), AsRow(row)), mapping[i].0) == Some(AsRow(row)[i])
               && Get(MapRow(BuildObject(HeaderRow(mapping), AsRow(row)), mapping), mapping[i].1) == Some(AsRow(row)[i])
    ensures var obj := BuildObject(HeaderRow(ColumnMapping(Students)), AsRow(row));
            Acceptable(obj, Students) && ValidStudent(MapRow(obj, ColumnMapping(Students)))
  {
    var mapping := ColumnMapping(Students);
    var cells := AsRow(row);
    var obj := BuildObject(HeaderRow(mapping), cells);
    var rec := MapRow(obj, mapping);
    assert mapping[0] == ("이름", "name") && mapping[1] == ("학년", "grade");
    assert mapping[2].1 == "class" && mapping[3].1 == "phone";
    assert mapping[4].1 == "parentPhone" && mapping[5].1 == "address";
    assert Acceptable(obj, Students);
    assert TextWithin(Get(rec, "name"), 1, 50);
    assert IntegerWithin(Get(rec, "grade"), 1.0, 12.0) by {
      assert (row[1].n as real).Floor == row[1].n;
    }
    assert IntegerWithin(Get(rec, "class"), 1.0, 20.0) by {
      assert (row[2].n as real).Floor == row[2].n;
    }
    assert Get(rec, "phone").value.Str? && PhonePattern(Get(rec, "phone").value.text);
    assert Get(rec, "parentPhone").value.Str? && PhonePattern(Get(rec, "parentPhone").value.text);
    assert TextWithin(Get(rec, "address"), 0, 200);
  }

  lemma FittingGradeAccepted(row: seq<TemplateCell>)
    requires ColumnsFit(Grades, row)
    requires var mapping := ColumnMapping(Grades);
             forall i :: 0 <= i < |mapping| ==>
               && Lookup(BuildObject(HeaderRow(mapping), AsRow(row)), mapping[i].0) == Some(AsRow(row)[i])
               && Get(MapRow(BuildObject(HeaderRow(mapping), AsRow(row)), mapping), mapping[i].1) == Some(AsRow(row)[i])
    ensures var obj := BuildObject(HeaderRow(ColumnMapping(Grades)), AsRow(row));
            Acceptable(obj, Grades) && ValidGrade(MapRow(obj, ColumnMapping(Grades)))
  {
    var mapping := ColumnMapping(Grades);
    assert mapping[0] == ("학생명", "studentName") && mapping[1] == ("과목", "subject");
    assert mapping[2].1 == "semester" && mapping[3].1 == "examType";
    assert mapping[4] == ("점수", "score") && mapping[5].1 == "examDate";
  }

  lemma FittingGoalAccepted(row: seq<TemplateCell>)
    requires ColumnsFit(Goals, row)
    requires var mapping := ColumnMapping(Goals);
             forall i :: 0 <= i < |mapping| ==>
               && Lookup(BuildObject(HeaderRow(mapping), AsRow(row)), mapping[i].0) == Some(AsRow(row)[i])
               && Get(MapRow(BuildObject(HeaderRow(mapping), AsRow(row)), mapping), mapping[i].1) == Some(AsRow(row)[i])
    ensures var obj := BuildObject(HeaderRow(ColumnMapping(Goals)), AsRow(row));
            Acceptable(obj, Goals) && ValidGoal(MapRow(obj, ColumnMapping(Goals)))
  {
    var mapping := ColumnMapping(Goals);
    assert mapping[0] == ("학생명", "studentName") && mapping[1] == ("목표제목", "title");
    assert mapping[2].1 == "currentScore" && mapping[3] == ("목표점수", "targetScore");
    assert mapping[4].1 == "deadline";
  }

  /** Every example row of every template fits its columns. */
  lemma ExamplesFit(kind: Kind)
    ensures forall j :: 1 <= j < |Template(kind)| ==> ColumnsFit(kind, Template(kind)[j])
  {
    var t := Template(kind);
    forall j | 1 <= j < |t|
      ensures ColumnsFit(kind, t[j])
    {
      ExampleFits(kind, j);
    }
  }

  lemma ExampleFits(kind: Kind, j: nat)
    requires 1 <= j < |Template(kind)|
    ensures ColumnsFit(kind, Template(kind)[j])
  {
    match kind
    case Students => StudentExamplesFit(j);
    case Grades => GradeExamplesFit(j);
    case Goals => GoalExamplesFit(j);
  }

  lemma StudentTemplateLength()
    ensures |Template(Students)| == 4
  {
  }

  lemma StudentExamplesFit(j: nat)
    requires 1 <= j < |Template(Students)|
    ensures ColumnsFit(Students, Template(Students)[j])
  {
    StudentTemplateLength();
    if j == 1 {
      StudentExampleFits1(j);
    } else if j == 2 {
      StudentExampleFits2(j);
    } else {
      StudentExampleFits3(j);
    }
  }

  /** A student row fits its columns when its texts are short enough and its
      phone numbers have the pattern. */
  lemma StudentRowFits(name: string, grade: nat, room: nat, phone: string, parentPhone: string, address: string)
    requires 1 <= |name| <= 25 && 1 <= grade <= 12 && 1 <= room <= 20
    requires PhonePattern(phone) && PhonePattern(parentPhone) && |address| <= 100
    ensures ColumnsFit(Students, [Word(name), Whole(grade), Whole(room), Word(phone), Word(parentPhone), Word(address)])
  {}

  lemma StudentExampleFits1(j: nat)
    requires j == 1
    ensures ColumnsFit(Students, Template(Students)[j])
  {
    StudentRowFits("김철수", 3, 1, "010-1234-5678", "010-9876-5432", "서울시 강남구 테헤란로 123");
  }

  lemma StudentExampleFits2(j: nat)
    requires j == 2
    ensures ColumnsFit(Students, Template(Students)[j])
  {
    StudentRowFits("이영희", 2, 2, "010-2345-6789", "010-8765-4321", "서울시 서초구 서초대로 456");
  }

  lemma StudentExampleFits3(j: nat)
    requires j == 3
    ensures ColumnsFit(Students, Template(Students)[j])
  {
    StudentRowFits("박민수", 1, 1, "010-3456-7890", "010-7654-3210", "경기도 성남시 분당구 판교역로 789");
  }

  lemma GradeExamplesFit(j: nat)
    requires 1 <= j < |Template(Grades)|
    ensures ColumnsFit(Grades, Template(Grades)[j])
  {
    assert "중간고사" in ExamTypes;
  }

  lemma GoalExamplesFit(j: nat)
    requires 1 <= j < |Template(Goals)|
    ensures ColumnsFit(Goals, Template(Goals)[j])
  {
  }

  /** A fitting row starts with a non-empty text cell. */
  lemma FitStartsWithText(kind: Kind, row: seq<TemplateCell>)
    requires ColumnsFit(kind, row)
    ensures |row| > 0 && row[0].Word? && row[0].text != ""
  {}

  /** In a table whose rows below the first each start with a non-empty text,
      every such row survives the blank-row filter, in order. */
  lemma TextLedRowsSurvive(t: seq<seq<TemplateCell>>)
    requires |t| > 0
    requires forall j :: 1 <= j < |t| ==> |t[j]| > 0 && t[j][0].Word? && t[j][0].text != ""
    ensures var sheet := AsSheet(t);
            && |SurvivingRows(sheet)| == |t| - 1
            && forall k :: 0 <= k < |SurvivingRows(sheet)| ==>
                 SurvivingRows(sheet)[k] == BuildObject(AsRow(t[0]), AsRow(t[k + 1]))
  {
    var sheet := AsSheet(t);
    forall j | 1 <= j < |sheet|
      ensures NonBlank(sheet[j])
    {
      assert Filled(sheet[j][0]);
    }
    FilterLength(sheet[1..], NonBlank);
    assert NonBlankRows(sheet) == sheet[1..];
  }

  /** Every example row survives the blank-row filter, in order. */
  lemma ExampleRowsSurvive(kind: Kind)
    ensures var sheet := AsSheet(Template(kind));
            && |SurvivingRows(sheet)| == |Template(kind)| - 1
            && forall k :: 0 <= k < |SurvivingRows(sheet)| ==>
                 SurvivingRows(sheet)[k] == BuildObject(AsRow(Template(kind)[0]), AsRow(Template(kind)[k + 1]))
  {
    var t: seq<seq<TemplateCell>> := Template(kind);
    ExamplesFit(kind);
    forall j | 1 <= j < |t|
      ensures |t[j]| > 0 && t[j][0].Word? && t[j][0].text != ""
    {
      FitStartsWithText(kind, t[j]);
    }
    TextLedRowsSurvive(t);
  }

  /** In a table headed by a mapping's localized names whose other rows
      fit their columns, every row survives and passes the per-row checks. */
  lemma FittingTableAccepted(kind: Kind, t: seq<seq<TemplateCell>>)
    requires |t| > 0 && AsRow(t[0]) == HeaderRow(ColumnMapping(kind))
    requires forall j :: 1 <= j < |t| ==> ColumnsFit(kind, t[j])
    ensures var rows := SurvivingRows(AsSheet(t));
            && |rows| == |t| - 1
            && forall k :: 0 <= k < |rows| ==> Acceptable(rows[k], kind)
  {
    forall j | 1 <= j < |t|
      ensures |t[j]| > 0 && t[j][0].Word? && t[j][0].text != ""
    {
      FitStartsWithText(kind, t[j]);
    }
    TextLedRowsSurvive(t);
    var rows := SurvivingRows(AsSheet(t));
    forall k | 0 <= k < |rows|
      ensures Acceptable(rows[k], kind)
    {
      FittingRowOf(kind, t[k + 1]);
    }
  }

  /** In such a table, every surviving row satisfies its type's schema after
      column mapping. */
  lemma FittingTableValid(kind: Kind, t: seq<seq<TemplateCell>>)
    requires |t| > 0 && AsRow(t[0]) == HeaderRow(ColumnMapping(kind))
    requires forall j :: 1 <= j < |t| ==> ColumnsFit(kind, t[j])
    ensures forall r :: r in MapExcelData(SurvivingRows(AsSheet(t)), kind) ==> ValidFor(kind, r)
  {
    forall j | 1 <= j < |t|
      ensures |t[j]| > 0 && t[j][0].Word? && t[j][0].text != ""
    {
      FitStartsWithText(kind, t[j]);
    }
    TextLedRowsSurvive(t);
    var rows := SurvivingRows(AsSheet(t));
    var mapped := MapExcelData(rows, kind);
    forall k | 0 <= k < |mapped|
      ensures ValidFor(kind, mapped[k])
    {
      MapExcelDataAt(rows, kind, k);
      FittingRowOf(kind, t[k + 1]);
    }
  }

  /** Every example row survives the blank-row filter, passes the per-row
      checks, and after column mapping satisfies its type's schema: a
      template filled in as shipped uploads without errors. */
  lemma TemplateUploadsCleanly(kind: Kind)
    ensures var sheet := AsSheet(Template(kind));
            && ParseSheet(sheet, kind).errors == []
            && |SurvivingRows(sheet)| == |Template(kind)| - 1
            && forall r :: r in MapExcelData(SurvivingRows(sheet), kind) ==> ValidFor(kind, r)
  {
    ExamplesFit(kind);
    HeaderKeys(kind);
    FittingTableUploads(kind, Template(kind));
  }

  /** Any table headed by a mapping's localized names whose other rows fit
      their columns parses with no errors, keeps every row, and maps each to
      a record its type's schema accepts. */
  lemma FittingTableUploads(kind: Kind, t: seq<seq<TemplateCell>>)
    requires |t| > 0 && AsRow(t[0]) == HeaderRow(ColumnMapping(kind))
    requires forall j :: 1 <= j < |t| ==> ColumnsFit(kind, t[j])
    ensures var sheet := AsSheet(t);
            && ParseSheet(sheet, kind).errors == []
            && |SurvivingRows(sheet)| == |t| - 1
            && forall r :: r in MapExcelData(SurvivingRows(sheet), kind) ==> ValidFor(kind, r)
  {
    FittingTableAccepted(kind, t);
    NoParseErrors(AsSheet(t), kind);
    FittingTableValid(kind, t);
  }

  // File names and descriptions.

  /** `getTemplateFileName`. */
  function GetTemplateFileName(kind: Kind): (name: string)
    ensures kind == Students ==> name == "학생정보_템플릿.xlsx"
    ensures kind == Grades ==> name == "성적정보_템플릿.xlsx"
    ensures kind == Goals ==> name == "목표정보_템플릿.xlsx"
  {
    match kind
    case Students => "학생정보_템플릿.xlsx"
    case Grades => "성적정보_템플릿.xlsx"
    case Goals => "목표정보_템플릿.xlsx"
  }

  /** The three file names differ and all end in `.xlsx`. */
  lemma FileNamesDistinct(a: Kind, b: Kind)
    ensures GetTemplateFileName(a) == GetTemplateFileName(b) <==> a == b
    ensures |GetTemplateFileName(a)| >= 5 && GetTemplateFileName(a)[|GetTemplateFileName(a)| - 5..] == ".xlsx"
  {
  }

  /** `getTemplateDescription`. */
  function GetTemplateDescription(kind: Kind): string {
    match kind
    case Students => "학생의 기본 정보를 입력하는 템플릿입니다. 이름과 학년은 필수 항목입니다."
    case Grades => "학생의 성적 정보를 입력하는 템플릿입니다. 학생명, 과목, 점수는 필수 항목입니다."
    case Goals => "학생의 학습 목표를 입력하는 템플릿입니다. 학생명, 목표제목, 목표점수는 필수 항목입니다."
  }

  /** `TEMPLATE_TYPES`. */
  const TemplateTypes: seq<Kind> := [Students, Grades, Goals]

  datatype TemplateInfo = TemplateInfo(kind: Kind, name: string, description: string, fileName: string)

  /** The display name chosen by the nested conditional. */
  function DisplayName(kind: Kind): string {
    if kind == Students then "학생 정보" else if kind == Grades then "성적 정보" else "목표 정보"
  }

  /** `getAllTemplateInfo`: one entry per template type, in the order
      students, grades, goals, each agreeing with the per-type functions. */
  function GetAllTemplateInfo(): (infos: seq<TemplateInfo>)
    ensures |infos| == 3
    ensures infos[0].kind == Students && infos[1].kind == Grades && infos[2].kind == Goals
    ensures forall i :: 0 <= i < 3 ==>
              && infos[i].fileName == GetTemplateFileName(infos[i].kind)
              && infos[i].description == GetTemplateDescription(infos[i].kind)
              && infos[i].name == DisplayName(infos[i].kind)
  {
    seq(|TemplateTypes|, i requires 0 <= i < |TemplateTypes| =>
      var k := TemplateTypes[i];
      TemplateInfo(k, DisplayName(k), GetTemplateDescription(k), GetTemplateFileName(k)))
  }

}

=== FILE: upload.dfy ===
/** The three upload handlers (`POST /api/upload/students`, `/grades`,
    `/goals`) as a decision ladder: no file, parse failure, preview of
    invalid rows, unknown students, and finally one all-or-nothing
    transaction. The workbook codec and the database are parameters: a
    decoded sheet or `None` for a file the codec rejects, and the stored
    students together with the faults the two queries may throw. */
module Upload {
  import opened Collections
  import opened Cells
  import opened Parser
  import opened Validator
  import opened Mapper

  /** What `formData.get('file')` yields: nothing, a text field, or a file
      that the codec decodes to a sheet or rejects. */
  datatype FormValue = NotSent | Text(value: string) | Spreadsheet(sheet: Option<seq<seq<Cell>>>)

  /** A thrown value: an `Error` with its message, or anything else. */
  datatype Fault = Thrown(message: string) | NonError

  /** The request body: a form, or a body `formData()` throws on. */
  datatype Body = Form(file: FormValue) | Unreadable(fault: Fault)

  /** The stored students, and the faults the name lookup and the insert
      transaction throw, if any. */
  datatype Database = Database(students: seq<StoredStudent>, lookupFault: Option<Fault>, commitFault: Option<Fault>)

  /** The handler's response, by kind. The routes answer `NoFile`,
      `ParseFailed` and `MissingStudents` with status 400, `Preview` and
      `Persisted` with 200, and `ServerError` with 500. */
  datatype Outcome<V, R> =
    | NoFile
    | ParseFailed(errors: seq<ParseError>)
    | Preview(valid: seq<V>, invalid: seq<InvalidRow>, totalRows: nat, validRows: nat)
    | MissingStudents(names: seq<string>)
    | Persisted(created: nat, total: nat, validRows: nat, records: seq<R>)
    | ServerError(message: string)

  /** The records written to the database: all of them in one transaction,
      or none. Only a `Persisted` response carries records, so every "writes
      nothing" clause below holds by this definition; what those clauses
      add is which response kind is reached. */
  function Inserted<V, R>(o: Outcome<V, R>): seq<R> {
    if o.Persisted? then o.records else []
  }

  /** The message `parseExcelFile` throws with when the file cannot be read. */
  const ParseFailureMessage := "엑셀 파일 파싱 중 오류가 발생했습니다"

  /** The `catch` of the handler: an `Error`'s message, a fixed text otherwise. */
  function FaultMessage(f: Fault): (m: string)
    ensures f.Thrown? ==> m == f.message
    ensures f.NonError? ==> m == "업로드 처리 중 오류가 발생했습니다"
  {
    match f
    case Thrown(msg) => msg
    case NonError => "업로드 처리 중 오류가 발생했습니다"
  }

  /** A file the codec decoded. */
  predicate Decoded(body: Body) {
    body.Form? && body.file.Spreadsheet? && body.file.sheet.Some?
  }

  /** The stages the three handlers share: either a response, or the
      validated records with the number of surviving rows. */
  datatype Stage<V, R> = Stop(outcome: Outcome<V, R>) | Validated(valid: seq<V>, totalRows: nat)

  /** Steps 0 to 3 of every handler: read the file, parse, map the columns,
      validate. `!file` is true for a missing field and an empty text; any
      other text, and a file the codec rejects, makes `parseExcelFile`
      throw. */
  function Intake<V, R>(body: Body, kind: Kind, schema: Record -> SchemaResult<V>): (r: Stage<V, R>)
    ensures body.Unreadable? ==> r == Stop(ServerError(FaultMessage(body.fault)))
    ensures body == Form(NotSent) || body == Form(Text("")) ==> r == Stop(NoFile)
    ensures body.Form? && body.file.Text? && body.file.value != "" ==> r == Stop(ServerError(ParseFailureMessage))
    ensures body == Form(Spreadsheet(None)) ==> r == Stop(ServerError(ParseFailureMessage))
    ensures r == Stop(NoFile) || r.Validated? || r.outcome.ParseFailed? || r.outcome.Preview? || r.outcome.ServerError?
  {
    match body
    case Unreadable(f) => Stop(ServerError(FaultMessage(f)))
    case Form(NotSent) => Stop(NoFile)
    case Form(Text(t)) => if t == "" then Stop(NoFile) else Stop(ServerError(ParseFailureMessage))
    case Form(Spreadsheet(None)) => Stop(ServerError(ParseFailureMessage))
    case Form(Spreadsheet(Some(sheet))) =>
      var pr := ParseSheet(sheet, kind);
      if |pr.errors| > 0 then Stop(ParseFailed(pr.errors))
      else
        var vr := ValidateData(MapExcelData(pr.data, kind), schema);
        if |vr.invalid| > 0 then Stop(Preview(vr.valid, vr.invalid, pr.totalRows, |vr.valid|))
        else Validated(vr.valid, pr.totalRows)
  }

  /** The surviving rows of a decoded sheet after column mapping. */
  function MappedRows(sheet: seq<seq<Cell>>, kind: Kind): seq<Record> {
    MapExcelData(SurvivingRows(sheet), kind)
  }

  /** A parse failure lists at least one error, each naming a surviving row
      that fails the per-row checks by its number; validation is not
      reached. */
  lemma IntakeParseFailed<V, R>(body: Body, kind: Kind, schema: Record -> SchemaResult<V>)
    requires Decoded(body)
    ensures var sheet := body.file.sheet.value;
            var r: Stage<V, R> := Intake(body, kind, schema);
            && (r.Stop? && r.outcome.ParseFailed? <==>
                exists k :: 0 <= k < |SurvivingRows(sheet)| && !Acceptable(SurvivingRows(sheet)[k], kind))
            && (r.Stop? && r.outcome.ParseFailed? ==>
                |r.outcome.errors| > 0 &&
                forall e :: e in r.outcome.errors ==>
                  2 <= e.row < |SurvivingRows(sheet)| + 2 && !Acceptable(SurvivingRows(sheet)[e.row - 2], kind))
  {
    var sheet := body.file.sheet.value;
    var errors := ParseSheet(sheet, kind).errors;
    IntakeStopsOnParseErrors<V, R>(body, kind, schema);
    NoParseErrors(sheet, kind);
    assert errors != [] ==> errors[0] in errors;
  }

  /** On a decoded sheet the intake stops with a parse failure exactly when
      the parser reported errors, and then with those errors. */
  lemma IntakeStopsOnParseErrors<V, R>(body: Body, kind: Kind, schema: Record -> SchemaResult<V>)
    requires Decoded(body)
    ensures var errors := ParseSheet(body.file.sheet.value, kind).errors;
            var r: Stage<V, R> := Intake(body, kind, schema);
            && (r.Stop? && r.outcome.ParseFailed? <==> errors != [])
            && (r.Stop? && r.outcome.ParseFailed? ==> r.outcome.errors == errors)
  {
    var sheet := body.file.sheet.value;
    var pr := ParseSheet(sheet, kind);
    var r: Stage<V, R> := Intake(body, kind, schema);
    assert body == Form(Spreadsheet(Some(sheet)));
    if |pr.errors| > 0 {
      assert r == Stop(ParseFailed(pr.errors));
    } else {
      assert r.Validated? || r.outcome.Preview?;
    }
  }

  /** Once the parser found no error, every surviving row reaches validation
      and keeps its position, so a preview numbers each invalid row exactly
      as the parser numbers the same surviving row (`index + 2`), and the
      preview's counts add up to the surviving rows. */
  lemma IntakePreviewNumbering<V, R>(body: Body, kind: Kind, schema: Record -> SchemaResult<V>)
    requires Decoded(body)
    ensures var sheet := body.file.sheet.value;
            var r: Stage<V, R> := Intake(body, kind, schema);
            r.Stop? && r.outcome.Preview? ==>
              && |r.outcome.invalid| > 0
              && r.outcome.validRows == |r.outcome.valid|
              && r.outcome.totalRows == |SurvivingRows(sheet)| == |r.outcome.valid| + |r.outcome.invalid|
              && forall e :: e in r.outcome.invalid ==>
                   && 2 <= e.row < r.outcome.totalRows + 2
                   && e.data == MappedRows(sheet, kind)[e.row - 2]
                   && Acceptable(SurvivingRows(sheet)[e.row - 2], kind)
                   && schema(e.data).Rejected?
  {
    var sheet := body.file.sheet.value;
    var r: Stage<V, R> := Intake(body, kind, schema);
    var pr := ParseSheet(sheet, kind);
    if r.Stop? && r.outcome.Preview? {
      var surviving := SurvivingRows(sheet);
      assert pr.errors == [];
      assert pr.data == surviving && forall k :: 0 <= k < |surviving| ==> Acceptable(surviving[k], kind) by {
        NoParseErrors(sheet, kind);
      }
      var rows := MappedRows(sheet, kind);
      var vr := ValidateData(rows, schema);
      assert r.outcome == Preview(vr.valid, vr.invalid, pr.totalRows, |vr.valid|);
      assert |rows| == |surviving| == pr.totalRows;
      assert EntriesFaithful(vr.invalid, rows, schema, 2);
    }
  }

  /** When the ladder gets past validation, no surviving row was dropped:
      every one passed the parser and its schema, and the records are theirs,
      in order. */
  lemma IntakeValidatedAll<V, R>(body: Body, kind: Kind, schema: Record -> SchemaResult<V>)
    ensures var r: Stage<V, R> := Intake(body, kind, schema);
            r.Validated? ==>
              && Decoded(body)
              && var rows := MappedRows(body.file.sheet.value, kind);
              && r.totalRows == |rows| == |r.valid|
              && (forall k :: 0 <= k < |rows| ==> schema(rows[k]).Parsed? && r.valid[k] == schema(rows[k]).value)
  {
    var r: Stage<V, R> := Intake(body, kind, schema);
    if r.Validated? {
      var sheet := body.file.sheet.value;
      NoParseErrors(sheet, kind);
      var rows := MappedRows(sheet, kind);
      var vr := ValidateData(rows, schema);
      NoInvalidIffAllParse(rows, schema);
    }
  }

  /** The single transaction: every record or, when it throws, none. */
  function Commit<V, R>(db: Database, records: seq<R>, total: nat, validRows: nat): (o: Outcome<V, R>)
    ensures db.commitFault.Some? ==> o == ServerError(FaultMessage(db.commitFault.value))
    ensures db.commitFault.None? ==> o == Persisted(|records|, total, validRows, records)
  {
    match db.commitFault
    case Some(f) => ServerError(FaultMessage(f))
    case None => Persisted(|records|, total, validRows, records)
  }

  /** One create per valid student row, in order. */
  function StudentRecords(valid: seq<StudentData>): (rs: seq<StudentCreate>)
    ensures |rs| == |valid|
    ensures forall i :: 0 <= i < |valid| ==> rs[i] == MapStudentToPrisma(valid[i])
  {
    seq(|valid|, i requires 0 <= i < |valid| => MapStudentToPrisma(valid[i]))
  }

  /** `POST /api/upload/students`: no name resolution; one create per valid
      row, in order. */
  function UploadStudents(body: Body, db: Database): (o: Outcome<StudentData, StudentCreate>)
    ensures o.Persisted? ==> |o.records| == o.created
  {
    match Intake(body, Students, StudentSchema)
    case Stop(out) => out
    case Validated(valid, total) => Commit(db, StudentRecords(valid), total, |valid|)
  }

  /** The student name of every record of `valid`, in order. */
  function Names<V>(valid: seq<V>, nameOf: V -> string): (ns: seq<string>)
    ensures |ns| == |valid|
    ensures forall i :: 0 <= i < |valid| ==> ns[i] == nameOf(valid[i])
  {
    seq(|valid|, i requires 0 <= i < |valid| => nameOf(valid[i]))
  }

  /** Some stored student carries the name. */
  ghost predicate Stored(store: seq<StoredStudent>, n: string) {
    exists j :: 0 <= j < |store| && store[j].name == n
  }

  /** The requested names the lookup map has no entry for, in order. */
  function Unresolved(m: map<string, string>, names: seq<string>): seq<string> {
    Filter(names, (n: string) => n !in m)
  }

  /** Some name is unresolved exactly when some record names a student
      nobody stored; when none is, every record's name has an entry. */
  lemma UnresolvedIffUnknown<V>(store: seq<StoredStudent>, valid: seq<V>, nameOf: V -> string)
    ensures var names := Dedupe(Names(valid, nameOf));
            var m := CreateStudentNameToIdMap(store, names);
            && (|Unresolved(m, names)| > 0 <==> exists i :: 0 <= i < |valid| && !Stored(store, nameOf(valid[i])))
            && (|Unresolved(m, names)| == 0 ==> forall i :: 0 <= i < |valid| ==> nameOf(valid[i]) in m)
  {
    var names := Dedupe(Names(valid, nameOf));
    var m := CreateStudentNameToIdMap(store, names);
    var missing := Unresolved(m, names);
    if |missing| > 0 {
      var n := missing[0];
      assert n in missing;
      var i :| 0 <= i < |valid| && nameOf(valid[i]) == n;
      assert !Stored(store, nameOf(valid[i]));
    } else {
      FilterLength(names, (n: string) => n !in m);
      forall i | 0 <= i < |valid|
        ensures nameOf(valid[i]) in m
      {
        assert nameOf(valid[i]) in Names(valid, nameOf);
      }
    }
  }

  /** Every record built with the id the map gives its student's name. */
  function Linked<V, R>(valid: seq<V>, m: map<string, string>, nameOf: V -> string, build: (V, string) -> R): seq<R>
    requires forall i :: 0 <= i < |valid| ==> nameOf(valid[i]) in m
  {
    seq(|valid|, i requires 0 <= i < |valid| => build(valid[i], m[nameOf(valid[i])]))
  }

  /** When every name resolves, each linked record carries the id of the
      last stored student with its name. */
  lemma LinkedToLast<V, R>(store: seq<StoredStudent>, valid: seq<V>, nameOf: V -> string, build: (V, string) -> R)
    requires var names := Dedupe(Names(valid, nameOf));
             |Unresolved(CreateStudentNameToIdMap(store, names), names)| == 0
    ensures var names := Dedupe(Names(valid, nameOf));
            var m := CreateStudentNameToIdMap(store, names);
            && (forall i :: 0 <= i < |valid| ==> nameOf(valid[i]) in m)
            && |Linked(valid, m, nameOf, build)| == |valid|
            && forall i :: 0 <= i < |valid| ==>
                 exists j :: 0 <= j < |store| && store[j].name == nameOf(valid[i]) &&
                   LastWithName(store, j) && Linked(valid, m, nameOf, build)[i] == build(valid[i], store[j].id)
  {
    var names := Dedupe(Names(valid, nameOf));
    var m := CreateStudentNameToIdMap(store, names);
    UnresolvedIffUnknown(store, valid, nameOf);
    var rs := Linked(valid, m, nameOf, build);
    forall i | 0 <= i < |valid|
      ensures exists j :: 0 <= j < |store| && store[j].name == nameOf(valid[i]) &&
                LastWithName(store, j) && rs[i] == build(valid[i], store[j].id)
    {
      var n := nameOf(valid[i]);
      assert n in Names(valid, nameOf);
      var k :| 0 <= k < |store| && store[k].name == n;
      ResolvedIdsAreStored(store, names, n, k);
    }
  }

  /** Steps 4 and 5 of the grade and goal handlers: resolve the distinct
      student names; refuse the whole upload when any is unknown; otherwise
      insert every record linked to its student's id. */
  function ResolveAndCommit<V, R>(db: Database, valid: seq<V>, total: nat, nameOf: V -> string, build: (V, string) -> R)
    : (o: Outcome<V, R>)
    ensures db.lookupFault.Some? ==> o == ServerError(FaultMessage(db.lookupFault.value))
    ensures o.MissingStudents? || o.Persisted? || o.ServerError?
    ensures o.MissingStudents? <==>
              db.lookupFault.None? && exists i :: 0 <= i < |valid| && !Stored(db.students, nameOf(valid[i]))
  {
    var names := Dedupe(Names(valid, nameOf));
    match db.lookupFault
    case Some(f) => ServerError(FaultMessage(f))
    case None =>
      var m := CreateStudentNameToIdMap(db.students, names);
      var missing := Unresolved(m, names);
      UnresolvedIffUnknown(db.students, valid, nameOf);
      if |missing| > 0 then MissingStudents(missing)
      else
        Commit(db, Linked(valid, m, nameOf, build), total, |valid|)
  }

  /** The unresolved names are the records' names nobody stored, each
      once, in the order the names first occur among the records. */
  lemma UnresolvedListed<V>(store: seq<StoredStudent>, valid: seq<V>, nameOf: V -> string)
    ensures var all := Names(valid, nameOf);
            var names := Dedupe(all);
            var missing := Unresolved(CreateStudentNameToIdMap(store, names), names);
            && Distinct(missing)
            && (forall n :: n in missing <==> n in all && !Stored(store, n))
            && (forall i, j :: 0 <= i < j < |missing| ==>
                  missing[i] in all && missing[j] in all &&
                  FirstIndex(all, missing[i]) < FirstIndex(all, missing[j]))
  {
    var all := Names(valid, nameOf);
    var names := Dedupe(all);
    var m := CreateStudentNameToIdMap(store, names);
    var unknown := (n: string) => n !in m;
    var missing := Unresolved(m, names);
    assert missing == Filter(names, unknown);
    FilterKeepsOrder(names, unknown, (a: string, b: string) => a != b);
    DedupeFirstOccurrenceOrder(all);
    var earlier := (a: string, b: string) => a in all && b in all && FirstIndex(all, a) < FirstIndex(all, b);
    FilterKeepsOrder(names, unknown, earlier);
    forall n
      ensures n in missing <==> n in all && !Stored(store, n)
    {
      if n in names && Stored(store, n) {
        var j :| 0 <= j < |store| && store[j].name == n;
      }
    }
  }

  /** The refusal lists every unknown student name once, in the order the
      names first occur among the records, and nothing else; nothing is
      written even for the records whose student is known. */
  lemma MissingStudentsListed<V, R>(db: Database, valid: seq<V>, total: nat, nameOf: V -> string, build: (V, string) -> R)
    ensures var o := ResolveAndCommit(db, valid, total, nameOf, build);
            var all := Names(valid, nameOf);
            o.MissingStudents? ==>
              && |o.names| > 0 && Distinct(o.names) && Inserted(o) == []
              && (forall n :: n in o.names <==> n in all && !Stored(db.students, n))
              && (forall i, j :: 0 <= i < j < |o.names| ==>
                    o.names[i] in all && o.names[j] in all &&
                    FirstIndex(all, o.names[i]) < FirstIndex(all, o.names[j]))
  {
    var o := ResolveAndCommit(db, valid, total, nameOf, build);
    if o.MissingStudents? {
      var names := Dedupe(Names(valid, nameOf));
      assert o.names == Unresolved(CreateStudentNameToIdMap(db.students, names), names);
      UnresolvedListed(db.students, valid, nameOf);
    }
  }

  /** A successful resolution inserts one record per validated record, in
      order, each linked to the id of the last stored student carrying its
      name. */
  lemma PersistedLinks<V, R>(db: Database, valid: seq<V>, total: nat, nameOf: V -> string, build: (V, string) -> R)
    ensures var o := ResolveAndCommit(db, valid, total, nameOf, build);
            o.Persisted? ==>
              && o.created == o.validRows == |o.records| == |valid| && o.total == total
              && forall i :: 0 <= i < |valid| ==>
                   exists j :: 0 <= j < |db.students| && db.students[j].name == nameOf(valid[i]) &&
                     LastWithName(db.students, j) && o.records[i] == build(valid[i], db.students[j].id)
  {
    var o := ResolveAndCommit(db, valid, total, nameOf, build);
    if o.Persisted? {
      var names := Dedupe(Names(valid, nameOf));
      var m := CreateStudentNameToIdMap(db.students, names);
      assert |Unresolved(m, names)| == 0;
      LinkedToLast(db.students, valid, nameOf, build);
      assert o.records == Linked(valid, m, nameOf, build);
    }
  }

  /** `POST /api/upload/grades`. */
  function UploadGrades(body: Body, db: Database): (o: Outcome<GradeData, GradeCreate>)
    ensures o.MissingStudents? || o.Persisted? ==> Intake<GradeData, GradeCreate>(body, Grades, GradeSchema).Validated?
  {
    match Intake(body, Grades, GradeSchema)
    case Stop(out) => out
    case Validated(valid, total) =>
      ResolveAndCommit(db, valid, total, (g: GradeData) => g.studentName, MapGradeToPrisma)
  }

  /** `POST /api/upload/goals`. */
  function UploadGoals(body: Body, db: Database): (o: Outcome<GoalData, GoalCreate>)
    ensures o.MissingStudents? || o.Persisted? ==> Intake<GoalData, GoalCreate>(body, Goals, GoalSchema).Validated?
  {
    match Intake(body, Goals, GoalSchema)
    case Stop(out) => out
    case Validated(valid, total) =>
      ResolveAndCommit(db, valid, total, (g: GoalData) => g.studentName, MapGoalToPrisma)
  }

  /** Students: the upload writes every surviving row or nothing. On success
      the created, valid and total counts coincide, and the records are the
      mapped rows in sheet order; every other response writes nothing. */
  lemma StudentsAllOrNothing(body: Body, db: Database)
    ensures var o := UploadStudents(body, db);
            && (!o.Persisted? ==> Inserted(o) == [])
            && (o.Persisted? ==>
                  && Decoded(body)
                  && var rows := MappedRows(body.file.sheet.value, Students);
                  && o.created == o.validRows == o.total == |rows| == |o.records|
                  && forall k :: 0 <= k < |rows| ==>
                       StudentSchema(rows[k]).Parsed? && o.records[k] == MapStudentToPrisma(StudentSchema(rows[k]).value))
  {
    IntakeValidatedAll<StudentData, StudentCreate>(body, Students, StudentSchema);
  }

  /** Grades: on success every surviving row is inserted, in order, linked to
      the last stored student with its name, and the three counts coincide;
      every other response writes nothing. */
  lemma GradesAllOrNothing(body: Body, db: Database)
    ensures var o := UploadGrades(body, db);
            && (!o.Persisted? ==> Inserted(o) == [])
            && (o.Persisted? ==>
                  && Decoded(body)
                  && var rows := MappedRows(body.file.sheet.value, Grades);
                  && o.created == o.validRows == o.total == |rows| == |o.records|
                  && forall k :: 0 <= k < |rows| ==>
                       && GradeSchema(rows[k]).Parsed?
                       && var g := GradeSchema(rows[k]).value;
                       exists j :: 0 <= j < |db.students| && db.students[j].name == g.studentName &&
                         LastWithName(db.students, j) && o.records[k] == MapGradeToPrisma(g, db.students[j].id))
  {
    IntakeValidatedAll<GradeData, GradeCreate>(body, Grades, GradeSchema);
    var st: Stage<GradeData, GradeCreate> := Intake(body, Grades, GradeSchema);
    var o := UploadGrades(body, db);
    if o.Persisted? {
      var nameOf := (g: GradeData) => g.studentName;
      assert o == ResolveAndCommit(db, st.valid, st.totalRows, nameOf, MapGradeToPrisma);
      PersistedLinks(db, st.valid, st.totalRows, nameOf, MapGradeToPrisma);
      var rows := MappedRows(body.file.sheet.value, Grades);
      forall k | 0 <= k < |rows|
        ensures exists j :: 0 <= j < |db.students| && db.students[j].name == GradeSchema(rows[k]).value.studentName &&
                  LastWithName(db.students, j) && o.records[k] == MapGradeToPrisma(GradeSchema(rows[k]).value, db.students[j].id)
      {
        assert st.valid[k] == GradeSchema(rows[k]).value;
        assert nameOf(st.valid[k]) == st.valid[k].studentName;
      }
    }
  }

  /** Goals: the same guarantee, every goal created `IN_PROGRESS`. */
  lemma GoalsAllOrNothing(body: Body, db: Database)
    ensures var o := UploadGoals(body, db);
            && (!o.Persisted? ==> Inserted(o) == [])
            && (o.Persisted? ==>
                  && Decoded(body)
                  && var rows := MappedRows(body.file.sheet.value, Goals);
                  && o.created == o.validRows == o.total == |rows| == |o.records|
                  && forall k :: 0 <= k < |rows| ==>
                       && GoalSchema(rows[k]).Parsed?
                       && var g := GoalSchema(rows[k]).value;
                       exists j :: 0 <= j < |db.students| && db.students[j].name == g.studentName &&
                         LastWithName(db.students, j) && o.records[k] == MapGoalToPrisma(g, db.students[j].id))
  {
    IntakeValidatedAll<GoalData, GoalCreate>(body, Goals, GoalSchema);
    var st: Stage<GoalData, GoalCreate> := Intake(body, Goals, GoalSchema);
    var o := UploadGoals(body, db);
    if o.Persisted? {
      var nameOf := (g: GoalData) => g.studentName;
      assert o == ResolveAndCommit(db, st.valid, st.totalRows, nameOf, MapGoalToPrisma);
      PersistedLinks(db, st.valid, st.totalRows, nameOf, MapGoalToPrisma);
      var rows := MappedRows(body.file.sheet.value, Goals);
      forall k | 0 <= k < |rows|
        ensures exists j :: 0 <= j < |db.students| && db.students[j].name == GoalSchema(rows[k]).value.studentName &&
                  LastWithName(db.students, j) && o.records[k] == MapGoalToPrisma(GoalSchema(rows[k]).value, db.students[j].id)
      {
        assert st.valid[k] == GoalSchema(rows[k]).value;
        assert nameOf(st.valid[k]) == st.valid[k].studentName;
      }
    }
  }

  /** Grades: the upload is refused as a whole exactly when, past
      validation and a working lookup, some record names a student nobody
      stored; the refusal lists each such name once, in first-occurrence
      order. */
  lemma GradesMissingStudents(body: Body, db: Database)
    ensures var o := UploadGrades(body, db);
            var st: Stage<GradeData, GradeCreate> := Intake(body, Grades, GradeSchema);
            && (o.MissingStudents? <==>
                  st.Validated? && db.lookupFault.None? &&
                  exists i :: 0 <= i < |st.valid| && !Stored(db.students, st.valid[i].studentName))
            && (o.MissingStudents? ==>
                  var all := Names(st.valid, (g: GradeData) => g.studentName);
                  && Distinct(o.names)
                  && (forall n :: n in o.names <==> n in all && !Stored(db.students, n))
                  && (forall i, j :: 0 <= i < j < |o.names| ==>
                        o.names[i] in all && o.names[j] in all &&
                        FirstIndex(all, o.names[i]) < FirstIndex(all, o.names[j])))
  {
    var st: Stage<GradeData, GradeCreate> := Intake(body, Grades, GradeSchema);
    if st.Validated? {
      MissingStudentsListed(db, st.valid, st.totalRows, (g: GradeData) => g.studentName, MapGradeToPrisma);
    }
  }

  /** Goals: refused as a whole exactly when some validated goal names an
      unknown student. */
  lemma GoalsMissingStudents(body: Body, db: Database)
    ensures var o := UploadGoals(body, db);
            var st: Stage<GoalData, GoalCreate> := Intake(body, Goals, GoalSchema);
            && (o.MissingStudents? <==>
                  st.Validated? && db.lookupFault.None? &&
                  exists i :: 0 <= i < |st.valid| && !Stored(db.students, st.valid[i].studentName))
            && (o.MissingStudents? ==>
                  var all := Names(st.valid, (g: GoalData) => g.studentName);
                  && Distinct(o.names)
                  && (forall n :: n in o.names <==> n in all && !Stored(db.students, n)))
  {
    var st: Stage<GoalData, GoalCreate> := Intake(body, Goals, GoalSchema);
    if st.Validated? {
      MissingStudentsListed(db, st.valid, st.totalRows, (g: GoalData) => g.studentName, MapGoalToPrisma);
    }
  }

  /** The sheet of one student row with an empty name and a grade of 2. */
  function EmptyNameSheet(): seq<seq<Cell>> {
    [[Str("이름"), Str("학년")], [Str(""), Num(2.0)]]
  }

  /** Its one data row survives the blank-row filter as a row object. */
  lemma EmptyNameSheetSurvives()
    ensures SurvivingRows(EmptyNameSheet()) == [map[Str("이름") := Str(""), Str("학년") := Num(2.0)]]
  {
    var sheet := EmptyNameSheet();
    assert Filled(sheet[1][1]);
    assert Filter(sheet[1..], NonBlank) == [sheet[1]];
    assert BuildObject(sheet[0], sheet[1]) == map[Str("이름") := Str(""), Str("학년") := Num(2.0)];
  }

  /** The parser reports exactly one error, on the name of row 2. */
  lemma EmptyNameSheetErrors()
    ensures ParseSheet(EmptyNameSheet(), Students).errors ==
              [ParseError(2, "이름", "이름은 필수 항목입니다", Some(Str("")))]
  {
    EmptyNameSheetSurvives();
    var row := map[Str("이름") := Str(""), Str("학년") := Num(2.0)];
    assert ValidateRow(row, Students, 2) == [ParseError(2, "이름", "이름은 필수 항목입니다", Some(Str("")))];
    assert CheckRows([row], Students, 2).1 == ValidateRow(row, Students, 2);
  }

  /** A sheet whose only data row has an empty name and a grade of 2 is
      refused by the parser with one error on row 2; it never reaches the
      preview. */
  lemma EmptyNameRowFailsParsing(db: Database)
    ensures var sheet := [[Str("이름"), Str("학년")], [Str(""), Num(2.0)]];
            UploadStudents(Form(Spreadsheet(Some(sheet))), db) ==
              ParseFailed([ParseError(2, "이름", "이름은 필수 항목입니다", Some(Str("")))])
  {
    var body := Form(Spreadsheet(Some(EmptyNameSheet())));
    assert [[Str("이름"), Str("학년")], [Str(""), Num(2.0)]] == EmptyNameSheet();
    EmptyNameSheetErrors();
    IntakeStopsOnParseErrors<StudentData, StudentCreate>(body, Students, StudentSchema);
    var r: Stage<StudentData, StudentCreate> := Intake(body, Students, StudentSchema);
    assert r == Stop(ParseFailed([ParseError(2, "이름", "이름은 필수 항목입니다", Some(Str("")))]));
  }
}

=== FILE: validator.dfy ===
/** The schema validator of `lib/excel/validator.ts`: the three zod object
    schemas written out as checks that either produce the typed record or a
    non-empty list of issues, and `validateData`, which partitions the mapped
    rows into valid records and invalid rows with formatted messages. */
module Validator {
  import opened Collections
  import opened Cells
  import opened Parser

  /** One zod issue: the path to the failing field and its message. */
  datatype Issue = Issue(path: seq<string>, message: string)

  type Issues = s: seq<Issue> | |s| > 0 witness [Issue([], "")]

  type Messages = s: seq<string> | |s| > 0 witness [""]

  /** `schema.safeParse(row)`: the parsed record, or at least one issue. */
  datatype SchemaResult<+V> = Parsed(value: V) | Rejected(issues: Issues)

  /** An `.optional().nullable()` field of the parsed record: left out,
      explicitly `null`, or given. */
  datatype Optional<+T> = Missing | Nulled | Has(value: T)

  datatype StudentData = StudentData(
    name: string, grade: real, classNo: Optional<real>,
    phone: Optional<string>, parentPhone: Optional<string>, address: Optional<string>)

  datatype GradeData = GradeData(
    studentName: string, subject: string, semester: string,
    examType: string, score: real, examDate: string)

  datatype GoalData = GoalData(
    studentName: string, title: string, currentScore: real, targetScore: real, deadline: string)

  /** `record[field]`, `None` standing for `undefined`. */
  function Get(r: Record, field: string): Option<Cell> {
    if field in r then Some(r[field]) else None
  }

  // The rules the schemas impose, stated on the field values.

  predicate IsInteger(x: real) {
    x == x.Floor as real
  }

  /** A string whose JavaScript length lies in `[lo, hi]`. */
  predicate TextWithin(v: Option<Cell>, lo: nat, hi: nat) {
    v.Some? && v.value.Str? && lo <= JsLength(v.value.text) <= hi
  }

  /** A non-empty string of any length. */
  predicate NonEmptyText(v: Option<Cell>) {
    v.Some? && v.value.Str? && JsLength(v.value.text) >= 1
  }

  /** A number in `[lo, hi]`. */
  predicate NumberWithin(v: Option<Cell>, lo: real, hi: real) {
    v.Some? && v.value.Num? && lo <= v.value.number <= hi
  }

  /** An integer in `[lo, hi]`. */
  predicate IntegerWithin(v: Option<Cell>, lo: real, hi: real) {
    NumberWithin(v, lo, hi) && IsInteger(v.value.number)
  }

  /** Left out or `null`: what `.optional().nullable()` lets through. */
  predicate Absent(v: Option<Cell>) {
    v.None? || v.value == Null
  }

  predicate IsDigit(c: char) {
    '0' <= c <= '9'
  }

  /** `/^010-\d{4}-\d{4}$/`. */
  predicate PhonePattern(s: string) {
    && |s| == 13
    && s[..4] == "010-"
    && s[8] == '-'
    && (forall i :: 4 <= i < 8 ==> IsDigit(s[i]))
    && (forall i :: 9 <= i < 13 ==> IsDigit(s[i]))
  }

  const ExamTypes: seq<string> := ["중간고사", "기말고사", "모의고사", "수행평가"]

  /** `studentSchema`: name 1..50 characters, grade an integer in 1..12,
      and, when given and not null, class an integer in 1..20, both phone
      numbers of the form 010-dddd-dddd and an address of at most 200
      characters. */
  predicate ValidStudent(r: Record) {
    && TextWithin(Get(r, "name"), 1, 50)
    && IntegerWithin(Get(r, "grade"), 1.0, 12.0)
    && (Absent(Get(r, "class")) || IntegerWithin(Get(r, "class"), 1.0, 20.0))
    && (Absent(Get(r, "phone")) || (Get(r, "phone").value.Str? && PhonePattern(Get(r, "phone").value.text)))
    && (Absent(Get(r, "parentPhone")) || (Get(r, "parentPhone").value.Str? && PhonePattern(Get(r, "parentPhone").value.text)))
    && (Absent(Get(r, "address")) || TextWithin(Get(r, "address"), 0, 200))
  }

  /** `gradeSchema`: student name, semester and exam date non-empty, subject
      1..50 characters, exam type one of the four kinds, score in [0, 100]. */
  predicate ValidGrade(r: Record) {
    && NonEmptyText(Get(r, "studentName"))
    && TextWithin(Get(r, "subject"), 1, 50)
    && NonEmptyText(Get(r, "semester"))
    && (Get(r, "examType").Some? && Get(r, "examType").value.Str? && Get(r, "examType").value.text in ExamTypes)
    && NumberWithin(Get(r, "score"), 0.0, 100.0)
    && NonEmptyText(Get(r, "examDate"))
  }

  /** `goalSchema`: student name and deadline non-empty, title 1..100
      characters, both scores in [0, 100]. */
  predicate ValidGoal(r: Record) {
    && NonEmptyText(Get(r, "studentName"))
    && TextWithin(Get(r, "title"), 1, 100)
    && NumberWithin(Get(r, "currentScore"), 0.0, 100.0)
    && NumberWithin(Get(r, "targetScore"), 0.0, 100.0)
    && NonEmptyText(Get(r, "deadline"))
  }

  // How zod reports each field: a type problem stops the field with zod's
  // default message; otherwise every failing refinement adds its own.

  datatype Check<+T> = Pass(value: T) | Fail(messages: Messages)

  function TypeName(c: Cell): string {
    match c
    case Null => "null"
    case Str(_) => "string"
    case Num(_) => "number"
  }

  /** Zod's message when a value is missing or of the wrong type. */
  function TypeMessage(expected: string, v: Option<Cell>): string {
    if v.None? then "Required" else "Expected " + expected + ", received " + TypeName(v.value)
  }

  function Collect<T>(ms: seq<string>, value: T): Check<T> {
    if |ms| == 0 then Pass(value) else Fail(ms)
  }

  /** `z.string().min(lo, loMsg)` and, when `hi` is given, `.max(hi, hiMsg)`. */
  function TextField(v: Option<Cell>, lo: nat, loMsg: string, hi: Option<(nat, string)>): (c: Check<string>)
    ensures c.Pass? <==> v.Some? && v.value.Str? && lo <= JsLength(v.value.text) && (hi.Some? ==> JsLength(v.value.text) <= hi.value.0)
    ensures c.Pass? ==> c.value == v.value.text
  {
    if v.Some? && v.value.Str? then
      var s := v.value.text;
      Collect((if JsLength(s) < lo then [loMsg] else []) + (if hi.Some? && JsLength(s) > hi.value.0 then [hi.value.1] else []), s)
    else Fail([TypeMessage("string", v)])
  }

  /** `z.number()` with `.int(intMsg)` when given, then `.min` and `.max`. */
  function NumberField(v: Option<Cell>, intMsg: Option<string>, lo: real, loMsg: string, hi: real, hiMsg: string): (c: Check<real>)
    ensures c.Pass? <==> NumberWithin(v, lo, hi) && (intMsg.Some? ==> IsInteger(v.value.number))
    ensures c.Pass? ==> c.value == v.value.number
  {
    if v.Some? && v.value.Num? then
      var x := v.value.number;
      Collect((if intMsg.Some? && !IsInteger(x) then [intMsg.value] else [])
              + (if x < lo then [loMsg] else []) + (if x > hi then [hiMsg] else []), x)
    else Fail([TypeMessage("number", v)])
  }

  /** `.optional().nullable()` around a field check. */
  function Nullable<T>(v: Option<Cell>, inner: Check<T>): (c: Check<Optional<T>>)
    ensures c.Pass? <==> Absent(v) || inner.Pass?
    ensures c.Pass? ==> (c.value.Has? <==> !Absent(v))
    ensures c.Pass? && c.value.Has? ==> inner.Pass? && c.value.value == inner.value
  {
    if v.None? then Pass(Missing)
    else if v.value == Null then Pass(Nulled)
    else match inner
      case Pass(x) => Pass(Has(x))
      case Fail(ms) => Fail(ms)
  }

  /** `z.string().regex(phoneRegex, message)`. */
  function PhoneField(v: Option<Cell>): (c: Check<string>)
    ensures c.Pass? <==> v.Some? && v.value.Str? && PhonePattern(v.value.text)
    ensures c.Pass? ==> c.value == v.value.text
  {
    if v.Some? && v.value.Str? then
      if PhonePattern(v.value.text) then Pass(v.value.text)
      else Fail(["올바른 전화번호 형식이 아닙니다 (예: 010-1234-5678)"])
    else Fail([TypeMessage("string", v)])
  }

  /** `z.enum([...], { errorMap })`: every failure gets the one custom message. */
  function EnumField(v: Option<Cell>, options: seq<string>, message: string): (c: Check<string>)
    ensures c.Pass? <==> v.Some? && v.value.Str? && v.value.text in options
    ensures c.Pass? ==> c.value == v.value.text
  {
    if v.Some? && v.value.Str? && v.value.text in options then Pass(v.value.text) else Fail([message])
  }

  /** The issues of one field, each with that field as its path. */
  function IssuesOf<T>(field: string, c: Check<T>): (r: seq<Issue>)
    ensures r == [] <==> c.Pass?
    ensures forall i :: i in r ==> i.path == [field]
  {
    match c
    case Pass(_) => []
    case Fail(ms) =>
      assert ms[0] in ms;
      seq(|ms|, k requires 0 <= k < |ms| => Issue([field], ms[k]))
  }

  function StudentSchema(r: Record): (res: SchemaResult<StudentData>)
    ensures res.Parsed? <==> ValidStudent(r)
    ensures res.Parsed? ==>
              && res.value.name == r["name"].text
              && res.value.grade == r["grade"].number
              && (res.value.classNo.Has? <==> !Absent(Get(r, "class")))
              && (res.value.classNo.Has? ==> res.value.classNo.value == r["class"].number)
              && (res.value.phone.Has? <==> !Absent(Get(r, "phone")))
              && (res.value.phone.Has? ==> res.value.phone.value == r["phone"].text)
              && (res.value.parentPhone.Has? <==> !Absent(Get(r, "parentPhone")))
              && (res.value.parentPhone.Has? ==> res.value.parentPhone.value == r["parentPhone"].text)
              && (res.value.address.Has? <==> !Absent(Get(r, "address")))
              && (res.value.address.Has? ==> res.value.address.value == r["address"].text)
  {
    var name := TextField(Get(r, "name"), 1, "이름은 필수입니다", Some((50, "이름은 50자 이하여야 합니다")));
    var grade := NumberField(Get(r, "grade"), Some("학년은 정수여야 합니다"),
                             1.0, "학년은 1 이상이어야 합니다", 12.0, "학년은 12 이하여야 합니다");
    var classNo := Nullable(Get(r, "class"), NumberField(Get(r, "class"), Some("반은 정수여야 합니다"),
                             1.0, "반은 1 이상이어야 합니다", 20.0, "반은 20 이하여야 합니다"));
    var phone := Nullable(Get(r, "phone"), PhoneField(Get(r, "phone")));
    var parentPhone := Nullable(Get(r, "parentPhone"), PhoneField(Get(r, "parentPhone")));
    var address := Nullable(Get(r, "address"), TextField(Get(r, "address"), 0, "", Some((200, "주소는 200자 이하여야 합니다"))));
    var issues := IssuesOf("name", name) + IssuesOf("grade", grade) + IssuesOf("class", classNo)
                  + IssuesOf("phone", phone) + IssuesOf("parentPhone", parentPhone) + IssuesOf("address", address);
    if |issues| == 0 then
      Parsed(StudentData(name.value, grade.value, classNo.value, phone.value, parentPhone.value, address.value))
    else Rejected(issues)
  }

  function GradeSchema(r: Record): (res: SchemaResult<GradeData>)
    ensures res.Parsed? <==> ValidGrade(r)
    ensures res.Parsed? ==>
              res.value == GradeData(r["studentName"].text, r["subject"].text, r["semester"].text,
                                     r["examType"].text, r["score"].number, r["examDate"].text)
  {
    var studentName := TextField(Get(r, "studentName"), 1, "학생명은 필수입니다", None);
    var subject := TextField(Get(r, "subject"), 1, "과목명은 필수입니다", Some((50, "과목명은 50자 이하여야 합니다")));
    var semester := TextField(Get(r, "semester"), 1, "학기는 필수입니다", None);
    var examType := EnumField(Get(r, "examType"), ExamTypes,
                              "시험종류는 중간고사, 기말고사, 모의고사, 수행평가 중 하나여야 합니다");
    var score := NumberField(Get(r, "score"), None, 0.0, "점수는 0 이상이어야 합니다", 100.0, "점수는 100 이하여야 합니다");
    var examDate := TextField(Get(r, "examDate"), 1, "시험일자는 필수입니다", None);
    var issues := IssuesOf("studentName", studentName) + IssuesOf("subject", subject) + IssuesOf("semester", semester)
                  + IssuesOf("examType", examType) + IssuesOf("score", score) + IssuesOf("examDate", examDate);
    if |issues| == 0 then
      Parsed(GradeData(studentName.value, subject.value, semester.value, examType.value, score.value, examDate.value))
    else Rejected(issues)
  }

  function GoalSchema(r: Record): (res: SchemaResult<GoalData>)
    ensures res.Parsed? <==> ValidGoal(r)
    ensures res.Parsed? ==>
              res.value == GoalData(r["studentName"].text, r["title"].text, r["currentScore"].number,
                                    r["targetScore"].number, r["deadline"].text)
  {
    var studentName := TextField(Get(r, "studentName"), 1, "학생명은 필수입니다", None);
    var title := TextField(Get(r, "title"), 1, "목표제목은 필수입니다", Some((100, "목표제목은 100자 이하여야 합니다")));
    var currentScore := NumberField(Get(r, "currentScore"), None, 0.0, "현재점수는 0 이상이어야 합니다", 100.0, "현재점수는 100 이하여야 합니다");
    var targetScore := NumberField(Get(r, "targetScore"), None, 0.0, "목표점수는 0 이상이어야 합니다", 100.0, "목표점수는 100 이하여야 합니다");
    var deadline := TextField(Get(r, "deadline"), 1, "마감일은 필수입니다", None);
    var issues := IssuesOf("studentName", studentName) + IssuesOf("title", title)
                  + IssuesOf("currentScore", currentScore) + IssuesOf("targetScore", targetScore)
                  + IssuesOf("deadline", deadline);
    if |issues| == 0 then
      Parsed(GoalData(studentName.value, title.value, currentScore.value, targetScore.value, deadline.value))
    else Rejected(issues)
  }

  /** `path.join('.')`. */
  function Join(parts: seq<string>, sep: string): string
    decreases |parts|
  {
    if |parts| == 0 then ""
    else if |parts| == 1 then parts[0]
    else parts[0] + sep + Join(parts[1..], sep)
  }

  /** One error line: `"path: message"`, or the bare message when the
      joined path is empty. */
  function FormatIssue(i: Issue): (line: string)
    ensures |line| >= |i.message| && line[|line| - |i.message|..] == i.message
    ensures line == i.message <==> Join(i.path, ".") == ""
    ensures Join(i.path, ".") != "" ==>
              && |line| == |Join(i.path, ".")| + 2 + |i.message|
              && line[..|Join(i.path, ".")|] == Join(i.path, ".")
              && line[|Join(i.path, ".")|..|Join(i.path, ".")| + 2] == ": "
  {
    var path := Join(i.path, ".");
    if path == "" then i.message
    else
      var line := path + ": " + i.message;
      assert |line| > |i.message|;
      line
  }

  function FormatIssues(issues: seq<Issue>): (lines: seq<string>)
    ensures |lines| == |issues|
    ensures forall k :: 0 <= k < |issues| ==> lines[k] == FormatIssue(issues[k])
  {
    seq(|issues|, k requires 0 <= k < |issues| => FormatIssue(issues[k]))
  }

  /** A row the schema rejected: its spreadsheet row number, the mapped row
      as it was given, and one line per issue. */
  datatype InvalidRow = InvalidRow(row: int, data: Record, errors: seq<string>)

  /** `ValidationResult`. */
  datatype ValidationResult<+V> = ValidationResult(valid: seq<V>, invalid: seq<InvalidRow>)

  /** The records parsed from rows that all parse. */
  function ParsedOf<V>(rows: seq<Record>, schema: Record -> SchemaResult<V>): (vs: seq<V>)
    requires forall x :: x in rows ==> schema(x).Parsed?
    ensures |vs| == |rows|
    ensures forall k :: 0 <= k < |rows| ==> vs[k] == schema(rows[k]).value
  {
    seq(|rows|, k requires 0 <= k < |rows| => schema(rows[k]).value)
  }

  /** The `forEach` of `validateData` over `rows`, the first of them
      numbered `first`. */
  function ValidateFrom<V>(rows: seq<Record>, schema: Record -> SchemaResult<V>, first: int): (r: ValidationResult<V>)
    ensures |r.valid| + |r.invalid| == |rows|
    decreases |rows|
  {
    if |rows| == 0 then ValidationResult([], [])
    else
      var rest := ValidateFrom(rows[1..], schema, first + 1);
      match schema(rows[0])
      case Parsed(v) => ValidationResult([v] + rest.valid, rest.invalid)
      case Rejected(issues) =>
        ValidationResult(rest.valid, [InvalidRow(first, rows[0], FormatIssues(issues))] + rest.invalid)
  }

  /** The valid side holds the records of the rows that parse, in order. */
  lemma {:induction false} ValidValues<V>(rows: seq<Record>, schema: Record -> SchemaResult<V>, first: int)
    ensures ValidateFrom(rows, schema, first).valid == ParsedOf(Filter(rows, (x: Record) => schema(x).Parsed?), schema)
    decreases |rows|
  {
    if |rows| > 0 {
      ValidValues(rows[1..], schema, first + 1);
    }
  }

  /** Each invalid entry is a rejected row numbered by its position from
      `first`, carrying the row unchanged and its issues formatted. */
  ghost predicate EntriesFaithful<V>(inv: seq<InvalidRow>, rows: seq<Record>, schema: Record -> SchemaResult<V>, first: int) {
    forall e :: e in inv ==>
      && first <= e.row < first + |rows|
      && e.data == rows[e.row - first]
      && schema(e.data).Rejected?
      && e.errors == FormatIssues(schema(e.data).issues)
  }

  /** Entries follow the input order. */
  ghost predicate RowsIncreasing(inv: seq<InvalidRow>) {
    forall k, l :: 0 <= k < l < |inv| ==> inv[k].row < inv[l].row
  }

  /** Every rejected row has its entry. */
  ghost predicate CoversRejected<V>(inv: seq<InvalidRow>, rows: seq<Record>, schema: Record -> SchemaResult<V>, first: int) {
    forall i :: 0 <= i < |rows| && schema(rows[i]).Rejected? ==>
      exists e :: e in inv && e.row == first + i
  }

  /** The invalid side of one step: a rejected head row comes first. */
  lemma InvalidStep<V>(rows: seq<Record>, schema: Record -> SchemaResult<V>, first: int)
    requires |rows| > 0
    ensures var inv := ValidateFrom(rows, schema, first).invalid;
            var rest := ValidateFrom(rows[1..], schema, first + 1).invalid;
            if schema(rows[0]).Rejected?
            then inv == [InvalidRow(first, rows[0], FormatIssues(schema(rows[0]).issues))] + rest
            else inv == rest
  {
  }

  lemma {:induction false} InvalidFaithful<V>(rows: seq<Record>, schema: Record -> SchemaResult<V>, first: int)
    ensures EntriesFaithful(ValidateFrom(rows, schema, first).invalid, rows, schema, first)
    decreases |rows|
  {
    if |rows| > 0 {
      InvalidFaithful(rows[1..], schema, first + 1);
      InvalidStep(rows, schema, first);
      assert forall i :: 1 <= i < |rows| ==> rows[i] == rows[1..][i - 1];
    }
  }

  lemma {:induction false} InvalidIncreasing<V>(rows: seq<Record>, schema: Record -> SchemaResult<V>, first: int)
    ensures RowsIncreasing(ValidateFrom(rows, schema, first).invalid)
    decreases |rows|
  {
    if |rows| > 0 {
      InvalidIncreasing(rows[1..], schema, first + 1);
      InvalidFaithful(rows[1..], schema, first + 1);
      InvalidStep(rows, schema, first);
      var rest := ValidateFrom(rows[1..], schema, first + 1).invalid;
      var inv := ValidateFrom(rows, schema, first).invalid;
      assert forall k :: 0 <= k < |rest| ==> rest[k] in rest && first < rest[k].row;
      if schema(rows[0]).Rejected? {
        assert forall k :: 1 <= k < |inv| ==> inv[k] == rest[k - 1];
      }
    }
  }

  lemma {:induction false} InvalidCovers<V>(rows: seq<Record>, schema: Record -> SchemaResult<V>, first: int)
    ensures CoversRejected(ValidateFrom(rows, schema, first).invalid, rows, schema, first)
    decreases |rows|
  {
    if |rows| > 0 {
      InvalidCovers(rows[1..], schema, first + 1);
      InvalidStep(rows, schema, first);
      var rest := ValidateFrom(rows[1..], schema, first + 1).invalid;
      var inv := ValidateFrom(rows, schema, first).invalid;
      assert forall e :: e in rest ==> e in inv;
      forall i | 0 <= i < |rows| && schema(rows[i]).Rejected?
        ensures exists e :: e in inv && e.row == first + i
      {
        if i == 0 {
          assert inv[0] in inv;
        } else {
          assert rows[i] == rows[1..][i - 1];
        }
      }
    }
  }

  /** `validateData`: every row lands on exactly one side. Valid records keep
      the input order; an invalid row is reported as row `index + 2` with its
      data unchanged and at least one error line. */
  function ValidateData<V>(rows: seq<Record>, schema: Record -> SchemaResult<V>): (r: ValidationResult<V>)
    ensures |r.valid| + |r.invalid| == |rows|
    ensures r.valid == ParsedOf(Filter(rows, (x: Record) => schema(x).Parsed?), schema)
    ensures EntriesFaithful(r.invalid, rows, schema, 2)
    ensures forall e :: e in r.invalid ==> |e.errors| > 0
    ensures RowsIncreasing(r.invalid)
    ensures CoversRejected(r.invalid, rows, schema, 2)
  {
    ValidValues(rows, schema, 2);
    InvalidFaithful(rows, schema, 2);
    InvalidIncreasing(rows, schema, 2);
    InvalidCovers(rows, schema, 2);
    ValidateFrom(rows, schema, 2)
  }

  /** No row is reported invalid exactly when every row parses, and then
      the valid side is every row's record, in order. */
  lemma NoInvalidIffAllParse<V>(rows: seq<Record>, schema: Record -> SchemaResult<V>)
    ensures ValidateData(rows, schema).invalid == [] <==> forall i :: 0 <= i < |rows| ==> schema(rows[i]).Parsed?
    ensures ValidateData(rows, schema).invalid == [] ==> ValidateData(rows, schema).valid == ParsedOf(rows, schema)
  {
    FilterLength(rows, (x: Record) => schema(x).Parsed?);
    var r := ValidateData(rows, schema);
    if r.invalid != [] {
      assert r.invalid[0] in r.invalid;
    }
  }

  /** The record kinds' rules, selected by tag. */
  predicate ValidFor(kind: Kind, r: Record) {
    match kind
    case Students => ValidStudent(r)
    case Grades => ValidGrade(r)
    case Goals => ValidGoal(r)
  }

  function IssueList<V>(res: SchemaResult<V>): seq<Issue> {
    if res.Rejected? then res.issues else []
  }

  /** `getSchemaByType`: the schema for the tag, seen through the issues it
      reports; it reports none exactly on the records that tag's rules
      accept. */
  function GetSchemaByType(kind: Kind): (schema: Record -> seq<Issue>)
    ensures forall r :: schema(r) == [] <==> ValidFor(kind, r)
  {
    match kind
    case Students => (r: Record) => IssueList(StudentSchema(r))
    case Grades => (r: Record) => IssueList(GradeSchema(r))
    case Goals => (r: Record) => IssueList(GoalSchema(r))
  }

  /** `z.number().min(lo).max(hi)` on a number above `hi` fails with the
      upper-bound message alone. */
  lemma NumberAboveMax(x: real, lo: real, loMsg: string, hi: real, hiMsg: string)
    requires lo <= hi < x
    ensures NumberField(Some(Num(x)), None, lo, loMsg, hi, hiMsg) == Fail([hiMsg])
    ensures IssuesOf("score", NumberField(Some(Num(x)), None, lo, loMsg, hi, hiMsg)) == [Issue(["score"], hiMsg)]
  {
  }

  /** A score above 100 on an otherwise valid grade row is rejected with
      exactly one issue: the upper-bound message on `score`. */
  lemma ScoreAboveRangeRejected(r: Record, x: real)
    requires ValidGrade(r) && x > 100.0
    ensures GradeSchema(r["score" := Num(x)]) == Rejected([Issue(["score"], "점수는 100 이하여야 합니다")])
  {
    var r' := r["score" := Num(x)];
    var msg := "점수는 100 이하여야 합니다";
    NumberAboveMax(x, 0.0, "점수는 0 이상이어야 합니다", 100.0, msg);
    var studentName := TextField(Get(r', "studentName"), 1, "학생명은 필수입니다", None);
    var subject := TextField(Get(r', "subject"), 1, "과목명은 필수입니다", Some((50, "과목명은 50자 이하여야 합니다")));
    var semester := TextField(Get(r', "semester"), 1, "학기는 필수입니다", None);
    var examType := EnumField(Get(r', "examType"), ExamTypes,
                              "시험종류는 중간고사, 기말고사, 모의고사, 수행평가 중 하나여야 합니다");
    var score := NumberField(Get(r', "score"), None, 0.0, "점수는 0 이상이어야 합니다", 100.0, msg);
    var examDate := TextField(Get(r', "examDate"), 1, "시험일자는 필수입니다", None);
    assert IssuesOf("studentName", studentName) == [] by {
      assert Get(r', "studentName") == Get(r, "studentName");
    }
    assert IssuesOf("subject", subject) == [] by {
      assert Get(r', "subject") == Get(r, "subject");
    }
    assert IssuesOf("semester", semester) == [] by {
      assert Get(r', "semester") == Get(r, "semester");
    }
    assert IssuesOf("examType", examType) == [] by {
      assert Get(r', "examType") == Get(r, "examType");
    }
    assert IssuesOf("examDate", examDate) == [] by {
      assert Get(r', "examDate") == Get(r, "examDate");
    }
    assert IssuesOf("score", score) == [Issue(["score"], msg)] by {
      assert Get(r', "score") == Some(Num(x));
    }
  }

  /** A name of 26 characters beyond U+FFFF is 52 UTF-16 code units long,
      so `.max(50)` rejects it although it has only 26 characters. */
  lemma AstralNameTooLong(r: Record)
    requires "name" in r && r["name"] == Str(seq(26, _ => '\U{1F600}'))
    ensures TextField(Get(r, "name"), 1, "이름은 필수입니다", Some((50, "이름은 50자 이하여야 합니다")))
              == Fail(["이름은 50자 이하여야 합니다"])
    ensures !StudentSchema(r).Parsed?
  {
    JsLengthAstral(r["name"].text);
  }

  /** A Hangul character followed by 25 characters beyond U+FFFF is 51
      UTF-16 code units long, so `.max(50)` rejects a name of 26
      characters. */
  lemma MixedNameTooLong(r: Record)
    requires "name" in r && r["name"] == Str("김" + seq(25, _ => '\U{1F600}'))
    ensures TextField(Get(r, "name"), 1, "이름은 필수입니다", Some((50, "이름은 50자 이하여야 합니다")))
              == Fail(["이름은 50자 이하여야 합니다"])
    ensures !StudentSchema(r).Parsed?
  {
    JsLengthMixed("김", seq(25, _ => '\U{1F600}'));
  }
}
